=== FILE: README.md ===
# Active Directory privilege-risk analysis, in Dafny

This project models the analysis core of a command-line tool. The tool
looks up an Active Directory user over LDAP and resolves the user's group
memberships, nested groups included. It then works out which permissions
each group grants and finds permissions granted by more than one source,
called overlaps. It scores the account's privilege risk on four axes and
writes a PDF report per user.

Modules, following the program's own files:

- `Basics`: `Option`/`Result`, `u8` with saturating addition, `Min`, duplicate-free sequences.
- `Strings`: the parts of Rust's `str` the tool relies on. These are `contains`, ASCII `to_lowercase`, Unicode `trim`, `split`/`join` on a character and decimal `parse` for a bounded integer type.
- `Models` (`src/models.rs`): users, groups, rights and overlap records. Also the pre-order flattening of a user's group forest.
- `GroupNames`: the literal group names the rule tables test for.
- `PermissionAnalyzer` (`src/permission_analyzer.rs`): covers these steps.
  - The group-to-permission rule table.
  - The permission map from permission to granting sources.
  - Overlap detection, type and risk level.
  - The stable sort by risk level.
  - The risk summary and the redundancy score.
- `RiskCalculator` (`src/risk_calculator.rs`): covers these steps.
  - The administrative, overlap, account-security and activity sub-scores, with the risk factors they emit.
  - The weighted combination and the level thresholds.
  - The recommendations.
- `LdapClient` (`src/ldap_client.rs`): the directory is a map from distinguished name to attributes. The module models the following.
  - Recursive group resolution with its shared visited set.
  - User construction, decoding of `userAccountControl` and `groupType`.
  - Conversion of AD timestamps.
  - Base-DN extraction.
  - The rights derived from group names.
- `Cli` (`src/main.rs`): user-name sanitisation and the report file name. Also reading the user list, choosing the domain, the custom-output rule and the per-user success/failure tally.
- `Scenarios`: end-to-end consequences across modules. It covers a Schema Admins member and a Domain Admins member.

State that the Rust code mutates through `&mut` is threaded through methods by value. This covers the risk-factor vector, the visited-group set and the group collection. Each such method is proved equal to a specification function, and the properties are proved about that function.

Behaviours of the code worth noting, which a reader might not expect:

- **Visited set.** The visited set of group resolution is shared by all of one user's memberships and never shrinks. A group reachable along two paths therefore appears only once in the user's forest (`LdapClient.MembershipsSound`). It is not scoped to one path. The first path to reach it, depth first, claims it: a group linked from two siblings sits under the earlier one (`LdapClient.SharedGroupFirstPath`).
- **Repeated sources.** The permission map does not deduplicate sources. A group that grants a permission, and also yields a user right of the same name, is listed twice. A lone Schema Admins membership alone yields a Critical "Schema Modification" overlap (`Scenarios.SchemaAdminsDuplicateSource`).
- **Domain Admins alone.** A user whose only group is Domain Admins can never reach the Critical level. The overall score is at most 64 (`Scenarios.DomainAdminsNeverCritical`): the administrative score is 90 and the overlap score is 0.
- **Conflicting and Redundant overlaps.** Both follow the code's tests. Any source containing "Account Operators" together with any containing "Domain Admins" makes the overlap Conflicting. A "Domain Admins" or "Enterprise Admins" source with more than one source makes it Redundant.

## Model

| member | source | states |
|---|---|---|
| Basics.SatAdd | src/risk_calculator.rs:212 | `u8::saturating_add` yields the sum, capped at 255 |
| Strings.ContainsIffOccurs | src/permission_analyzer.rs:233 | `contains` holds exactly when the needle occurs at some offset |
| Strings.ToLower | src/permission_analyzer.rs:229 | lower-casing keeps the length and maps each character through the ASCII lower-case map |
| Strings.TrimmedShape | src/main.rs:390 | `trim` yields a contiguous slice of the input that starts and ends with non-white-space; trimming is idempotent |
| Strings.JoinSplit | src/ldap_client.rs:412 | joining the pieces of a split with the separator gives back the input |
| Strings.SplitJoin | src/ldap_client.rs:412-421 | splitting a join of separator-free pieces gives back the pieces |
| Strings.SplitFirst | src/main.rs:191 | the first piece of a split is the text before the first separator, or the whole text |
| Strings.SplitLast | src/main.rs:193 | the last piece of a split has no separator and is the suffix after the last separator, or the whole text when there is none |
| Strings.ParseDecimalRoundTrip | src/ldap_client.rs:152 | parsing the decimal rendering of an in-range value, negative too, gives that value back |
| Models.NewUser | src/models.rs:72-93 | a new user is enabled, unlocked, unexpired, has no optional attributes, no groups and no rights |
| Models.NewGroup | src/models.rs:118-127 | a new group is a global security group with no description and no nested groups |
| Models.CollectGroups | src/models.rs:109-114 | collecting appends the group and then its nested trees in pre-order |
| Models.AllGroups | src/models.rs:95-107 | the loop returns the primary group, if any, followed by the pre-order flattening of every membership tree |
| Models.FlattenSize | src/models.rs:109-114 | flattening a tree yields one entry per node |
| Models.FlattenAllMembers | src/models.rs:100-104 | a group is in the flattened forest exactly when it is a node of one of its trees |
| Models.PreOrderBlock | src/models.rs:109-114 | in the flattening, every node is immediately followed by the rest of its own subtree |
| Models.AllGroupsShape | src/models.rs:95-107 | the primary group comes first; the count is one for the primary plus the tree sizes; membership is primary or tree node |
| PermissionAnalyzer.BuiltInRule | src/permission_analyzer.rs:231-278 | a built-in rule applies exactly when the name contains one of the nine built-in group names, and it yields at least two permissions |
| PermissionAnalyzer.KeywordRule | src/permission_analyzer.rs:280-356 | a keyword rule applies exactly when the lower-cased name contains one of the keywords, and it yields at least two permissions |
| PermissionAnalyzer.GroupPermissions | src/permission_analyzer.rs:226-364 | every group yields at least two permissions; a name matching no rule gets the three-label fallback, which embeds the group name |
| PermissionAnalyzer.DomainAdminsRuleWins | src/permission_analyzer.rs:233-240 | any name containing "Domain Admins" gets the six domain permissions, led by "Full Domain Control" |
| PermissionAnalyzer.DatabaseAccessMode | src/permission_analyzer.rs:288-293 | a database group gets write access exactly when its name says "rw" or "write", and read access otherwise |
| PermissionAnalyzer.PermissionDescription | src/permission_analyzer.rs:367-379 | the generic "Permission: …" description is used exactly for permissions without a fixed description |
| PermissionAnalyzer.OverlapTypePriority | src/permission_analyzer.rs:136-154 | Escalation iff an escalation permission has more than two sources; else Conflicting iff the sources conflict; Domain or Enterprise Admins among several sources is never Duplicate |
| PermissionAnalyzer.RiskLevelPriority | src/permission_analyzer.rs:157-181 | Critical iff the permission is critical; Escalation is at least High; high-risk permissions are High; Medium exactly for the remaining administrative permissions |
| PermissionAnalyzer.HitsCount | src/permission_analyzer.rs:85-90 | one group adds its name once for every occurrence of the permission in its list |
| PermissionAnalyzer.SourcesInConcat | src/permission_analyzer.rs:83-91 | the sources for a permission, over several groups, are those of the first groups followed by those of the rest |
| PermissionAnalyzer.SourcesNonEmptyIffGranted | src/permission_analyzer.rs:79-108 | a permission has a source exactly when some group or right grants it |
| PermissionAnalyzer.AddGroupPermissions | src/permission_analyzer.rs:84-90 | pushing one group's permissions extends every entry by that group's hits and keeps every list non-empty |
| PermissionAnalyzer.AddUserRights | src/permission_analyzer.rs:94-105 | pushing the user's rights extends every entry by the right's source name and keeps every list non-empty |
| PermissionAnalyzer.BuildPermissionMap | src/permission_analyzer.rs:79-108 | the built map equals the specification map: each permission maps to all its sources, groups first, in order; its keys are exactly the granted permissions |
| PermissionAnalyzer.SortByLevelCorrect | src/permission_analyzer.rs:131 | sorting by risk level gives a level-ordered permutation of the overlaps |
| PermissionAnalyzer.CollectOverlaps | src/permission_analyzer.rs:114-128 | every collected record is a correct overlap; every multi-source permission is collected, once |
| PermissionAnalyzer.DetectOverlaps | src/permission_analyzer.rs:111-133 | the result is sorted by level, holds exactly the overlap records of the map without repeats, and covers exactly the multi-source permissions |
| PermissionAnalyzer.TakeSome | src/permission_analyzer.rs:221 | taking n from a set yields min(n, size) distinct members of it |
| PermissionAnalyzer.CalculateRiskSummary | src/permission_analyzer.rs:184-223 | the four counters count the overlaps of each level and sum to their number; at most five distinct dangerous combinations are kept |
| PermissionAnalyzer.LevelCount | src/permission_analyzer.rs:191-213 | the count of one level equals the number of multi-source permissions of that level |
| PermissionAnalyzer.AnalyzeOverlaps | src/permission_analyzer.rs:56-76 | the analysis holds the sorted overlaps, the distinct-permission count, the overlap count, the redundancy ratio and the per-level counts of the user; its dangerous combinations are min(5, all) distinct members of the combinations of those overlaps |
| PermissionAnalyzer.RatioBounds | src/permission_analyzer.rs:63-67 | the redundancy score lies in 0..100; it is 0 without permissions and otherwise 100 times the ratio |
| RiskCalculator.AdminContribution | src/risk_calculator.rs:97-210 | every group contributes 5..95; a factor is reported exactly when the contribution exceeds 20, carrying that contribution |
| RiskCalculator.DomainAdminsContribution | src/risk_calculator.rs:98-106 | a Domain Admins group contributes 90 with a Critical administrative-access factor |
| RiskCalculator.UnmatchedContribution | src/risk_calculator.rs:209 | a group matching no entry contributes 5 and reports no factor |
| RiskCalculator.AdminSumCapped | src/risk_calculator.rs:96-213 | the saturating sum over the groups is the true total capped at 255 |
| RiskCalculator.TotalContributionBounds | src/risk_calculator.rs:96-213 | the total lies between 5 and 95 per group |
| RiskCalculator.ExcessContribution | src/risk_calculator.rs:216-225 | with more than 15 groups the excess contributes 1..25, and 25 exactly from 40 groups on |
| RiskCalculator.ExcessMonotone | src/risk_calculator.rs:216-225 | the corrected excess contribution never drops as the group count grows |
| RiskCalculator.ExcessTruncation | src/risk_calculator.rs:221-224 | as written, 270 groups give 25 but 271 give 0; the corrected form gives 25 |
| RiskCalculator.ExcessAgreement | src/risk_calculator.rs:216-225 | the written and corrected contributions agree up to 270 groups, and differ exactly when the excess modulo 256 is below 25 while the excess is 256 or more |
| RiskCalculator.AdministrativeScoreIsCappedSum | src/risk_calculator.rs:93-229 | the administrative score is min(total contributions + excess, 100), and at least 5 per group up to 100 |
| RiskCalculator.AdministrativeScoreAgrees | src/risk_calculator.rs:212-228 | the score with the written byte-cast excess equals the score with the corrected one for every user, since they differ only once the running total has saturated at 255 |
| RiskCalculator.AdministrativeRisk | src/risk_calculator.rs:93-229 | the loop returns the administrative score, which is also the score as written, and appends exactly the administrative factors |
| RiskCalculator.SaturatingCastU8 | src/risk_calculator.rs:236 | a float-to-`u8` cast truncates, and saturates at 0 and 255 |
| RiskCalculator.OverlapScoreBounds | src/risk_calculator.rs:232-278 | the overlap score is at most 100; it is 0 iff there are no critical or high overlaps and redundancy is below 2; it grows with either count |
| RiskCalculator.OverlapRisk | src/risk_calculator.rs:232-278 | the method returns the overlap score and appends exactly its factors |
| RiskCalculator.SecurityScoreBounds | src/risk_calculator.rs:281-330 | the security score is at most 100 and is 0 exactly when no factor is raised; at most four factors |
| RiskCalculator.SecurityRisk | src/risk_calculator.rs:281-330 | the method returns the security score and appends exactly its factors |
| RiskCalculator.ActivityScoreValues | src/risk_calculator.rs:333-366 | the activity score is 0, 30, 40 or 50; it is 0 without groups; a factor is raised exactly when it is non-zero |
| RiskCalculator.ActivityRisk | src/risk_calculator.rs:333-366 | the method returns the activity score and appends exactly its factor |
| RiskCalculator.CombineRiskScores | src/risk_calculator.rs:369-377 | the combined score is the weighted sum rounded half up |
| RiskCalculator.CombineBounds | src/risk_calculator.rs:369-377 | combining scores of at most 100 gives at most 100, monotonically in each score |
| RiskCalculator.DetermineRiskLevel | src/risk_calculator.rs:380-387 | Critical iff 80..100, High iff 60..79, Medium iff 30..59, Low otherwise |
| RiskCalculator.RiskLevelMonotone | src/risk_calculator.rs:380-387 | a higher score never yields a less severe level |
| RiskCalculator.GenerateRecommendations | src/risk_calculator.rs:390-428 | the method builds exactly the specified recommendation list |
| RiskCalculator.RecommendationsEnd | src/risk_calculator.rs:422-425 | the list always ends with the two general recommendations |
| RiskCalculator.PamAdvice | src/risk_calculator.rs:394-399 | PAM advice appears iff an administrative-access factor was raised |
| RiskCalculator.RedundancyAdvice | src/risk_calculator.rs:401-405 | redundancy advice appears iff redundancy exceeds 30 |
| RiskCalculator.PasswordAdvice | src/risk_calculator.rs:407-410 | password advice appears iff the password never expires |
| RiskCalculator.DormantAdvice | src/risk_calculator.rs:412-416 | dormant-account advice appears iff a dormant-account factor was raised |
| RiskCalculator.ServiceAdvice | src/risk_calculator.rs:418-421 | service-account advice appears iff a service-account factor was raised |
| RiskCalculator.OverallScoreAtMost100 | src/risk_calculator.rs:57-91 | every sub-score is at most 100 (activity at most 50), and so is the overall score |
| RiskCalculator.CalculateRisk | src/risk_calculator.rs:57-91 | the assessment holds the breakdown, whose administrative score is the one as written, the combined score, its level, the factors in order and the recommendations |
| LdapClient.ParseIntToDecimal | src/ldap_client.rs:245 | a value rendered in decimal parses back within its range |
| LdapClient.DecodeUac | src/ldap_client.rs:151-158 | only the four account flags change; an absent or unparsable attribute leaves the user unchanged |
| LdapClient.UacRoundTrip | src/ldap_client.rs:151-158 | decoding the encoding of any four flag values gives those values back |
| LdapClient.GroupTypeSign | src/ldap_client.rs:246-250 | a group is a security group exactly when its 32-bit group type is negative |
| LdapClient.ScopeNeverUniversal | src/ldap_client.rs:252-257 | as written, no group type decodes as Universal; 0x80000008 decodes as Global |
| LdapClient.GroupKindRoundTrip | src/ldap_client.rs:244-259 | the corrected decoder gives back any encoded type and scope |
| LdapClient.ScopeDecodersAgree | src/ldap_client.rs:252-257 | the written and corrected scope decoders differ exactly when the low four bits of the group type are 8 or 12 |
| LdapClient.TicksToUnixSecondsSpec | src/ldap_client.rs:425-434 | the tick count of the Unix epoch maps to second 0; whole seconds past or before it, plus a fraction, map to those seconds (truncating toward zero); the conversion is monotone |
| LdapClient.TicksOverflow | src/ldap_client.rs:429 | as written, the result is exact wherever the subtraction fits in `i64`; i64::MIN wraps to a far-future time |
| LdapClient.ParseAdTimestamp | src/ldap_client.rs:425-434 | no attribute gives no time; a present one gives a time iff it parses as an `i64`, and that time is the conversion of the parsed ticks, equal to the written conversion wherever its subtraction does not overflow |
| LdapClient.ParseAdTimestampRoundTrip | src/ldap_client.rs:425-434 | the decimal text of any `i64` tick count parses to that count's converted time, which is the written conversion's wherever the subtraction does not overflow |
| LdapClient.DcComponentAt | src/ldap_client.rs:421 | each label becomes "DC=" followed by the label |
| LdapClient.ExtractBaseDnLabels | src/ldap_client.rs:409-423 | the base DN joins "DC=label" over the labels; the labels are the host name without its first label when it has more than two |
| LdapClient.ExtractBaseDnExamples | src/ldap_client.rs:409-423 | "a.b.c" and "b.c" both give "DC=b,DC=c" |
| LdapClient.RightsUpToMembers | src/ldap_client.rs:313-372 | one group's rights are exactly those of the rules whose pattern the name contains, at most one per rule |
| LdapClient.GroupRightsShape | src/ldap_client.rs:313-372 | a group yields at most seven rights, all attributed to it, one exactly for each rule its name matches |
| LdapClient.RightsOfMembers | src/ldap_client.rs:309-374 | a right is derived exactly when some group of the user yields it |
| LdapClient.PushGroupRights | src/ldap_client.rs:314-371 | one group's pass appends exactly that group's rights |
| LdapClient.DetermineUserRights | src/ldap_client.rs:309-374 | the loop returns the rights of all the user's groups, in order |
| LdapClient.ResolveGroupSound | src/ldap_client.rs:197-272 | the recursive resolution marks the DN seen; fails iff it was already seen or is missing; the DNs of its tree are exactly the directory DNs it newly marks seen, none twice; the group is decoded from its own entry; every node of the tree is built from its own entry, its children some of its `memberOf` links in order, and all its links seen |
| LdapClient.ResolveLinksSound | src/ldap_client.rs:261-268 | resolving links in turn with one threaded set of seen DNs gives a forest whose DNs are exactly the directory DNs newly seen, none twice, whose top-level DNs follow the links' order, with every link seen and every node built from its entry |
| LdapClient.SharedGroupFirstPath | src/ldap_client.rs:261-268 | a group reachable along two paths is claimed by the first, depth first: r→[a, b], a→[d], b→[d] resolves to r[a[d], b] |
| LdapClient.GetGroupRecursive | src/ldap_client.rs:197-272 | the method's result and final seen set are exactly those of the recursive resolution `LdapClient.ResolveGroup`, with all that `LdapClient.ResolveGroupSound` states of them |
| LdapClient.MembershipsSound | src/ldap_client.rs:177-182 | the forest of a user's links resolved with one fresh seen set has no repeats and only known groups; every known direct membership appears; direct trees keep the order of `memberOf`; every node is decoded from its own entry, and every `memberOf` link of any node to a known group appears in the forest |
| LdapClient.ResolveMemberships | src/ldap_client.rs:177-182 | the loop builds exactly the forest of `LdapClient.ResolveLinks` from an empty seen set, with all that `LdapClient.MembershipsSound` states of it |
| LdapClient.GetUser | src/ldap_client.rs:96-195 | succeeds iff the user entry is found; fills the fields from the entry, the primary group only when an ID is given, the rights from all groups, and its groups with exactly the depth-first resolved forest of its `memberOf` links, as `LdapClient.MembershipsSound` states it |
| Cli.SanitizeSpec | src/main.rs:368-371 | sanitising keeps the length, replaces each of `<>:"/\|?*` by `_`, keeps all else, and leaves none of them |
| Cli.SanitizeFixed | src/main.rs:368-371 | a name is unchanged exactly when it has no forbidden character; sanitising is idempotent |
| Cli.SanitizeCollision | src/main.rs:370-371 | two different names can give the same file name |
| Cli.StampRoundTrip | src/main.rs:374 | a time stamp of a year 0..9999 formats to 15 characters and parses back to itself |
| Cli.ParsedStampFormats | src/main.rs:374 | any text that parses as a time stamp is exactly that stamp's rendering |
| Cli.ReportFileNameShape | src/main.rs:368-378 | the name is the sanitised user, "_ad_report_", the stamp and ".pdf", and its length is the user's plus 30 |
| Cli.ReportFileNameClean | src/main.rs:368-378 | a generated file name never contains a forbidden character |
| Cli.DomainOfDownLevel | src/main.rs:189-191 | for `DOMAIN\user` the domain is the part before the backslash |
| Cli.DomainOfPrincipal | src/main.rs:192-193 | for `user@domain` the domain is the part after the last `@` |
| Cli.DomainFromName | src/main.rs:189-197 | the domain is the prefix before the first backslash, else the suffix after the last `@`, else the fallback |
| Cli.KeptLinesSpec | src/main.rs:388-396 | kept lines are trimmed, non-empty and not comments, and every such line of the file is kept |
| Cli.KeptLinesConcat | src/main.rs:388-396 | lines are filtered independently of one another |
| Cli.KeptLinesIdempotent | src/main.rs:388-396 | filtering an already-filtered list changes nothing |
| Cli.ReadUserList | src/main.rs:381-399 | the loop returns the open failure or the filtered lines, and every entry is a user name |
| Cli.CustomOutput | src/main.rs:254-258 | a custom output path is used iff there is exactly one target and a path was given |
| Cli.ReportsCount | src/main.rs:268-277 | one report is listed per successful user |
| Cli.ReportsIgnoreOutput | src/main.rs:246-258 | with other than one target, the custom path has no effect |
| Cli.SingleTargetReport | src/main.rs:351-355 | a single successful target reports the custom path if given, else the generated name |
| Cli.ProcessUsers | src/main.rs:227-283 | fails iff the targets cannot be chosen; successes plus failures equal the targets; the reports are exactly those of the successful users |
| Cli.ProcessTargets | src/main.rs:240-278 | counts the successful attempts, successes plus failures equal the number of targets, and collects the written paths in target order |
| Scenarios.SchemaAdminsRights | src/ldap_client.rs:332-337 | a lone Schema Admins name yields exactly the schema-modification right |
| Scenarios.DomainAdminsRights | src/ldap_client.rs:316-322 | a lone Domain Admins name yields exactly the domain-administration right |
| Scenarios.SchemaAdminsDuplicateSource | src/permission_analyzer.rs:79-108 | a user whose only group is Schema Admins gets "Schema Modification" twice from that group: a Critical Duplicate overlap |
| Scenarios.DomainAdminsNoOverlap | src/permission_analyzer.rs:79-108 | a user whose only group is Domain Admins has no permission with two sources |
| Scenarios.DomainAdminsOverlapScore | src/risk_calculator.rs:232-278 | for that user the overlap counts, the redundancy and the overlap score are all 0 |
| Scenarios.DomainAdminsAdministrativeScore | src/risk_calculator.rs:93-229 | a user whose only group is Domain Admins has administrative score 90 |
| Scenarios.DomainAdminsNeverCritical | src/risk_calculator.rs:57-91 | a user whose only group is Domain Admins scores at most 64 overall and is never Critical |

## Left out

- LDAP connection, binding (simple and GSSAPI), search requests and root DSE discovery: the directory is a map from distinguished name to attributes, and the user search result is a parameter of `LdapClient.GetUser`.
- `get_primary_group` (src/ldap_client.rs:274-307): it is a search by group ID; its outcome is the `primaryLookup` parameter of `LdapClient.GetUser`.
- `parse_ldap_timestamp` (chrono date parsing of `whenCreated`/`whenChanged`): the parsed values are parameters of `LdapClient.GetUser`.
- `DateTime::from_timestamp`: seconds beyond chrono's representable range are not rejected; the model keeps the integer seconds.
- LdapClient.GetGroupRecursive: a failed search for a group DN that is present in the directory is not modelled; only an absent DN fails the lookup.
- The clock: `Utc::now()` is the `now` parameter of the activity score and of `RiskCalculator.CalculateRisk`; the report's generation time is the `Stamp` parameter of `Cli.ReportFileName`.
- Floating point: `f32` arithmetic is exact `real` arithmetic. The weighted sum is rounded half up on exact values, and the redundancy text of a factor (`{:.1}`) is rendered by `OneDecimal`, which rounds to one decimal but not with `f32` rounding.
- `HashMap` and `HashSet` iteration order: overlap detection takes the permissions in an unspecified order, and the dangerous-combination summary keeps some five elements of the set. Contracts state only what holds for every order.
- `usize` overflow of `critical_overlaps * 25` and `high_overlaps * 15`: counts are unbounded integers.
- `Strings.ToLower`: lower-cases ASCII letters only, whereas Rust's `to_lowercase` also maps other Unicode letters; the tested keywords are ASCII.
- The chrono `%Y` rendering of years outside 0..9999 follows chrono's documented format (a sign and at least four digits); the round trip is stated only for years 0..9999.
- Cli.ReadUserList: a read error on an individual line after a successful open is not modelled; the file content is given as a whole.
- The PDF generator, report data assembly, the file write and the whole of `process_user` other than the output path: each user's attempt is the `Attempt` parameter of `Cli.ProcessUsers` and `Cli.ProcessTargets`, which yields the report time on success.
- Logging, the summary printout, command-line parsing, the diagnostics and Windows-authentication modules, and the GSSAPI branch of domain discovery (the fallback domain is a parameter of `Cli.DomainFor`).
- LdapClient.TicksToUnixSecondsAsWritten: in a debug build the overflowing subtraction panics instead of wrapping; this as-written member follows the release-build wrap.
- LdapClient.ParseAdTimestamp: converts with the exact subtraction (the corrected half of the `src/ldap_client.rs:429` row under Findings), not the written `i64` one. The two differ only for tick counts below i64::MIN + 116444736000000000, where the source wraps (release build) or panics (debug build); elsewhere the contract states that they agree.
- LdapClient.ParseAdTimestampRoundTrip: states the exact conversion; below i64::MIN + 116444736000000000 ticks the source yields the wrapped seconds instead.
- LdapClient.GetGroupRecursive: decodes the scope with the corrected mask 0xF (`LdapClient.DecodeScope`, the corrected half of the `src/ldap_client.rs:252-257` row under Findings), not the written `gt & 0x7`. A group type whose low four bits are 8 decodes as Universal here and as Global in the source; one whose low four bits are 12 decodes as Global here and as DomainLocal in the source (`LdapClient.ScopeDecodersAgree`).
- LdapClient.ResolveGroupSound: states that each node equals `LdapClient.GroupFromEntry` of its entry, which decodes the scope with the same corrected mask 0xF; for a group type whose low four bits are 8 or 12 the source's node has a different scope (`LdapClient.ScopeDecodersAgree`).
- LdapClient.ResolveLinksSound: its forest's nodes are decoded with the corrected mask 0xF, as above.
- LdapClient.SharedGroupFirstPath: states the placement only; the nodes it names are decoded with the corrected mask 0xF, as above.
- LdapClient.MembershipsSound: states that every node is built from its entry with the corrected mask 0xF, so for a group type whose low four bits are 8 or 12 its scope differs from the source's (`LdapClient.ScopeDecodersAgree`).
- LdapClient.ResolveMemberships: builds its nodes with the corrected mask 0xF (`LdapClient.DecodeScope`), not the written `gt & 0x7`; groupType 0x80000008 gives Universal here and Global in the source, and the two decoders differ exactly when the low four bits are 8 or 12 (`LdapClient.ScopeDecodersAgree`).
- LdapClient.GetUser: inherits that scope decoding in its groups, and decodes `lastLogonTimestamp` with the exact conversion of `LdapClient.ParseAdTimestamp`.
- RiskCalculator.AdministrativeRisk: the escalation factor it reports carries the corrected contribution min(count − 15, 25), not the source's `((count - 15) as u8).min(25)`: from 271 direct groups on, when the excess modulo 256 is below 25, it reports 25 where the source reports 0 (`RiskCalculator.ExcessAgreement`). The returned score equals the source's (`RiskCalculator.AdministrativeScoreAgrees`).
- RiskCalculator.CalculateRisk: only the `riskContribution` of the escalation factor among its contributing factors differs from the source's, for the inputs named in the line above; the breakdown, overall score, level and recommendations are the source's.

## Findings

| source | as written | input that shows it | evidently intended | confidence | as-written member | corrected member |
|---|---|---|---|---|---|---|
| src/risk_calculator.rs:216-225 | the excess-membership contribution is `((total - 15) as u8).min(25)`, so the cast keeps only the low 8 bits of the excess | 271 direct groups: the excess 256 truncates to 0, so the escalation factor reports 0 instead of 25; the score is unaffected because the running total has already saturated (`RiskCalculator.AdministrativeScoreAgrees`) | the contribution is min(total - 15, 25) for every group count | high; not executed | RiskCalculator.ExcessTruncation | RiskCalculator.ExcessContribution |
| src/ldap_client.rs:429 | `ticks - 116444736000000000i64` is computed in `i64` and wraps (or panics) for tick counts near `i64::MIN` | `lastLogonTimestamp` = -9223372036854775808 gives a time in the year 30,000-odd instead of one before 1601 | the subtraction is done without overflow | medium; not executed | LdapClient.TicksOverflow | LdapClient.TicksToUnixSecondsSpec |
| src/ldap_client.rs:252-257 | the scope is chosen by `gt & 0x7`, which can never equal 8, so the Universal arm is dead | `groupType` = -2147483640 (0x80000008, a universal security group) decodes as Global | mask with 0xF so that 8 selects Universal | high; not executed | LdapClient.ScopeNeverUniversal | LdapClient.GroupKindRoundTrip |

=== FILE: basics.dfy ===
/** Small shared vocabulary: optional values, results with an error value,
    the unsigned byte type the risk scores live in, and integer helpers. */
module Basics {

  datatype Option<+T> = None | Some(value: T) {
    function GetOr(default: T): T {
      match this
      case Some(v) => v
      case None => default
    }
  }

  datatype Result<+T, +E> = Success(value: T) | Failure(error: E)

  /** Rust's `u8`. */
  type u8 = x: int | 0 <= x < 256

  function Min(a: int, b: int): int {
    if a <= b then a else b
  }

  /** `u8::saturating_add`: the sum, or 255 when the sum does not fit. */
  function SatAdd(a: u8, b: u8): (r: u8)
    ensures r == Min(a + b, 255)
  {
    if a + b > 255 then 255 else a + b
  }

  /** Rust's `/` on signed integers: the quotient truncated toward zero
      (Dafny's own `/` is Euclidean and differs for negative dividends). */
  function TruncDiv(a: int, b: int): int
    requires b > 0
  {
    if a >= 0 then a / b else -((-a) / b)
  }

  /** The elements of a sequence, as a set. */
  function Elems<T>(s: seq<T>): set<T> {
    set x | x in s
  }

  /** No value occurs twice in `s`. */
  predicate NoDup<T(==)>(s: seq<T>) {
    forall i, j :: 0 <= i < j < |s| ==> s[i] != s[j]
  }

  /** `a` is `b` with some elements left out, the rest kept in order. */
  predicate IsSubsequence<T(==)>(a: seq<T>, b: seq<T>)
    decreases |b|
  {
    if a == [] then true
    else if b == [] then false
    else (a[|a| - 1] == b[|b| - 1] && IsSubsequence(a[..|a| - 1], b[..|b| - 1]))
         || IsSubsequence(a, b[..|b| - 1])
  }

  lemma NoDupConcat<T>(a: seq<T>, b: seq<T>)
    requires NoDup(a) && NoDup(b) && Elems(a) !! Elems(b)
    ensures NoDup(a + b)
  {
    forall i, j | 0 <= i < j < |a + b|
      ensures (a + b)[i] != (a + b)[j]
    {
      if i < |a| && j >= |a| {
        assert (a + b)[i] in Elems(a);
        assert (a + b)[j] in Elems(b);
      }
    }
  }

  lemma {:induction false} NoDupCard<T>(s: seq<T>)
    requires NoDup(s)
    ensures |Elems(s)| == |s|
  {
    if s != [] {
      var init := s[..|s| - 1];
      assert NoDup(init);
      NoDupCard(init);
      assert Elems(s) == Elems(init) + {s[|s| - 1]};
      assert s[|s| - 1] !in Elems(init);
    }
  }

  lemma {:induction false} SubsetCard<T>(a: set<T>, b: set<T>)
    requires a <= b
    ensures |a| <= |b|
    ensures a < b ==> |a| < |b|
  {
    assert b == a + (b - a);
    assert |b| == |a| + |b - a|;
    if a < b {
      var x :| x in b && x !in a;
      assert x in b - a;
    }
  }
}

=== FILE: cli.dfy ===
/** The command-line driver's own logic: the report file name, the user-list
    file, the domain a simple bind reports on, and the tally of one run over
    its target users. Reading files, the clock, the directory lookup and the
    PDF writer are outside; their outcomes are parameters. */
module Cli {
  import opened Basics
  import opened Strings

  // ------------------------------------------------ file-name sanitising

  /** The characters the report file name may not hold: each is replaced
      with an underscore. */
  predicate IsForbidden(c: char) {
    c == '<' || c == '>' || c == ':' || c == '"' || c == '/' || c == '\\'
    || c == '|' || c == '?' || c == '*'
  }

  function SanitizeChar(c: char): char {
    if IsForbidden(c) then '_' else c
  }

  /** The user name with every forbidden character replaced by `_`. */
  function Sanitize(s: string): (r: string)
    ensures |r| == |s|
    decreases |s|
  {
    if s == [] then [] else Sanitize(s[..|s| - 1]) + [SanitizeChar(s[|s| - 1])]
  }

  lemma {:induction false} SanitizeAt(s: string)
    ensures forall i :: 0 <= i < |s| ==> Sanitize(s)[i] == SanitizeChar(s[i])
    decreases |s|
  {
    if s != [] {
      var init := s[..|s| - 1];
      SanitizeAt(init);
      assert Sanitize(s) == Sanitize(init) + [SanitizeChar(s[|s| - 1])];
      forall i | 0 <= i < |s| - 1
        ensures Sanitize(s)[i] == SanitizeChar(s[i])
      {
        assert s[i] == init[i];
      }
    }
  }

  /** The replacement keeps the length, turns every forbidden character into
      `_`, keeps every other character, and leaves no forbidden character. */
  lemma SanitizeSpec(s: string)
    ensures |Sanitize(s)| == |s|
    ensures forall i :: 0 <= i < |s| && IsForbidden(s[i]) ==> Sanitize(s)[i] == '_'
    ensures forall i :: 0 <= i < |s| && !IsForbidden(s[i]) ==> Sanitize(s)[i] == s[i]
    ensures forall i :: 0 <= i < |s| ==> !IsForbidden(Sanitize(s)[i])
  {
    SanitizeAt(s);
  }

  /** A name is left alone exactly when it holds no forbidden character, so
      sanitising twice is the same as sanitising once. */
  lemma SanitizeFixed(s: string)
    ensures Sanitize(s) == s <==> forall i :: 0 <= i < |s| ==> !IsForbidden(s[i])
    ensures Sanitize(Sanitize(s)) == Sanitize(s)
  {
    SanitizeSpec(s);
    SanitizeAt(Sanitize(s));
    if forall i :: 0 <= i < |s| ==> !IsForbidden(s[i]) {
      assert forall i :: 0 <= i < |s| ==> Sanitize(s)[i] == s[i];
    }
  }

  /** Sanitising is not one-to-one: two user names that differ only in a
      forbidden character get the same file name for the same time stamp. */
  lemma SanitizeCollision()
    ensures "a<b" != "a>b" && Sanitize("a<b") == Sanitize("a>b") == "a_b"
  {
    SanitizeAt("a<b");
    SanitizeAt("a>b");
  }

  // ---------------------------------------------------------- time stamp

  type TwoDigits = n: int | 0 <= n < 100

  /** The parts of a UTC time that the `%Y%m%d_%H%M%S` pattern prints. */
  datatype Stamp = Stamp(year: int, month: TwoDigits, day: TwoDigits,
                         hour: TwoDigits, minute: TwoDigits, second: TwoDigits)

  function Digit(d: int): char
    requires 0 <= d < 10
  {
    (48 + d) as char
  }

  function DigitValue(c: char): int {
    c as int - 48
  }

  /** A zero-padded two-digit field. */
  function Two(n: TwoDigits): string {
    [Digit(n / 10), Digit(n % 10)]
  }

  function Four(y: int): string
    requires 0 <= y <= 9999
  {
    Two(y / 100) + Two(y % 100)
  }

  /** `%Y`: four digits for the years 0 to 9999, otherwise a sign and at
      least four digits. */
  function YearText(y: int): string {
    if 0 <= y <= 9999 then Four(y)
    else if y > 9999 then "+" + ToDecimal(y)
    else if -y <= 9999 then "-" + Four(-y)
    else "-" + ToDecimal(-y)
  }

  function FormatStamp(t: Stamp): string {
    YearText(t.year) + Two(t.month) + Two(t.day) + "_"
    + Two(t.hour) + Two(t.minute) + Two(t.second)
  }

  function TwoValue(s: string, i: nat): (r: TwoDigits)
    requires i + 2 <= |s| && IsDigit(s[i]) && IsDigit(s[i + 1])
  {
    10 * DigitValue(s[i]) + DigitValue(s[i + 1])
  }

  predicate StampShaped(s: string) {
    |s| == 15 && s[8] == '_' && forall i :: 0 <= i < 15 && i != 8 ==> IsDigit(s[i])
  }

  /** Reads a stamp back from its fifteen-character spelling. */
  function ParseStamp(s: string): Option<Stamp> {
    if StampShaped(s) then
      Some(Stamp(100 * TwoValue(s, 0) + TwoValue(s, 2), TwoValue(s, 4), TwoValue(s, 6),
                 TwoValue(s, 9), TwoValue(s, 11), TwoValue(s, 13)))
    else None
  }

  lemma TwoRoundTrip(n: TwoDigits)
    ensures |Two(n)| == 2 && IsDigit(Two(n)[0]) && IsDigit(Two(n)[1])
    ensures TwoValue(Two(n), 0) == n
  {
  }

  /** A stamp of a four-digit year is spelt in fifteen characters that read
      back as the same stamp. */
  lemma StampRoundTrip(t: Stamp)
    requires 0 <= t.year <= 9999
    ensures |FormatStamp(t)| == 15
    ensures ParseStamp(FormatStamp(t)) == Some(t)
  {
    var s := FormatStamp(t);
    TwoRoundTrip(t.year / 100);
    TwoRoundTrip(t.year % 100);
    TwoRoundTrip(t.month);
    TwoRoundTrip(t.day);
    TwoRoundTrip(t.hour);
    TwoRoundTrip(t.minute);
    TwoRoundTrip(t.second);
    assert s[0..2] == Two(t.year / 100) && s[2..4] == Two(t.year % 100);
    assert s[4..6] == Two(t.month) && s[6..8] == Two(t.day);
    assert s[9..11] == Two(t.hour) && s[11..13] == Two(t.minute) && s[13..15] == Two(t.second);
    assert StampShaped(s);
  }

  lemma TwoOfValue(s: string, i: nat)
    requires i + 2 <= |s| && IsDigit(s[i]) && IsDigit(s[i + 1])
    ensures Two(TwoValue(s, i)) == s[i..i + 2]
  {
    var n := TwoValue(s, i);
    assert n / 10 == DigitValue(s[i]) && n % 10 == DigitValue(s[i + 1]);
  }

  /** Every string that reads as a stamp is that stamp's spelling. */
  lemma ParsedStampFormats(s: string)
    ensures ParseStamp(s).Some? ==> FormatStamp(ParseStamp(s).value) == s
  {
    if StampShaped(s) {
      var t := ParseStamp(s).value;
      var hi := TwoValue(s, 0);
      var lo := TwoValue(s, 2);
      assert t.year / 100 == hi && t.year % 100 == lo;
      TwoOfValue(s, 0);
      TwoOfValue(s, 2);
      TwoOfValue(s, 4);
      TwoOfValue(s, 6);
      TwoOfValue(s, 9);
      TwoOfValue(s, 11);
      TwoOfValue(s, 13);
      assert s == s[0..2] + s[2..4] + s[4..6] + s[6..8] + "_" + s[9..11] + s[11..13] + s[13..15];
    }
  }

  // --------------------------------------------------------- file names

  /** The report file written for one user when no custom path applies. */
  function ReportFileName(user: string, t: Stamp): string {
    Sanitize(user) + "_ad_report_" + FormatStamp(t) + ".pdf"
  }

  /** For a four-digit year the file name is the sanitised user name, the
      fixed middle, the fifteen-character stamp and `.pdf`; the name and the
      stamp can be read back from it. */
  lemma ReportFileNameShape(user: string, t: Stamp)
    requires 0 <= t.year <= 9999
    ensures |ReportFileName(user, t)| == |user| + 30
    ensures ReportFileName(user, t)[..|user|] == Sanitize(user)
    ensures ParseStamp(ReportFileName(user, t)[|user| + 11..|user| + 26]) == Some(t)
    ensures ReportFileName(user, t)[|user| + 26..] == ".pdf"
  {
    var r := ReportFileName(user, t);
    StampRoundTrip(t);
    assert r[|user| + 11..|user| + 26] == FormatStamp(t);
  }

  /** No character of `s` is forbidden. */
  predicate Clean(s: string) {
    forall i :: 0 <= i < |s| ==> !IsForbidden(s[i])
  }

  lemma CleanConcat(a: string, b: string)
    requires Clean(a) && Clean(b)
    ensures Clean(a + b)
  {
    forall i | 0 <= i < |a + b|
      ensures !IsForbidden((a + b)[i])
    {
      if i >= |a| {
        assert (a + b)[i] == b[i - |a|];
      }
    }
  }

  lemma YearTextClean(y: int)
    ensures Clean(YearText(y))
  {
    if !(0 <= y <= 9999) && !(y < 0 && -y <= 9999) {
      var d := ToDecimal(if y > 9999 then y else -y);
      assert forall i :: 0 <= i < |d| ==> IsDigit(d[i]);
    }
  }

  lemma StampClean(t: Stamp)
    ensures Clean(FormatStamp(t))
  {
    YearTextClean(t.year);
    var y := YearText(t.year);
    CleanConcat(y, Two(t.month));
    CleanConcat(y + Two(t.month), Two(t.day));
    CleanConcat(y + Two(t.month) + Two(t.day), "_");
    CleanConcat(y + Two(t.month) + Two(t.day) + "_", Two(t.hour));
    CleanConcat(y + Two(t.month) + Two(t.day) + "_" + Two(t.hour), Two(t.minute));
    CleanConcat(y + Two(t.month) + Two(t.day) + "_" + Two(t.hour) + Two(t.minute), Two(t.second));
  }

  /** Whatever the user name and the time, the file name holds none of the
      forbidden characters. */
  lemma ReportFileNameClean(user: string, t: Stamp)
    ensures forall i :: 0 <= i < |ReportFileName(user, t)| ==> !IsForbidden(ReportFileName(user, t)[i])
  {
    SanitizeSpec(user);
    StampClean(t);
    var name := Sanitize(user);
    CleanConcat(name, "_ad_report_");
    CleanConcat(name + "_ad_report_", FormatStamp(t));
    CleanConcat(name + "_ad_report_" + FormatStamp(t), ".pdf");
    assert Clean(ReportFileName(user, t));
  }

  // ----------------------------------------------------- report domain

  /** The domain a simple-bind run reports on: the `--domain` argument when
      given, else the part of a `DOMAIN\user` name before the first
      backslash, else the part of a `user@domain` name after the last `@`,
      else `fallback` (the machine's own domain, or the server name). */
  function DomainFor(given: Option<string>, username: string, fallback: string): string {
    match given
    case Some(d) => d
    case None =>
      if '\\' in username then Split(username, '\\')[0]
      else if '@' in username then LastPiece(username, '@')
      else fallback
  }

  /** The domain of a down-level name is the text before its first
      backslash, for every user part. */
  lemma DomainOfDownLevel(domain: string, user: string, fallback: string)
    requires '\\' !in domain
    ensures DomainFor(None, domain + "\\" + user, fallback) == domain
  {
    var s := domain + "\\" + user;
    assert s[|domain|] == '\\';
    assert s[..|domain|] == domain;
    assert IndexOf(s, '\\') == |domain|;
    SplitFirst(s, '\\');
  }

  /** The domain of a user principal name is the text after its last `@`. */
  lemma DomainOfPrincipal(user: string, domain: string, fallback: string)
    requires '\\' !in user && '\\' !in domain && '@' !in domain
    ensures DomainFor(None, user + "@" + domain, fallback) == domain
  {
    var s := user + "@" + domain;
    assert s[|user|] == '@';
    assert '\\' !in s by {
      forall i | 0 <= i < |s| ensures s[i] != '\\' {
        if i < |user| { assert s[i] == user[i]; }
        else if i > |user| { assert s[i] == domain[i - |user| - 1]; }
      }
    }
    SplitLast(s, '@');
    var l := LastPiece(s, '@');
    assert l == s[|s| - |domain|..] == domain;
  }

  /** Whichever rule applies, a domain read from the user name holds no
      backslash and sits in the name beside its separator. */
  lemma DomainFromName(username: string, fallback: string)
    ensures '\\' in username ==>
      var d := DomainFor(None, username, fallback);
      |d| < |username| && username[..|d|] == d && username[|d|] == '\\' && '\\' !in d
    ensures '\\' !in username && '@' in username ==>
      var d := DomainFor(None, username, fallback);
      |d| < |username| && username[|username| - |d|..] == d
      && username[|username| - |d| - 1] == '@' && '@' !in d
    ensures '\\' !in username && '@' !in username ==> DomainFor(None, username, fallback) == fallback
  {
    if '\\' in username {
      SplitFirst(username, '\\');
    } else if '@' in username {
      SplitLast(username, '@');
    }
  }

  // ----------------------------------------------------------- user list

  /** A trimmed line names a user unless it is empty or a `#` comment. */
  predicate IsEntry(line: string) {
    line != [] && line[0] != '#'
  }

  /** The user names a list file holds: each line trimmed, with empty lines
      and comments dropped, in file order. */
  function KeptLines(lines: seq<string>): seq<string> {
    if lines == [] then []
    else
      var u := Trim(lines[|lines| - 1]);
      KeptLines(lines[..|lines| - 1]) + (if IsEntry(u) then [u] else [])
  }

  /** Every kept name is trimmed and is neither empty nor a comment, no more
      names are kept than there are lines, and every line that trims to an
      entry is kept. */
  lemma {:induction false} KeptLinesSpec(lines: seq<string>)
    ensures |KeptLines(lines)| <= |lines|
    ensures forall k :: 0 <= k < |KeptLines(lines)| ==>
      IsEntry(KeptLines(lines)[k]) && Trim(KeptLines(lines)[k]) == KeptLines(lines)[k]
    ensures forall i :: 0 <= i < |lines| && IsEntry(Trim(lines[i])) ==> Trim(lines[i]) in KeptLines(lines)
  {
    if lines != [] {
      var init := lines[..|lines| - 1];
      var u := Trim(lines[|lines| - 1]);
      KeptLinesSpec(init);
      TrimmedShape(lines[|lines| - 1]);
      forall i | 0 <= i < |lines| && IsEntry(Trim(lines[i]))
        ensures Trim(lines[i]) in KeptLines(lines)
      {
        if i < |lines| - 1 {
          assert lines[i] == init[i];
        }
      }
    }
  }

  /** Dropping lines splits like the file: the names of two files read one
      after the other are the names of each, in order. */
  lemma {:induction false} KeptLinesConcat(a: seq<string>, b: seq<string>)
    ensures KeptLines(a + b) == KeptLines(a) + KeptLines(b)
    decreases |b|
  {
    if b == [] {
      assert a + b == a;
    } else {
      var b0 := b[..|b| - 1];
      KeptLinesConcat(a, b0);
      assert (a + b)[..|a + b| - 1] == a + b0;
    }
  }

  /** Reading the names back as a file changes nothing. */
  lemma {:induction false} KeptLinesIdempotent(lines: seq<string>)
    ensures KeptLines(KeptLines(lines)) == KeptLines(lines)
  {
    if lines != [] {
      var init := lines[..|lines| - 1];
      var u := Trim(lines[|lines| - 1]);
      KeptLinesIdempotent(init);
      if IsEntry(u) {
        KeptLinesConcat(KeptLines(init), [u]);
        TrimmedShape(lines[|lines| - 1]);
        assert KeptLines([u]) == KeptLines([]) + [u];
      } else {
        assert KeptLines(lines) == KeptLines(init);
      }
    }
  }

  /** A user-list file: its path and its text, `None` when it cannot be
      opened. */
  datatype ListFile = ListFile(path: string, content: Option<string>)

  /** The names `read_user_list` returns for a file. Splitting at `\n` gives
      the same names as reading lines, since a trailing `\r` is trimmed and a
      final empty piece is dropped. */
  function UserList(file: ListFile): Result<seq<string>, string> {
    match file.content
    case None => Failure("Failed to open user list file: " + file.path)
    case Some(text) => Success(KeptLines(Split(text, '\n')))
  }

  method ReadUserList(file: ListFile) returns (r: Result<seq<string>, string>)
    ensures r == UserList(file)
    ensures r.Success? ==> forall k :: 0 <= k < |r.value| ==> IsEntry(r.value[k])
  {
    if file.content.None? {
      return Failure("Failed to open user list file: " + file.path);
    }
    var lines := Split(file.content.value, '\n');
    var users: seq<string> := [];
    var i := 0;
    while i < |lines|
      invariant 0 <= i <= |lines|
      invariant users == KeptLines(lines[..i])
    {
      var username := Trim(lines[i]);
      if username != [] && username[0] != '#' {
        users := users + [username];
      }
      assert lines[..i + 1][..i] == lines[..i];
      i := i + 1;
    }
    assert lines[..i] == lines;
    KeptLinesSpec(lines);
    return Success(users);
  }

  // ------------------------------------------------------------- one run

  /** The users a run reports on: the list file when one is named, else the
      single target user, else an error. */
  function TargetUsers(listFile: Option<ListFile>, targetUser: Option<string>): Result<seq<string>, string> {
    if listFile.Some? then UserList(listFile.value)
    else if targetUser.Some? then Success([targetUser.value])
    else Failure("Either --target-user or --user-list must be provided")
  }

  /** The custom output path is honoured only when there is exactly one
      target user. */
  function CustomOutput(count: nat, output: Option<string>): (r: Option<string>)
    ensures r.Some? <==> count == 1 && output.Some?
    ensures r.Some? ==> r == output
  {
    if count == 1 then output else None
  }

  /** The path a report is written to. */
  function ReportPath(custom: Option<string>, user: string, t: Stamp): string {
    match custom
    case Some(p) => p
    case None => ReportFileName(user, t)
  }

  /** What became of the attempt on the target at a given index: `None` when
      looking the user up, building the report or writing the file failed,
      else the time stamp of the written report. */
  type Attempt = (nat, string) -> Option<Stamp>

  /** The path written for the target at index `k`, if any. */
  function ReportOf(targets: seq<string>, output: Option<string>, attempt: Attempt, k: nat): seq<string>
    requires k < |targets|
  {
    match attempt(k, targets[k])
    case None => []
    case Some(t) => [ReportPath(CustomOutput(|targets|, output), targets[k], t)]
  }

  /** The paths written for the first `n` targets, in order. */
  function Reports(targets: seq<string>, output: Option<string>, attempt: Attempt, n: nat): seq<string>
    requires n <= |targets|
  {
    if n == 0 then [] else Reports(targets, output, attempt, n - 1) + ReportOf(targets, output, attempt, n - 1)
  }

  /** How many of the first `n` attempts succeeded. */
  function Successes(targets: seq<string>, attempt: Attempt, n: nat): nat
    requires n <= |targets|
  {
    if n == 0 then 0
    else Successes(targets, attempt, n - 1) + (if attempt(n - 1, targets[n - 1]).Some? then 1 else 0)
  }

  lemma ReportOfLength(targets: seq<string>, output: Option<string>, attempt: Attempt, k: nat)
    requires k < |targets|
    ensures |ReportOf(targets, output, attempt, k)| == if attempt(k, targets[k]).Some? then 1 else 0
  {
  }

  /** One report path per successful attempt, and never more successes than
      attempts. */
  lemma {:induction false} ReportsCount(targets: seq<string>, output: Option<string>, attempt: Attempt, n: nat)
    requires n <= |targets|
    ensures |Reports(targets, output, attempt, n)| == Successes(targets, attempt, n) <= n
  {
    if n > 0 {
      ReportsCount(targets, output, attempt, n - 1);
      ReportOfLength(targets, output, attempt, n - 1);
    }
  }

  lemma ReportOfIgnoresOutput(targets: seq<string>, output: Option<string>, attempt: Attempt, k: nat)
    requires k < |targets| && |targets| != 1
    ensures ReportOf(targets, output, attempt, k) == ReportOf(targets, None, attempt, k)
  {
    assert CustomOutput(|targets|, output) == CustomOutput(|targets|, None) == None;
  }

  /** With several targets the custom path plays no part: every report gets
      its generated name. */
  lemma {:induction false} ReportsIgnoreOutput(targets: seq<string>, output: Option<string>, attempt: Attempt, n: nat)
    requires n <= |targets| && |targets| != 1
    ensures Reports(targets, output, attempt, n) == Reports(targets, None, attempt, n)
  {
    if n > 0 {
      ReportsIgnoreOutput(targets, output, attempt, n - 1);
      ReportOfIgnoresOutput(targets, output, attempt, n - 1);
    }
  }

  /** With one target and a custom path, the report, if written, is written
      to that path; without a custom path it gets its generated name. */
  lemma SingleTargetReport(user: string, output: Option<string>, attempt: Attempt)
    ensures attempt(0, user).None? ==> Reports([user], output, attempt, 1) == []
    ensures attempt(0, user).Some? && output.Some? ==> Reports([user], output, attempt, 1) == [output.value]
    ensures attempt(0, user).Some? && output.None? ==>
      Reports([user], output, attempt, 1) == [ReportFileName(user, attempt(0, user).value)]
  {
  }

  /** An attempt that succeeds adds one to the count and its path to the
      reports. */
  lemma RunSuccess(targets: seq<string>, output: Option<string>, attempt: Attempt, k: nat, t: Stamp, path: string)
    requires k < |targets| && attempt(k, targets[k]) == Some(t)
    requires path == ReportPath(CustomOutput(|targets|, output), targets[k], t)
    ensures Successes(targets, attempt, k + 1) == Successes(targets, attempt, k) + 1
    ensures Reports(targets, output, attempt, k + 1) == Reports(targets, output, attempt, k) + [path]
  {
    assert ReportOf(targets, output, attempt, k) == [path];
  }

  /** An attempt that fails changes neither the count nor the reports. */
  lemma RunFailure(targets: seq<string>, output: Option<string>, attempt: Attempt, k: nat)
    requires k < |targets| && attempt(k, targets[k]).None?
    ensures Successes(targets, attempt, k + 1) == Successes(targets, attempt, k)
    ensures Reports(targets, output, attempt, k + 1) == Reports(targets, output, attempt, k)
  {
    assert ReportOf(targets, output, attempt, k) == [];
  }

  datatype RunSummary = RunSummary(successful: nat, failed: nat, generated: seq<string>)

  /** A run over the target users: the targets are chosen, then each is
      attempted in turn. */
  method ProcessUsers(listFile: Option<ListFile>, targetUser: Option<string>, output: Option<string>, attempt: Attempt)
    returns (r: Result<RunSummary, string>)
    ensures r.Failure? <==> TargetUsers(listFile, targetUser).Failure?
    ensures r.Success? ==>
      var targets := TargetUsers(listFile, targetUser).value;
      && r.value.successful == Successes(targets, attempt, |targets|)
      && r.value.successful + r.value.failed == |targets|
      && r.value.generated == Reports(targets, output, attempt, |targets|)
  {
    var targets: seq<string>;
    if listFile.Some? {
      var users := ReadUserList(listFile.value);
      if users.Failure? {
        return Failure(users.error);
      }
      targets := users.value;
    } else if targetUser.Some? {
      targets := [targetUser.value];
    } else {
      return Failure("Either --target-user or --user-list must be provided");
    }
    var summary := ProcessTargets(targets, output, attempt);
    return Success(summary);
  }

  /** The loop of `process_users`: each target is attempted in turn,
      successes and failures are counted, and the written paths are
      collected in order. */
  method ProcessTargets(targets: seq<string>, output: Option<string>, attempt: Attempt) returns (summary: RunSummary)
    ensures summary.successful == Successes(targets, attempt, |targets|)
    ensures summary.successful + summary.failed == |targets|
    ensures summary.generated == Reports(targets, output, attempt, |targets|)
  {
    var successful := 0;
    var failed := 0;
    var generated: seq<string> := [];
    var index := 0;
    while index < |targets|
      invariant 0 <= index <= |targets|
      invariant successful == Successes(targets, attempt, index)
      invariant successful + failed == index
      invariant generated == Reports(targets, output, attempt, index)
    {
      var custom := CustomOutput(|targets|, output);
      match attempt(index, targets[index]) {
        case Some(t) =>
          var outputPath := ReportPath(custom, targets[index], t);
          RunSuccess(targets, output, attempt, index, t, outputPath);
          successful := successful + 1;
          generated := generated + [outputPath];
        case None =>
          RunFailure(targets, output, attempt, index);
          failed := failed + 1;
      }
      index := index + 1;
    }
    summary := RunSummary(successful, failed, generated);
  }
}

=== FILE: directory.dfy ===
/** The directory side: decoding the attributes of user and group entries,
    resolving a user's group forest through the `memberOf` links with one
    shared set of DNs already seen, deriving the user rights from the group
    names, and the base DN and tick conversions. The directory itself is a
    finite map: the searches become lookups in it. */
module LdapClient {
  import opened Basics
  import opened Strings
  import opened GroupNames
  import opened Models

  /** The attributes of one entry: each attribute name maps to its values. */
  type Attributes = map<string, seq<string>>

  /** The group entries, by DN. A base-scope search on a DN finds the entry
      stored under it; a DN that is not a key is one whose search fails. */
  type Directory = map<string, Attributes>

  /** `get_attr`: the first value of an attribute, if it has one. */
  function GetAttr(attrs: Attributes, name: string): Option<string> {
    if name in attrs && |attrs[name]| > 0 then Some(attrs[name][0]) else None
  }

  /** All values of an attribute; none when it is absent. */
  function Values(attrs: Attributes, name: string): seq<string> {
    if name in attrs then attrs[name] else []
  }

  const I32_MIN: int := -0x8000_0000
  const I32_MAX: int := 0x7FFF_FFFF
  const U32_MAX: int := 0xFFFF_FFFF
  const I64_MIN: int := -0x8000_0000_0000_0000
  const I64_MAX: int := 0x7FFF_FFFF_FFFF_FFFF

  /** The bit `mask`, a power of two, of `x` in two's complement. */
  predicate HasBit(x: int, mask: nat)
    requires mask > 0
  {
    (x / mask) % 2 == 1
  }

  /** The decimal spelling of an integer, with a minus sign when negative. */
  function IntToDecimal(x: int): string {
    if x < 0 then "-" + ToDecimal(-x) else ToDecimal(x)
  }

  lemma ParseIntToDecimal(x: int, lo: int, hi: int)
    requires lo <= x <= hi
    ensures ParseInteger(IntToDecimal(x), true, lo, hi) == Some(x)
  {
    if x < 0 {
      ParseDecimalRoundTrip(-x, true, lo, hi);
    } else {
      ParseDecimalRoundTrip(x, true, lo, hi);
    }
  }

  // --------------------------------------------------- account control

  /** The four account-control bits the model decodes. */
  const UF_ACCOUNTDISABLE: nat := 0x2
  const UF_LOCKOUT: nat := 0x10
  const UF_DONT_EXPIRE_PASSWD: nat := 0x1_0000
  const UF_PASSWORD_EXPIRED: nat := 0x80_0000

  /** The account flags of `u` replaced by those of the control value
      `uac`. */
  function ApplyUac(u: User, uac: int): User {
    u.(accountEnabled := !HasBit(uac, UF_ACCOUNTDISABLE),
       accountLocked := HasBit(uac, UF_LOCKOUT),
       passwordExpired := HasBit(uac, UF_PASSWORD_EXPIRED),
       passwordNeverExpires := HasBit(uac, UF_DONT_EXPIRE_PASSWD))
  }

  /** The `userAccountControl` step of `get_user`: a value that parses as a
      `u32` sets the four flags; an absent or unparsable one leaves the user
      as it was. Nothing but the four flags ever changes. */
  function DecodeUac(u: User, attr: Option<string>): (r: User)
    ensures r == u.(accountEnabled := r.accountEnabled, accountLocked := r.accountLocked,
                    passwordExpired := r.passwordExpired, passwordNeverExpires := r.passwordNeverExpires)
    ensures attr.None? ==> r == u
    ensures attr.Some? && ParseInteger(attr.value, false, 0, U32_MAX).None? ==> r == u
  {
    match attr
    case None => u
    case Some(s) =>
      match ParseInteger(s, false, 0, U32_MAX)
      case Some(uac) => ApplyUac(u, uac)
      case None => u
  }

  /** The control value that carries the given four flags and no other. */
  function EncodeUac(enabled: bool, locked: bool, expired: bool, neverExpires: bool): nat {
    (if enabled then 0 else UF_ACCOUNTDISABLE) + (if locked then UF_LOCKOUT else 0)
    + (if expired then UF_PASSWORD_EXPIRED else 0) + (if neverExpires then UF_DONT_EXPIRE_PASSWD else 0)
  }

  lemma ApplyEncodedUac(u: User, enabled: bool, locked: bool, expired: bool, neverExpires: bool)
    ensures var r := ApplyUac(u, EncodeUac(enabled, locked, expired, neverExpires));
      r.accountEnabled == enabled && r.accountLocked == locked
      && r.passwordExpired == expired && r.passwordNeverExpires == neverExpires
  {
  }

  /** Decoding the decimal spelling of an encoded control value gives the
      four flags back. */
  lemma UacRoundTrip(u: User, enabled: bool, locked: bool, expired: bool, neverExpires: bool)
    ensures var r := DecodeUac(u, Some(ToDecimal(EncodeUac(enabled, locked, expired, neverExpires))));
      r.accountEnabled == enabled && r.accountLocked == locked
      && r.passwordExpired == expired && r.passwordNeverExpires == neverExpires
  {
    var uac := EncodeUac(enabled, locked, expired, neverExpires);
    ParseDecimalRoundTrip(uac, false, 0, U32_MAX);
    ApplyEncodedUac(u, enabled, locked, expired, neverExpires);
  }

  // --------------------------------------------------------- group type

  /** Security iff the top bit of the 32-bit group type is set. */
  function DecodeGroupType(gt: int): GroupType {
    if HasBit(gt, 0x8000_0000) then Security else Distribution
  }

  /** Within the `i32` range the top bit is the sign: a group type is a
      security type exactly when it is negative. */
  lemma GroupTypeSign(gt: int)
    requires I32_MIN <= gt <= I32_MAX
    ensures DecodeGroupType(gt) == Security <==> gt < 0
  {
    if gt < 0 {
      assert gt / 0x8000_0000 == -1;
    } else {
      assert gt / 0x8000_0000 == 0;
    }
  }

  /** The scope as written: the low three bits, `gt & 0x7`, matched against
      2, 4 and 8. */
  function DecodeScopeAsWritten(gt: int): GroupScope {
    var low := gt % 8;
    if low == 2 then Global else if low == 4 then DomainLocal else if low == 8 then Universal else Global
  }

  /** Three bits never equal 8: the written decoder never yields Universal,
      and a universal security group (0x80000008) comes out Global. */
  lemma ScopeNeverUniversal(gt: int)
    ensures DecodeScopeAsWritten(gt) != Universal
    ensures DecodeScopeAsWritten(-0x7FFF_FFF8) == Global
  {
  }

  /** The scope as intended: the low four bits, so that the universal flag
      0x8 is seen. */
  function DecodeScope(gt: int): GroupScope {
    var low := gt % 16;
    if low == 2 then Global else if low == 4 then DomainLocal else if low == 8 then Universal else Global
  }

  /** The two decoders disagree exactly when the low four bits are 8 (the
      universal flag alone) or 12. */
  lemma ScopeDecodersAgree(gt: int)
    ensures DecodeScopeAsWritten(gt) == DecodeScope(gt) <==> gt % 16 != 8 && gt % 16 != 12
  {
    assert gt % 8 == (gt % 16) % 8;
  }

  /** `groupType` decoding in `get_group_recursive`: a value that parses as
      an `i32` sets type and scope; otherwise the defaults of a new group,
      Security and Global, stay. */
  function GroupKind(attr: Option<string>): (GroupType, GroupScope) {
    match attr
    case None => (Security, Global)
    case Some(s) =>
      match ParseInteger(s, true, I32_MIN, I32_MAX)
      case Some(gt) => (DecodeGroupType(gt), DecodeScope(gt))
      case None => (Security, Global)
  }

  /** The directory's group type value for a type and a scope. */
  function EncodeGroupType(t: GroupType, s: GroupScope): int {
    (if t == Security then I32_MIN else 0)
    + (match s case Global => 2 case DomainLocal => 4 case Universal => 8)
  }

  /** Every type and scope is read back from its encoded value, Universal
      included; the written decoder reads a universal group as Global. */
  lemma GroupKindRoundTrip(t: GroupType, s: GroupScope)
    ensures GroupKind(Some(IntToDecimal(EncodeGroupType(t, s)))) == (t, s)
    ensures s == Universal ==> DecodeScopeAsWritten(EncodeGroupType(t, s)) == Global
  {
    var gt := EncodeGroupType(t, s);
    ParseIntToDecimal(gt, I32_MIN, I32_MAX);
    GroupTypeSign(gt);
  }

  // ------------------------------------------------------------- ticks

  /** 100-nanosecond intervals from 1601-01-01 to 1970-01-01. */
  const EPOCH_TICKS: int := 116444736000000000
  const TICKS_PER_SECOND: int := 10000000

  /** Unix seconds of an Active Directory tick count, the difference taken
      exactly and divided with Rust's truncation toward zero. */
  function TicksToUnixSeconds(ticks: int): int {
    TruncDiv(ticks - EPOCH_TICKS, TICKS_PER_SECOND)
  }

  /** The tick count of the Unix epoch is second 0; a whole number of
      seconds past it, plus any fraction of a second, comes back as those
      seconds; and the conversion never decreases. */
  lemma TicksToUnixSecondsSpec(s: nat, fraction: nat, t1: int, t2: int)
    requires fraction < TICKS_PER_SECOND
    ensures TicksToUnixSeconds(EPOCH_TICKS) == 0
    ensures TicksToUnixSeconds(EPOCH_TICKS + s * TICKS_PER_SECOND + fraction) == s
    ensures TicksToUnixSeconds(EPOCH_TICKS - s * TICKS_PER_SECOND - fraction) == -(s as int)
    ensures t1 <= t2 ==> TicksToUnixSeconds(t1) <= TicksToUnixSeconds(t2)
  {
    var d := s * TICKS_PER_SECOND + fraction;
    assert d / TICKS_PER_SECOND == s;
    if t1 <= t2 {
      var a := t1 - EPOCH_TICKS;
      var b := t2 - EPOCH_TICKS;
      if a < 0 && b >= 0 {
      } else if a < 0 {
        assert (-b) / TICKS_PER_SECOND <= (-a) / TICKS_PER_SECOND;
      } else {
        assert a / TICKS_PER_SECOND <= b / TICKS_PER_SECOND;
      }
    }
  }

  /** An `i64` result of a subtraction that overflows, wrapped as a release
      build wraps it. */
  function WrapI64(x: int): int {
    (x - I64_MIN) % 0x1_0000_0000_0000_0000 + I64_MIN
  }

  /** The conversion as written: the `i64` subtraction wraps for tick counts
      below `i64::MIN + EPOCH_TICKS` (a debug build panics there instead). */
  function TicksToUnixSecondsAsWritten(ticks: int): int
    requires I64_MIN <= ticks <= I64_MAX
  {
    TruncDiv(WrapI64(ticks - EPOCH_TICKS), TICKS_PER_SECOND)
  }

  /** Where the subtraction fits, the written conversion is the exact one. */
  lemma TicksOverflowFree(ticks: int)
    requires I64_MIN <= ticks <= I64_MAX
    ensures ticks >= I64_MIN + EPOCH_TICKS ==> TicksToUnixSecondsAsWritten(ticks) == TicksToUnixSeconds(ticks)
  {
  }

  /** The two agree wherever the subtraction fits; at `i64::MIN` the written
      one wraps to a moment in the year 30828 instead of one 27000 years
      before the epoch. */
  lemma TicksOverflow(ticks: int)
    requires I64_MIN + EPOCH_TICKS <= ticks <= I64_MAX
    ensures TicksToUnixSecondsAsWritten(ticks) == TicksToUnixSeconds(ticks)
    ensures TicksToUnixSecondsAsWritten(I64_MIN) == 910692730085
    ensures TicksToUnixSeconds(I64_MIN) == -933981677285
  {
  }

  /** `parse_ad_timestamp`: a value that parses as an `i64` tick count
      gives its Unix seconds; an absent or unparsable one gives none. The
      seconds are those of the exact conversion, which agree with the
      written `i64` subtraction for every tick count where it does not
      overflow. */
  function ParseAdTimestamp(attr: Option<string>): (r: Option<Timestamp>)
    ensures attr.None? ==> r.None?
    ensures attr.Some? ==> (r.Some? <==> ParseInteger(attr.value, true, I64_MIN, I64_MAX).Some?)
    ensures r.Some? ==>
      var ticks := ParseInteger(attr.value, true, I64_MIN, I64_MAX).value;
      && r.value == TicksToUnixSeconds(ticks)
      && (ticks >= I64_MIN + EPOCH_TICKS ==> r.value == TicksToUnixSecondsAsWritten(ticks))
  {
    match attr
    case None => None
    case Some(s) =>
      match ParseInteger(s, true, I64_MIN, I64_MAX)
      case Some(ticks) =>
        TicksOverflowFree(ticks);
        Some(TicksToUnixSeconds(ticks))
      case None => None
  }

  /** The decimal spelling of a tick count reads back as its seconds: those
      the written conversion gives wherever its subtraction does not
      overflow. */
  lemma ParseAdTimestampRoundTrip(ticks: int)
    requires I64_MIN <= ticks <= I64_MAX
    ensures ParseAdTimestamp(Some(IntToDecimal(ticks))) == Some(TicksToUnixSeconds(ticks))
    ensures ticks >= I64_MIN + EPOCH_TICKS ==>
      ParseAdTimestamp(Some(IntToDecimal(ticks))) == Some(TicksToUnixSecondsAsWritten(ticks))
  {
    ParseIntToDecimal(ticks, I64_MIN, I64_MAX);
    TicksOverflowFree(ticks);
  }

  // ---------------------------------------------------------- base DN

  /** The labels of a server name that make up its domain: all of them
      after the first when there are more than two, else all of them. */
  function DomainLabels(server: string): seq<string> {
    var parts := Split(server, '.');
    if |parts| > 2 then parts[1..] else parts
  }

  /** One `DC=` component per label, in order. */
  function DcComponents(labels: seq<string>): (dcs: seq<string>)
    ensures |dcs| == |labels|
  {
    if labels == [] then [] else DcComponents(labels[..|labels| - 1]) + ["DC=" + labels[|labels| - 1]]
  }

  /** `extract_base_dn`. */
  function ExtractBaseDn(server: string): string {
    Join(DcComponents(DomainLabels(server)), ",")
  }

  lemma {:induction false} DcComponentAt(labels: seq<string>, k: nat)
    requires k < |labels|
    ensures DcComponents(labels)[k] == "DC=" + labels[k]
  {
    if k < |labels| - 1 {
      DcComponentAt(labels[..|labels| - 1], k);
    }
  }

  /** The base DN has one `DC=` component per domain label, and the domain
      labels joined with dots give the server name back, less its first
      label exactly when it has more than two. */
  lemma ExtractBaseDnLabels(server: string)
    ensures var labels := DomainLabels(server);
      ExtractBaseDn(server) == Join(DcComponents(labels), ",")
      && forall k :: 0 <= k < |labels| ==> DcComponents(labels)[k] == "DC=" + labels[k]
    ensures var parts := Split(server, '.');
      if |parts| > 2 then server == parts[0] + "." + Join(DomainLabels(server), ".")
      else server == Join(DomainLabels(server), ".")
  {
    var labels := DomainLabels(server);
    forall k | 0 <= k < |labels|
      ensures DcComponents(labels)[k] == "DC=" + labels[k]
    {
      DcComponentAt(labels, k);
    }
    JoinSplit(server, '.');
  }

  lemma SplitExamples()
    ensures Split("b.c", '.') == ["b", "c"]
    ensures Split("a.b.c", '.') == ["a", "b", "c"]
  {
    assert Split("c", '.') == ["c"];
    assert IndexOf("b.c", '.') == 1;
    assert "b.c"[..1] == "b" && "b.c"[2..] == "c";
    assert IndexOf("a.b.c", '.') == 1;
    assert "a.b.c"[..1] == "a" && "a.b.c"[2..] == "b.c";
  }

  lemma BaseDnOfBC()
    ensures Join(DcComponents(["b", "c"]), ",") == "DC=b,DC=c"
  {
    var labels := ["b", "c"];
    assert labels[..1] == ["b"] && labels[..1][..0] == [];
    assert DcComponents(labels) == ["DC=" + "b", "DC=" + "c"];
    assert Join(["DC=c"], ",") == "DC=c";
  }

  /** A host name loses its first label; a bare domain keeps both. */
  lemma ExtractBaseDnExamples()
    ensures ExtractBaseDn("a.b.c") == "DC=b,DC=c"
    ensures ExtractBaseDn("b.c") == "DC=b,DC=c"
  {
    SplitExamples();
    BaseDnOfBC();
    assert ["a", "b", "c"][1..] == ["b", "c"];
  }

  // ------------------------------------------------------- user rights

  /** One of the tests: a group whose name contains `pattern` grants the
      right `name`. */
  datatype RightRule = RightRule(pattern: string, name: string, description: string)

  /** The seven tests, in the order they are applied. */
  const RIGHT_RULES: seq<RightRule> := [
    RightRule(DOMAIN_ADMINS, "Full Domain Administration", "Complete control over the domain"),
    RightRule(ENTERPRISE_ADMINS, "Enterprise Administration", "Administrative access across the forest"),
    RightRule(SCHEMA_ADMINS, "Schema Modification", "Can modify Active Directory schema"),
    RightRule(ACCOUNT_OPERATORS, "Account Management", "Can create and manage user accounts"),
    RightRule(SERVER_OPERATORS, "Server Management", "Can manage domain servers"),
    RightRule(BACKUP_OPERATORS, "Backup Rights", "Can backup and restore files"),
    RightRule(REMOTE_DESKTOP_USERS, "Remote Desktop Access", "Can log on through Remote Desktop Services")]

  /** The right one test grants a group, sourced from its membership. */
  function RuleRight(groupName: string, rule: RightRule): seq<UserRight> {
    if Contains(groupName, rule.pattern) then [UserRight(rule.name, rule.description, GroupMembership(groupName))]
    else []
  }

  /** The rights the first `k` tests grant a group. */
  function RightsUpTo(groupName: string, k: nat): seq<UserRight>
    requires k <= |RIGHT_RULES|
  {
    if k == 0 then [] else RightsUpTo(groupName, k - 1) + RuleRight(groupName, RIGHT_RULES[k - 1])
  }

  /** The rights one group grants: seven independent tests on its name. */
  function GroupRights(groupName: string): seq<UserRight> {
    RightsUpTo(groupName, |RIGHT_RULES|)
  }

  lemma {:induction false} RightsUpToMembers(groupName: string, k: nat, r: UserRight)
    requires k <= |RIGHT_RULES|
    ensures |RightsUpTo(groupName, k)| <= k
    ensures r in RightsUpTo(groupName, k) <==> exists i :: 0 <= i < k && r in RuleRight(groupName, RIGHT_RULES[i])
  {
    if k > 0 {
      RightsUpToMembers(groupName, k - 1, r);
    }
  }

  /** A group grants at most seven rights, each with the group as its
      source, and the right of each test exactly when its name passes that
      test: the tests are independent, so one name can pass several. */
  lemma GroupRightsShape(groupName: string)
    ensures |GroupRights(groupName)| <= 7
    ensures forall r :: r in GroupRights(groupName) ==> r.source == GroupMembership(groupName)
    ensures forall i :: 0 <= i < |RIGHT_RULES| ==>
      (UserRight(RIGHT_RULES[i].name, RIGHT_RULES[i].description, GroupMembership(groupName)) in GroupRights(groupName)
       <==> Contains(groupName, RIGHT_RULES[i].pattern))
  {
    RightsUpToMembers(groupName, 7, UserRight("", "", Default));
    forall r | r in GroupRights(groupName)
      ensures r.source == GroupMembership(groupName)
    {
      RightsUpToMembers(groupName, 7, r);
    }
    forall i | 0 <= i < |RIGHT_RULES|
      ensures UserRight(RIGHT_RULES[i].name, RIGHT_RULES[i].description, GroupMembership(groupName)) in GroupRights(groupName)
              <==> Contains(groupName, RIGHT_RULES[i].pattern)
    {
      RightOfRule(groupName, i);
    }
  }

  /** No two tests grant rights of the same name (their names differ even
      in length). */
  lemma RuleNamesDistinct(i: nat, j: nat)
    requires i < |RIGHT_RULES| && j < |RIGHT_RULES|
    requires RIGHT_RULES[i].name == RIGHT_RULES[j].name
    ensures i == j
  {
    var lengths := [26, 25, 19, 18, 17, 13, 21];
    assert forall k :: 0 <= k < |RIGHT_RULES| ==> |RIGHT_RULES[k].name| == lengths[k];
  }

  /** The right of test `i` is among a group's rights exactly when the
      group's name passes that test. */
  lemma RightOfRule(groupName: string, i: nat)
    requires i < |RIGHT_RULES|
    ensures UserRight(RIGHT_RULES[i].name, RIGHT_RULES[i].description, GroupMembership(groupName)) in GroupRights(groupName)
            <==> Contains(groupName, RIGHT_RULES[i].pattern)
  {
    var r := UserRight(RIGHT_RULES[i].name, RIGHT_RULES[i].description, GroupMembership(groupName));
    RightsUpToMembers(groupName, 7, r);
    if r in GroupRights(groupName) {
      var j :| 0 <= j < 7 && r in RuleRight(groupName, RIGHT_RULES[j]);
      RuleNamesDistinct(i, j);
    }
  }

  /** The rights of a list of groups, group after group. */
  function RightsOf(gs: seq<Group>): seq<UserRight> {
    if gs == [] then [] else RightsOf(gs[..|gs| - 1]) + GroupRights(gs[|gs| - 1].name)
  }

  /** A right of a list of groups is a right of one of its groups. */
  lemma {:induction false} RightsOfMembers(gs: seq<Group>, r: UserRight)
    ensures r in RightsOf(gs) <==> exists g :: g in gs && r in GroupRights(g.name)
  {
    if gs != [] {
      var init := gs[..|gs| - 1];
      RightsOfMembers(init, r);
      assert gs == init + [gs[|gs| - 1]];
      if r in RightsOf(init) {
        var g :| g in init && r in GroupRights(g.name);
        assert g in gs;
      }
      if exists g :: g in gs && r in GroupRights(g.name) {
        var g :| g in gs && r in GroupRights(g.name);
        if g != gs[|gs| - 1] {
          assert g in init;
        }
      }
    }
  }

  /** Applying test `k` after the first `k` extends their rights by its
      own. */
  lemma RuleStep(before: seq<UserRight>, rights: seq<UserRight>, groupName: string, k: nat)
    requires k < |RIGHT_RULES|
    requires rights == before + RightsUpTo(groupName, k)
    ensures var rule := RIGHT_RULES[k];
      (if Contains(groupName, rule.pattern)
       then rights + [UserRight(rule.name, rule.description, GroupMembership(groupName))]
       else rights)
      == before + RightsUpTo(groupName, k + 1)
  {
  }

  lemma RightsOfSnoc(gs: seq<Group>, i: nat)
    requires i < |gs|
    ensures RightsOf(gs[..i + 1]) == RightsOf(gs[..i]) + GroupRights(gs[i].name)
  {
    assert gs[..i + 1][..i] == gs[..i];
  }

  /** The body of the loop of `determine_user_rights`: the seven
      independent tests on one group's name, each pushing its right. */
  method PushGroupRights(rights0: seq<UserRight>, group: Group) returns (rights: seq<UserRight>)
    ensures rights == rights0 + GroupRights(group.name)
  {
    rights := rights0;
    var source := GroupMembership(group.name);
    RuleStep(rights0, rights, group.name, 0);
    if Contains(group.name, DOMAIN_ADMINS) {
      rights := rights + [UserRight("Full Domain Administration", "Complete control over the domain", source)];
    }
    RuleStep(rights0, rights, group.name, 1);
    if Contains(group.name, ENTERPRISE_ADMINS) {
      rights := rights + [UserRight("Enterprise Administration", "Administrative access across the forest", source)];
    }
    RuleStep(rights0, rights, group.name, 2);
    if Contains(group.name, SCHEMA_ADMINS) {
      rights := rights + [UserRight("Schema Modification", "Can modify Active Directory schema", source)];
    }
    RuleStep(rights0, rights, group.name, 3);
    if Contains(group.name, ACCOUNT_OPERATORS) {
      rights := rights + [UserRight("Account Management", "Can create and manage user accounts", source)];
    }
    RuleStep(rights0, rights, group.name, 4);
    if Contains(group.name, SERVER_OPERATORS) {
      rights := rights + [UserRight("Server Management", "Can manage domain servers", source)];
    }
    RuleStep(rights0, rights, group.name, 5);
    if Contains(group.name, BACKUP_OPERATORS) {
      rights := rights + [UserRight("Backup Rights", "Can backup and restore files", source)];
    }
    RuleStep(rights0, rights, group.name, 6);
    if Contains(group.name, REMOTE_DESKTOP_USERS) {
      rights := rights + [UserRight("Remote Desktop Access", "Can log on through Remote Desktop Services", source)];
    }
  }

  /** `determine_user_rights`: walks `all_groups` in order and, for each
      group, pushes every right whose test its name passes. */
  method DetermineUserRights(user: User) returns (rights: seq<UserRight>)
    ensures rights == RightsOf(AllGroupsOf(user))
  {
    rights := [];
    var groups := AllGroups(user);
    for i := 0 to |groups|
      invariant rights == RightsOf(groups[..i])
    {
      RightsOfSnoc(groups, i);
      rights := PushGroupRights(rights, groups[i]);
    }
    assert groups[..|groups|] == groups;
  }

  // -------------------------------------------------- group resolution

  /** The DNs of a list of groups, in order. */
  function DnsOf(gs: seq<Group>): (dns: seq<string>)
    ensures |dns| == |gs|
  {
    if gs == [] then [] else DnsOf(gs[..|gs| - 1]) + [gs[|gs| - 1].distinguishedName]
  }

  lemma {:induction false} DnsOfConcat(a: seq<Group>, b: seq<Group>)
    ensures DnsOf(a + b) == DnsOf(a) + DnsOf(b)
    decreases |b|
  {
    if b != [] {
      var init := b[..|b| - 1];
      assert (a + b)[..|a + b| - 1] == a + init;
      assert (a + b)[|a + b| - 1] == b[|b| - 1];
      DnsOfConcat(a, init);
    } else {
      assert a + b == a;
    }
  }

  /** The DNs of every node of a forest, in pre-order. */
  function ForestDns(gs: seq<Group>): seq<string> {
    DnsOf(FlattenAll(gs))
  }

  /** The DNs a resolution added to the forest: those of its tree, or none
      for a failure. */
  function TreeDns(r: Result<Group, string>): set<string> {
    if r.Success? then Elems(DnsOf(Flatten(r.value))) else {}
  }

  /** What a group's entry says of the group itself, its nested groups
      aside. */
  function GroupFromEntry(dn: string, attrs: Attributes): Group {
    var kind := GroupKind(GetAttr(attrs, "groupType"));
    Group(dn, GetAttr(attrs, "cn").GetOr("Unknown"), GetAttr(attrs, "description"), kind.0, kind.1, [])
  }

  /** The `memberOf` links of a group's directory entry; none for a group
      that has no entry. */
  function LinksOf(dir: Directory, n: Group): seq<string> {
    if n.distinguishedName in dir then Values(dir[n.distinguishedName], "memberOf") else []
  }

  /** One node as resolution builds it: its DN is a directory entry, the
      node is decoded from that entry, and its children are some of the
      entry's `memberOf` links, in their order. */
  predicate NodeBuilt(dir: Directory, n: Group) {
    n.distinguishedName in dir
    && n == GroupFromEntry(n.distinguishedName, dir[n.distinguishedName]).(nestedGroups := n.nestedGroups)
    && IsSubsequence(DnsOf(n.nestedGroups), LinksOf(dir, n))
  }

  /** A built node all of whose links were looked at: every one of them is
      among the DNs `seen`. */
  predicate NodeResolved(dir: Directory, n: Group, seen: set<string>) {
    NodeBuilt(dir, n) && Elems(LinksOf(dir, n)) <= seen
  }

  /** Every node of a tree is resolved. */
  predicate TreeResolved(dir: Directory, g: Group, seen: set<string>) {
    forall n :: n in Flatten(g) ==> NodeResolved(dir, n, seen)
  }

  /** Every node of a forest is resolved. */
  predicate ForestResolved(dir: Directory, gs: seq<Group>, seen: set<string>) {
    forall n :: n in FlattenAll(gs) ==> NodeResolved(dir, n, seen)
  }

  /** Seeing more DNs keeps a forest resolved, and adding a resolved tree
      keeps it so. */
  lemma ForestResolvedStep(dir: Directory, nested: seq<Group>, res: Result<Group, string>,
                           before: set<string>, after: set<string>, next: seq<Group>)
    requires before <= after
    requires ForestResolved(dir, nested, before)
    requires res.Success? ==> TreeResolved(dir, res.value, after)
    requires next == if res.Success? then nested + [res.value] else nested
    ensures ForestResolved(dir, next, after)
  {
    if res.Success? {
      assert next[..|next| - 1] == nested;
      assert FlattenAll(next) == FlattenAll(nested) + Flatten(res.value);
    }
  }

  /** When the DNs seen in the directory are exactly those of a resolved
      forest, every node of it is built from its entry and every link of a
      node to a directory entry leads into the forest. */
  lemma ResolvedForestComplete(dir: Directory, gs: seq<Group>, seen: set<string>)
    requires seen * dir.Keys == Elems(ForestDns(gs))
    requires ForestResolved(dir, gs, seen)
    ensures forall n :: n in FlattenAll(gs) ==> NodeBuilt(dir, n)
    ensures forall n, d :: n in FlattenAll(gs) && d in LinksOf(dir, n) && d in dir ==> d in ForestDns(gs)
  {
    forall n, d | n in FlattenAll(gs) && d in LinksOf(dir, n) && d in dir
      ensures d in ForestDns(gs)
    {
      assert NodeResolved(dir, n, seen);
      assert d in Elems(LinksOf(dir, n));
      assert d in Elems(ForestDns(gs));
    }
  }

  /** A resolved node over a resolved forest is a resolved tree. */
  lemma TreeOfResolved(dir: Directory, g: Group, seen: set<string>)
    requires NodeResolved(dir, g, seen)
    requires ForestResolved(dir, g.nestedGroups, seen)
    ensures TreeResolved(dir, g, seen)
  {
    assert Flatten(g) == [g] + FlattenAll(g.nestedGroups);
  }

  /** The forest grows by one tree: its DNs are those the resolution newly
      saw in the directory, disjoint from the forest's. */
  lemma ForestSnoc(nested: seq<Group>, res: Result<Group, string>, base: set<string>,
                   keys: set<string>, before: set<string>, after: set<string>)
    requires base <= before <= after
    requires (before - base) * keys == Elems(ForestDns(nested))
    requires NoDup(ForestDns(nested))
    requires (after - before) * keys == TreeDns(res)
    requires res.Success? ==> NoDup(DnsOf(Flatten(res.value)))
    ensures var nested' := if res.Success? then nested + [res.value] else nested;
      (after - base) * keys == Elems(ForestDns(nested')) && NoDup(ForestDns(nested'))
  {
    assert (after - base) * keys == (before - base) * keys + (after - before) * keys;
    if res.Success? {
      var nested' := nested + [res.value];
      assert nested'[..|nested'| - 1] == nested;
      assert FlattenAll(nested') == FlattenAll(nested) + Flatten(res.value);
      var old_ := ForestDns(nested);
      var new_ := DnsOf(Flatten(res.value));
      DnsOfConcat(FlattenAll(nested), Flatten(res.value));
      ElemsConcat(old_, new_);
      assert Elems(old_) <= before - base;
      assert Elems(new_) <= after - before;
      NoDupConcat(old_, new_);
    }
  }

  lemma ElemsConcat<T>(a: seq<T>, b: seq<T>)
    ensures Elems(a + b) == Elems(a) + Elems(b)
  {
  }

  lemma ElemsSnoc<T>(s: seq<T>, k: nat)
    requires k < |s|
    ensures Elems(s[..k + 1]) == Elems(s[..k]) + {s[k]}
  {
    assert s[..k + 1] == s[..k] + [s[k]];
  }

  /** Extending both sequences by the same element, or only the second,
      keeps a subsequence one. */
  lemma SubsequenceSnoc(a: seq<string>, b: seq<string>, x: string, keep: bool)
    requires IsSubsequence(a, b)
    ensures IsSubsequence(if keep then a + [x] else a, b + [x])
  {
    if keep {
      assert (a + [x])[..|a|] == a;
      assert (b + [x])[..|b|] == b;
    } else {
      assert (b + [x])[..|b|] == b;
    }
  }

  /** One turn of a resolution loop over the links `links`: the forest
      `nested` grows by the tree of link `k` when it resolved, and keeps
      its invariants — its DNs are the directory DNs seen since `base`, none
      twice, and its top-level DNs a subsequence of the links so far. */
  lemma ForestStep(nested: seq<Group>, res: Result<Group, string>, base: set<string>,
                   keys: set<string>, before: set<string>, after: set<string>,
                   links: seq<string>, k: nat, next: seq<Group>)
    requires k < |links|
    requires base <= before <= after
    requires (before - base) * keys == Elems(ForestDns(nested))
    requires NoDup(ForestDns(nested))
    requires IsSubsequence(DnsOf(nested), links[..k])
    requires (after - before) * keys == TreeDns(res)
    requires res.Success? ==> NoDup(DnsOf(Flatten(res.value))) && res.value.distinguishedName == links[k]
    requires next == if res.Success? then nested + [res.value] else nested
    ensures (after - base) * keys == Elems(ForestDns(next))
    ensures NoDup(ForestDns(next))
    ensures IsSubsequence(DnsOf(next), links[..k + 1])
  {
    ForestSnoc(nested, res, base, keys, before, after);
    assert links[..k + 1] == links[..k] + [links[k]];
    SubsequenceSnoc(DnsOf(nested), links[..k], links[k], res.Success?);
    if res.Success? {
      DnsOfConcat(nested, [res.value]);
    }
  }

  /** A group over a forest: its tree's DNs are its own and the forest's,
      so the forest's invariants carry over to the tree. */
  lemma TreeOfForest(group: Group, base: set<string>, keys: set<string>, processed: set<string>)
    requires group.distinguishedName in keys && group.distinguishedName !in base
    requires base + {group.distinguishedName} <= processed
    requires (processed - (base + {group.distinguishedName})) * keys == Elems(ForestDns(group.nestedGroups))
    requires NoDup(ForestDns(group.nestedGroups))
    ensures (processed - base) * keys == Elems(DnsOf(Flatten(group)))
    ensures NoDup(DnsOf(Flatten(group)))
  {
    var dn := group.distinguishedName;
    assert Flatten(group) == [group] + FlattenAll(group.nestedGroups);
    DnsOfConcat([group], FlattenAll(group.nestedGroups));
    assert DnsOf([group]) == [dn];
    ElemsConcat([dn], ForestDns(group.nestedGroups));
    NoDupConcat([dn], ForestDns(group.nestedGroups));
  }

  /** The resolution of `get_group_recursive`, as a function of the DNs
      `seen` before the call: the result and the DNs seen after it. A DN
      already seen fails as a circular reference; otherwise it is marked
      seen before it is looked up, so a DN missing from the directory fails
      too. A found group is decoded from its entry and its `memberOf` links
      are resolved left to right, each with the DNs seen by the links
      before it: a group reachable along two paths is claimed by the first
      one, depth first. */
  function ResolveGroup(dir: Directory, dn: string, seen: set<string>): (res: (Result<Group, string>, set<string>))
    ensures seen + {dn} <= res.1
    decreases dir.Keys - seen, 0, 0
  {
    if dn in seen then (Failure("Circular group reference detected"), seen)
    else if dn !in dir then (Failure("Group not found"), seen + {dn})
    else
      var (nested, after) := ResolveLinks(dir, Values(dir[dn], "memberOf"), seen + {dn});
      (Success(GroupFromEntry(dn, dir[dn]).(nestedGroups := nested)), after)
  }

  /** Resolves the links `links` in order, threading the DNs seen from one
      to the next, and keeps the groups that resolve. */
  function ResolveLinks(dir: Directory, links: seq<string>, seen: set<string>): (res: (seq<Group>, set<string>))
    ensures seen <= res.1
    decreases dir.Keys - seen, 1, |links|
  {
    if links == [] then ([], seen)
    else
      var (init, mid) := ResolveLinks(dir, links[..|links| - 1], seen);
      var (r, after) := ResolveGroup(dir, links[|links| - 1], mid);
      (if r.Success? then init + [r.value] else init, after)
  }

  /** What one resolution promises: the DN is marked seen; it fails iff
      the DN was already seen or is missing; the DNs of its tree are
      exactly the directory DNs it newly marks seen, so none occurs twice;
      the group is decoded from its own entry; and every node of the tree
      is built from its entry, with all its links seen. */
  predicate GroupResolved(dir: Directory, dn: string, seen: set<string>, r: Result<Group, string>, after: set<string>) {
    && seen + {dn} <= after
    && (r.Failure? <==> dn in seen || dn !in dir)
    && (after - seen) * dir.Keys == TreeDns(r)
    && (r.Success? ==> NoDup(DnsOf(Flatten(r.value))))
    && (r.Success? ==> r.value == GroupFromEntry(dn, dir[dn]).(nestedGroups := r.value.nestedGroups))
    && (r.Success? ==> TreeResolved(dir, r.value, after))
  }

  /** What resolving a list of links promises: the forest's DNs are
      exactly the directory DNs newly seen, none twice; its top-level DNs
      are a subsequence of the links; every link is seen; and every node is
      built from its entry, with all its links seen. */
  predicate LinksResolved(dir: Directory, links: seq<string>, seen: set<string>, gs: seq<Group>, after: set<string>) {
    && seen <= after
    && (after - seen) * dir.Keys == Elems(ForestDns(gs))
    && NoDup(ForestDns(gs))
    && IsSubsequence(DnsOf(gs), links)
    && Elems(links) <= after
    && ForestResolved(dir, gs, after)
  }

  lemma {:induction false} ResolveGroupSound(dir: Directory, dn: string, seen: set<string>)
    ensures GroupResolved(dir, dn, seen, ResolveGroup(dir, dn, seen).0, ResolveGroup(dir, dn, seen).1)
    decreases dir.Keys - seen, 0, 0
  {
    if dn !in seen && dn in dir {
      var links := Values(dir[dn], "memberOf");
      var (nested, after) := ResolveLinks(dir, links, seen + {dn});
      ResolveLinksSound(dir, links, seen + {dn});
      var group := GroupFromEntry(dn, dir[dn]).(nestedGroups := nested);
      TreeOfForest(group, seen, dir.Keys, after);
      assert NodeResolved(dir, group, after);
      TreeOfResolved(dir, group, after);
    }
  }

  lemma {:induction false} ResolveLinksSound(dir: Directory, links: seq<string>, seen: set<string>)
    ensures LinksResolved(dir, links, seen, ResolveLinks(dir, links, seen).0, ResolveLinks(dir, links, seen).1)
    decreases dir.Keys - seen, 1, |links|
  {
    if links != [] {
      var k := |links| - 1;
      var (init, mid) := ResolveLinks(dir, links[..k], seen);
      ResolveLinksSound(dir, links[..k], seen);
      var (r, after) := ResolveGroup(dir, links[k], mid);
      ResolveGroupSound(dir, links[k], mid);
      var next := if r.Success? then init + [r.value] else init;
      ForestStep(init, r, seen, dir.Keys, mid, after, links, k, next);
      ForestResolvedStep(dir, init, r, mid, after, next);
      ElemsSnoc(links, k);
      assert links[..k + 1] == links;
    }
  }

  /** A single link resolves to its group's tree, if any. */
  lemma OneLink(dir: Directory, dn: string, seen: set<string>)
    ensures var (r, after) := ResolveGroup(dir, dn, seen);
      ResolveLinks(dir, [dn], seen) == (if r.Success? then [r.value] else [], after)
  {
    LinksSnoc(dir, [], dn, seen);
    assert [] + [dn] == [dn];
    var (r, _) := ResolveGroup(dir, dn, ResolveLinks(dir, [], seen).1);
    if r.Success? {
      assert [] + [r.value] == [r.value];
    }
  }

  /** Resolving one more link extends the forest by its tree, if any. */
  lemma LinksSnoc(dir: Directory, links: seq<string>, dn: string, seen: set<string>)
    ensures var (init, mid) := ResolveLinks(dir, links, seen);
      var (r, after) := ResolveGroup(dir, dn, mid);
      ResolveLinks(dir, links + [dn], seen) == (if r.Success? then init + [r.value] else init, after)
  {
    assert (links + [dn])[..|links|] == links;
  }

  /** A group with no links, not yet seen, resolves to its own node. */
  lemma LeafGroup(dir: Directory, dn: string, seen: set<string>)
    requires dn !in seen && dn in dir && Values(dir[dn], "memberOf") == []
    ensures ResolveGroup(dir, dn, seen) == (Success(GroupFromEntry(dn, dir[dn])), seen + {dn})
  {
    assert GroupFromEntry(dn, dir[dn]).(nestedGroups := []) == GroupFromEntry(dn, dir[dn]);
  }

  /** A group whose only link was already seen resolves to a leaf. */
  lemma GroupOverSeenLink(dir: Directory, dn: string, link: string, seen: set<string>)
    requires dn !in seen && dn in dir && Values(dir[dn], "memberOf") == [link] && link in seen
    ensures ResolveGroup(dir, dn, seen) == (Success(GroupFromEntry(dn, dir[dn])), seen + {dn})
  {
    OneLink(dir, link, seen + {dn});
    assert GroupFromEntry(dn, dir[dn]).(nestedGroups := []) == GroupFromEntry(dn, dir[dn]);
  }

  /** A group whose only link is an unseen leaf resolves to a node over
      that leaf. */
  lemma GroupOverLeaf(dir: Directory, dn: string, leaf: string, seen: set<string>)
    requires dn !in seen && dn in dir && Values(dir[dn], "memberOf") == [leaf]
    requires leaf != dn && leaf !in seen && leaf in dir && Values(dir[leaf], "memberOf") == []
    ensures ResolveGroup(dir, dn, seen)
      == (Success(GroupFromEntry(dn, dir[dn]).(nestedGroups := [GroupFromEntry(leaf, dir[leaf])])), seen + {dn} + {leaf})
  {
    LeafGroup(dir, leaf, seen + {dn});
    OneLink(dir, leaf, seen + {dn});
  }

  /** A found group that was not seen yet is its entry's node over the
      forest of its links. */
  lemma FoundGroup(dir: Directory, dn: string, seen: set<string>)
    requires dn !in seen && dn in dir
    ensures ResolveGroup(dir, dn, seen).0.Success?
    ensures ResolveGroup(dir, dn, seen).0.value.nestedGroups == ResolveLinks(dir, Values(dir[dn], "memberOf"), seen + {dn}).0
  {
  }

  /** Two sibling links `a` then `b` that both link to the leaf `d`: the
      leaf is resolved under `a`, and `b` finds it seen. */
  lemma SiblingsOverShared(dir: Directory, a: string, b: string, d: string, seen: set<string>)
    requires a != b && a != d && b != d && a !in seen && b !in seen && d !in seen
    requires a in dir && Values(dir[a], "memberOf") == [d]
    requires b in dir && Values(dir[b], "memberOf") == [d]
    requires d in dir && Values(dir[d], "memberOf") == []
    ensures ResolveLinks(dir, [a, b], seen).0
      == [GroupFromEntry(a, dir[a]).(nestedGroups := [GroupFromEntry(d, dir[d])]), GroupFromEntry(b, dir[b])]
  {
    var ga := GroupFromEntry(a, dir[a]).(nestedGroups := [GroupFromEntry(d, dir[d])]);
    var gb := GroupFromEntry(b, dir[b]);
    GroupOverLeaf(dir, a, d, seen);
    OneLink(dir, a, seen);
    GroupOverSeenLink(dir, b, d, seen + {a} + {d});
    LinksSnoc(dir, [a], b, seen);
    assert [a] + [b] == [a, b] && [ga] + [gb] == [ga, gb];
  }

  /** A group reachable along two paths is claimed by the first, depth
      first: when `r` links to `a` and then `b`, and both link to `d`, the
      tree is r[a[d], b], not r[a, b[d]]. */
  lemma SharedGroupFirstPath(dir: Directory, r: string, a: string, b: string, d: string)
    requires r != a && r != b && r != d && a != b && a != d && b != d
    requires r in dir && Values(dir[r], "memberOf") == [a, b]
    requires a in dir && Values(dir[a], "memberOf") == [d]
    requires b in dir && Values(dir[b], "memberOf") == [d]
    requires d in dir && Values(dir[d], "memberOf") == []
    ensures var g := ResolveGroup(dir, r, {}).0;
      && g.Success?
      && DnsOf(g.value.nestedGroups) == [a, b]
      && DnsOf(g.value.nestedGroups[0].nestedGroups) == [d]
      && g.value.nestedGroups[1].nestedGroups == []
  {
    var gd := GroupFromEntry(d, dir[d]);
    var ga := GroupFromEntry(a, dir[a]).(nestedGroups := [gd]);
    var gb := GroupFromEntry(b, dir[b]);
    SiblingsOverShared(dir, a, b, d, {} + {r});
    FoundGroup(dir, r, {});
    assert DnsOf([ga, gb]) == [a, b];
    assert DnsOf([gd]) == [d];
  }

  /** `get_group_recursive`: the group `dn` resolved with the DNs
      `processed0` already seen, as `ResolveGroup` defines it, and so with
      all that `GroupResolved` promises. */
  method GetGroupRecursive(dir: Directory, dn: string, processed0: set<string>)
    returns (r: Result<Group, string>, processed: set<string>)
    ensures (r, processed) == ResolveGroup(dir, dn, processed0)
    ensures GroupResolved(dir, dn, processed0, r, processed)
    decreases dir.Keys - processed0
  {
    ResolveGroupSound(dir, dn, processed0);
    if dn in processed0 {
      return Failure("Circular group reference detected"), processed0;
    }
    processed := processed0 + {dn};
    if dn !in dir {
      return Failure("Group not found"), processed;
    }
    var attrs := dir[dn];
    var group := GroupFromEntry(dn, attrs);
    var memberOf := Values(attrs, "memberOf");
    for k := 0 to |memberOf|
      invariant processed0 + {dn} <= processed
      invariant group == GroupFromEntry(dn, attrs).(nestedGroups := group.nestedGroups)
      invariant (group.nestedGroups, processed) == ResolveLinks(dir, memberOf[..k], processed0 + {dn})
    {
      assert dir.Keys - processed < dir.Keys - processed0 by {
        assert dn in dir.Keys - processed0;
      }
      var res;
      res, processed := GetGroupRecursive(dir, memberOf[k], processed);
      assert memberOf[..k + 1][..k] == memberOf[..k];
      if res.Success? {
        group := group.(nestedGroups := group.nestedGroups + [res.value]);
      }
    }
    assert memberOf[..|memberOf|] == memberOf;
    r := Success(group);
  }

  /** The forest `get_user` builds from the links `memberOf`: they are
      resolved in order with one set of DNs seen, created for the user. */
  function Memberships(dir: Directory, memberOf: seq<string>): seq<Group> {
    ResolveLinks(dir, memberOf, {}).0
  }

  /** What the membership loop of `get_user` promises of the forest it
      builds from the links `memberOf`: no DN occurs twice in it, every DN
      in it is a directory entry, every link that is one occurs in it, the
      top-level groups keep the order of the links, every node is built from
      its own entry, and every link of a node to a directory entry leads
      into the forest. */
  predicate MembershipsResolved(dir: Directory, memberOf: seq<string>, groups: seq<Group>) {
    && NoDup(ForestDns(groups))
    && Elems(ForestDns(groups)) <= dir.Keys
    && (forall d :: d in memberOf && d in dir ==> d in ForestDns(groups))
    && IsSubsequence(DnsOf(groups), memberOf)
    && (forall n :: n in FlattenAll(groups) ==> NodeBuilt(dir, n))
    && (forall n, d :: n in FlattenAll(groups) && d in LinksOf(dir, n) && d in dir ==> d in ForestDns(groups))
  }

  lemma MembershipsSound(dir: Directory, memberOf: seq<string>)
    ensures MembershipsResolved(dir, memberOf, Memberships(dir, memberOf))
  {
    var (groups, seen) := ResolveLinks(dir, memberOf, {});
    ResolveLinksSound(dir, memberOf, {});
    assert seen - {} == seen;
    forall d | d in memberOf && d in dir
      ensures d in ForestDns(groups)
    {
      assert d in Elems(ForestDns(groups));
    }
    ResolvedForestComplete(dir, groups, seen);
  }

  /** The membership loop of `get_user`: resolves each `memberOf` DN of the
      user with one set of DNs seen, created for the user, keeping the
      groups that resolve. */
  method ResolveMemberships(dir: Directory, memberOf: seq<string>) returns (groups: seq<Group>)
    ensures groups == Memberships(dir, memberOf)
    ensures MembershipsResolved(dir, memberOf, groups)
  {
    var processed: set<string> := {};
    groups := [];
    for i := 0 to |memberOf|
      invariant (groups, processed) == ResolveLinks(dir, memberOf[..i], {})
    {
      var res;
      res, processed := GetGroupRecursive(dir, memberOf[i], processed);
      assert memberOf[..i + 1][..i] == memberOf[..i];
      if res.Success? {
        groups := groups + [res.value];
      }
    }
    assert memberOf[..|memberOf|] == memberOf;
    MembershipsSound(dir, memberOf);
  }

  // --------------------------------------------------------------- user

  /** What a user's entry says of the user, the groups and rights aside.
      `created` and `modified` are the entry's creation and change times,
      already decoded. */
  function UserFromEntry(dn: string, attrs: Attributes, username: string,
                         created: Option<Timestamp>, modified: Option<Timestamp>): User {
    var u := NewUser(dn, GetAttr(attrs, "sAMAccountName").GetOr(username)).(
      userPrincipalName := GetAttr(attrs, "userPrincipalName"),
      displayName := GetAttr(attrs, "displayName"),
      email := GetAttr(attrs, "mail"),
      department := GetAttr(attrs, "department"),
      title := GetAttr(attrs, "title"),
      description := GetAttr(attrs, "description"));
    DecodeUac(u, GetAttr(attrs, "userAccountControl")).(
      lastLogon := ParseAdTimestamp(GetAttr(attrs, "lastLogonTimestamp")),
      created := created,
      modified := modified)
  }

  /** `get_user`. `found` is the DN and attributes the user search returned,
      if any; `primaryLookup` is what the search for the user's primary
      group returned, if anything. A user that is not found is an error.
      Otherwise the user is decoded from the entry, its groups resolved,
      the primary group set when the entry names one and it was found, and
      the rights derived from the groups. */
  method GetUser(dir: Directory, found: Option<(string, Attributes)>, username: string,
                 created: Option<Timestamp>, modified: Option<Timestamp>, primaryLookup: Option<Group>)
    returns (r: Result<User, string>)
    ensures r.Success? <==> found.Some?
    ensures r.Success? ==> var u := r.value;
      var attrs := found.value.1;
      u == UserFromEntry(found.value.0, attrs, username, created, modified).(
             groups := u.groups, primaryGroup := u.primaryGroup, userRights := u.userRights)
      && u.primaryGroup == (if GetAttr(attrs, "primaryGroupID").Some? then primaryLookup else None)
      && u.userRights == RightsOf(AllGroupsOf(u))
      && u.groups == Memberships(dir, Values(attrs, "memberOf"))
      && MembershipsResolved(dir, Values(attrs, "memberOf"), u.groups)
  {
    if found.None? {
      return Failure("User not found");
    }
    var (dn, attrs) := found.value;
    var user := UserFromEntry(dn, attrs, username, created, modified);
    var groups := ResolveMemberships(dir, Values(attrs, "memberOf"));
    user := user.(groups := groups);
    if GetAttr(attrs, "primaryGroupID").Some? && primaryLookup.Some? {
      user := user.(primaryGroup := primaryLookup);
    }
    var rights := DetermineUserRights(user);
    user := user.(userRights := rights);
    r := Success(user);
  }
}

=== FILE: models.dfy ===
/** The directory records the analysis works on: users, groups with their
    resolved nested groups, and the rights synthesised from memberships,
    together with the pre-order flattening of a user's group forest that
    every later stage consumes. */
module Models {
  import opened Basics

  /** Seconds since 1970-01-01T00:00:00Z. */
  type Timestamp = int

  datatype GroupType = Security | Distribution

  datatype GroupScope = DomainLocal | Global | Universal

  /** Where a user right comes from. */
  datatype RightSource = DirectAssignment | GroupMembership(group: string) | Default

  datatype UserRight = UserRight(name: string, description: string, source: RightSource)

  /** A group together with the groups it is itself a member of, resolved
      below it. */
  datatype Group = Group(
    distinguishedName: string,
    name: string,
    description: Option<string>,
    groupType: GroupType,
    scope: GroupScope,
    nestedGroups: seq<Group>)

  datatype User = User(
    distinguishedName: string,
    samAccountName: string,
    userPrincipalName: Option<string>,
    displayName: Option<string>,
    email: Option<string>,
    department: Option<string>,
    title: Option<string>,
    description: Option<string>,
    accountEnabled: bool,
    accountLocked: bool,
    passwordExpired: bool,
    passwordNeverExpires: bool,
    lastLogon: Option<Timestamp>,
    created: Option<Timestamp>,
    modified: Option<Timestamp>,
    groups: seq<Group>,
    primaryGroup: Option<Group>,
    userRights: seq<UserRight>)

  /** A user as first built from a directory entry: enabled, no other flag
      set, no optional attribute, no group and no right. */
  function NewUser(dn: string, sam: string): (u: User)
    ensures u.distinguishedName == dn && u.samAccountName == sam
    ensures u.accountEnabled && !u.accountLocked && !u.passwordExpired && !u.passwordNeverExpires
    ensures u.userPrincipalName.None? && u.displayName.None? && u.email.None?
    ensures u.department.None? && u.title.None? && u.description.None?
    ensures u.lastLogon.None? && u.created.None? && u.modified.None?
    ensures u.groups == [] && u.primaryGroup.None? && u.userRights == []
  {
    User(dn, sam, None, None, None, None, None, None, true, false, false, false,
         None, None, None, [], None, [])
  }

  /** A group as first built: a global security group without description
      or nested groups. */
  function NewGroup(dn: string, name: string): (g: Group)
    ensures g.distinguishedName == dn && g.name == name
    ensures g.description.None? && g.groupType == Security && g.scope == Global
    ensures g.nestedGroups == []
  {
    Group(dn, name, None, Security, Global, [])
  }

  // ------------------------------------------------------------ flattening

  /** A group followed by all groups below it, in pre-order. */
  function Flatten(g: Group): seq<Group> {
    [g] + FlattenAll(g.nestedGroups)
  }

  /** The pre-order flattenings of a forest, tree after tree. */
  function FlattenAll(gs: seq<Group>): seq<Group> {
    if gs == [] then [] else FlattenAll(gs[..|gs| - 1]) + Flatten(gs[|gs| - 1])
  }

  /** `ADUser::all_groups`: the primary group, if any, then every resolved
      tree flattened in pre-order. */
  function AllGroupsOf(u: User): seq<Group> {
    (if u.primaryGroup.Some? then [u.primaryGroup.value] else []) + FlattenAll(u.groups)
  }

  /** `collect_groups`: pushes `g` and then, recursively, each nested group
      onto the collection. */
  method CollectGroups(g: Group, collection: seq<Group>) returns (collected: seq<Group>)
    ensures collected == collection + Flatten(g)
    decreases g
  {
    collected := collection + [g];
    for k := 0 to |g.nestedGroups|
      invariant collected == collection + [g] + FlattenAll(g.nestedGroups[..k])
    {
      collected := CollectGroups(g.nestedGroups[k], collected);
      assert g.nestedGroups[..k + 1][..k] == g.nestedGroups[..k];
    }
    assert g.nestedGroups[..|g.nestedGroups|] == g.nestedGroups;
  }

  /** `ADUser::all_groups`, pushing onto one growing collection. */
  method AllGroups(u: User) returns (all: seq<Group>)
    ensures all == AllGroupsOf(u)
  {
    all := [];
    if u.primaryGroup.Some? {
      all := all + [u.primaryGroup.value];
    }
    for k := 0 to |u.groups|
      invariant all == (if u.primaryGroup.Some? then [u.primaryGroup.value] else []) + FlattenAll(u.groups[..k])
    {
      all := CollectGroups(u.groups[k], all);
      assert u.groups[..k + 1][..k] == u.groups[..k];
    }
    assert u.groups[..|u.groups|] == u.groups;
  }

  // ---------------------------------------------------- sizes and members

  /** The number of nodes of a tree. */
  function Size(g: Group): nat {
    1 + SizeAll(g.nestedGroups)
  }

  function SizeAll(gs: seq<Group>): nat {
    if gs == [] then 0 else SizeAll(gs[..|gs| - 1]) + Size(gs[|gs| - 1])
  }

  /** `x` is `g` or a node of one of the trees below it. */
  predicate InTree(x: Group, g: Group) {
    x == g || exists c :: c in g.nestedGroups && InTree(x, c)
  }

  lemma {:induction false} FlattenSize(g: Group)
    ensures |Flatten(g)| == Size(g)
    decreases g, 1
  {
    FlattenAllSize(g.nestedGroups);
  }

  lemma {:induction false} FlattenAllSize(gs: seq<Group>)
    ensures |FlattenAll(gs)| == SizeAll(gs) >= |gs|
    decreases gs, 0
  {
    if gs != [] {
      FlattenAllSize(gs[..|gs| - 1]);
      FlattenSize(gs[|gs| - 1]);
    }
  }

  lemma {:induction false} FlattenMembers(g: Group, x: Group)
    ensures x in Flatten(g) <==> InTree(x, g)
    decreases g, 1
  {
    FlattenAllMembers(g.nestedGroups, x);
  }

  lemma {:induction false} FlattenAllMembers(gs: seq<Group>, x: Group)
    ensures x in FlattenAll(gs) <==> exists t :: t in gs && InTree(x, t)
    decreases gs, 0
  {
    if gs != [] {
      var init, last := gs[..|gs| - 1], gs[|gs| - 1];
      FlattenAllMembers(init, x);
      FlattenMembers(last, x);
      assert gs == init + [last];
      if exists t :: t in gs && InTree(x, t) {
        var t :| t in gs && InTree(x, t);
        if t != last {
          assert t in init;
        }
      }
    }
  }

  /** Pre-order: every node of the flattening is immediately followed by
      the nodes below it, as one contiguous block, so a group precedes all
      of its nested groups and sibling trees keep their stored order. */
  lemma {:induction false} PreOrderBlock(g: Group, i: nat)
    requires i < |Flatten(g)|
    ensures var x := Flatten(g)[i];
      i + |Flatten(x)| <= |Flatten(g)| && Flatten(g)[i..i + |Flatten(x)|] == Flatten(x)
    decreases g, 1
  {
    if i > 0 {
      PreOrderBlockAll(g.nestedGroups, i - 1);
      var x := Flatten(g)[i];
      var rest := FlattenAll(g.nestedGroups);
      assert Flatten(g)[i..i + |Flatten(x)|] == rest[i - 1..i - 1 + |Flatten(x)|];
    }
  }

  lemma {:induction false} PreOrderBlockAll(gs: seq<Group>, j: nat)
    requires j < |FlattenAll(gs)|
    ensures var x := FlattenAll(gs)[j];
      j + |Flatten(x)| <= |FlattenAll(gs)| && FlattenAll(gs)[j..j + |Flatten(x)|] == Flatten(x)
    decreases gs, 0
  {
    var init, last := gs[..|gs| - 1], gs[|gs| - 1];
    var front := FlattenAll(init);
    var x := FlattenAll(gs)[j];
    if j < |front| {
      PreOrderBlockAll(init, j);
      assert FlattenAll(gs)[j..j + |Flatten(x)|] == front[j..j + |Flatten(x)|];
    } else {
      PreOrderBlock(last, j - |front|);
      assert FlattenAll(gs)[j..j + |Flatten(x)|] == Flatten(last)[j - |front|..j - |front| + |Flatten(x)|];
    }
  }

  /** What `all_groups` returns: the primary group comes first when there is
      one; the length is that one plus the node count of every tree; the
      list is empty exactly when there is neither a primary group nor a
      tree; and its elements are exactly the primary group and the nodes of
      the trees. */
  lemma AllGroupsShape(u: User)
    ensures u.primaryGroup.Some? ==> AllGroupsOf(u)[0] == u.primaryGroup.value
    ensures |AllGroupsOf(u)| == (if u.primaryGroup.Some? then 1 else 0) + SizeAll(u.groups)
    ensures AllGroupsOf(u) == [] <==> u.primaryGroup.None? && u.groups == []
    ensures forall x :: x in AllGroupsOf(u) <==>
      (u.primaryGroup == Some(x) || exists t :: t in u.groups && InTree(x, t))
  {
    FlattenAllSize(u.groups);
    forall x
      ensures x in AllGroupsOf(u) <==> (u.primaryGroup == Some(x) || exists t :: t in u.groups && InTree(x, t))
    {
      FlattenAllMembers(u.groups, x);
    }
  }
}

=== FILE: names.dfy ===
/** The group-naming conventions the heuristics recognise: the built-in
    administrative groups, matched case-sensitively anywhere in the name,
    and the business keywords, matched in the lower-cased name. */
module GroupNames {
  import opened Strings

  const DOMAIN_ADMINS := "Domain Admins"
  const ENTERPRISE_ADMINS := "Enterprise Admins"
  const SCHEMA_ADMINS := "Schema Admins"
  const ACCOUNT_OPERATORS := "Account Operators"
  const SERVER_OPERATORS := "Server Operators"
  const BACKUP_OPERATORS := "Backup Operators"
  const PRINT_OPERATORS := "Print Operators"
  const REMOTE_DESKTOP_USERS := "Remote Desktop Users"
  const POWER_USERS := "Power Users"

  // Each keyword test below takes the lower-cased group name.

  predicate NamesAdmin(lower: string) {
    Contains(lower, "admin") || Contains(lower, "administrator")
  }

  predicate NamesDatabase(lower: string) {
    Contains(lower, "database") || Contains(lower, "db")
  }

  predicate NamesWriteAccess(lower: string) {
    Contains(lower, "rw") || Contains(lower, "write")
  }

  predicate NamesDeveloper(lower: string) {
    Contains(lower, "developer") || Contains(lower, "dev")
  }

  predicate NamesProduction(lower: string) {
    Contains(lower, "prod")
  }

  predicate NamesItStaff(lower: string) {
    Contains(lower, "it") && (Contains(lower, "user") || Contains(lower, "staff"))
  }

  predicate NamesReporting(lower: string) {
    Contains(lower, "reporting") || Contains(lower, "report")
  }

  predicate NamesVpn(lower: string) {
    Contains(lower, "vpn")
  }

  predicate NamesCertificate(lower: string) {
    Contains(lower, "ssl") || Contains(lower, "cert")
  }

  predicate NamesPrint(lower: string) {
    Contains(lower, "print") || Contains(lower, "printer")
  }

  predicate NamesBackup(lower: string) {
    Contains(lower, "backup") || Contains(lower, "restore")
  }

  predicate NamesBreakGlass(lower: string) {
    Contains(lower, "breakglass") || Contains(lower, "emergency")
  }

  predicate NamesTest(lower: string) {
    Contains(lower, "uat") || Contains(lower, "test")
  }

  predicate NamesLocation(lower: string) {
    Contains(lower, "office") || Contains(lower, "location")
  }
}

=== FILE: permissions.dfy ===
/** Permission synthesis and overlap detection: every group name is mapped
    to permission labels by a first-match rule table, the labels of all of
    a user's groups and rights are indexed to the sources granting them,
    and every label granted by more than one source is classified and given
    a risk level. */
module PermissionAnalyzer {
  import opened Basics
  import opened Strings
  import opened GroupNames
  import opened Models

  datatype OverlapType = Duplicate | Escalation | Redundant | Conflicting

  /** Declared most severe first: the derived ordering puts Critical first. */
  datatype RiskLevel = Critical | High | Medium | Low

  function Ordinal(l: RiskLevel): nat {
    match l
    case Critical => 0
    case High => 1
    case Medium => 2
    case Low => 3
  }

  datatype PermissionOverlap = PermissionOverlap(
    permission: string,
    description: string,
    grantingGroups: seq<string>,
    overlapType: OverlapType,
    riskLevel: RiskLevel)

  datatype RiskSummary = RiskSummary(
    criticalOverlaps: nat,
    highOverlaps: nat,
    mediumOverlaps: nat,
    lowOverlaps: nat,
    mostDangerousCombinations: seq<string>)

  /** `redundancyScore` is a percentage; the source computes it in `f32`,
      the model exactly. */
  datatype OverlapAnalysis = OverlapAnalysis(
    overlaps: seq<PermissionOverlap>,
    totalPermissions: nat,
    overlappedPermissions: nat,
    redundancyScore: real,
    riskSummary: RiskSummary)

  // ------------------------------------------------------------ rule table

  function FallbackPermissions(groupName: string): seq<string> {
    ["Standard User Rights", "Group Membership: " + groupName, "Basic Network Access"]
  }

  /** A built-in rule applies: the name contains, case-sensitively, one
      of the built-in administrative group names. */
  predicate MatchesSomeBuiltIn(groupName: string) {
    Contains(groupName, DOMAIN_ADMINS) || Contains(groupName, ENTERPRISE_ADMINS)
    || Contains(groupName, SCHEMA_ADMINS) || Contains(groupName, ACCOUNT_OPERATORS)
    || Contains(groupName, SERVER_OPERATORS) || Contains(groupName, BACKUP_OPERATORS)
    || Contains(groupName, PRINT_OPERATORS) || Contains(groupName, REMOTE_DESKTOP_USERS)
    || Contains(groupName, POWER_USERS)
  }

  /** A keyword rule applies to the lower-cased name. */
  predicate MatchesSomeKeyword(lower: string) {
    NamesAdmin(lower) || NamesDatabase(lower) || NamesDeveloper(lower) || NamesItStaff(lower)
    || NamesReporting(lower) || NamesVpn(lower) || NamesCertificate(lower) || NamesPrint(lower)
    || NamesBackup(lower) || NamesBreakGlass(lower) || NamesTest(lower) || NamesLocation(lower)
  }

  /** The built-in rules, tried in order on the name as written. */
  function BuiltInRule(groupName: string): (r: Option<seq<string>>)
    ensures r.Some? <==> MatchesSomeBuiltIn(groupName)
    ensures r.Some? ==> |r.value| >= 2
  {
    if Contains(groupName, DOMAIN_ADMINS) then
      Some(["Full Domain Control", "User Management", "Computer Management",
            "Group Policy Management", "Schema Modification", "Directory Service Access"])
    else if Contains(groupName, ENTERPRISE_ADMINS) then
      Some(["Forest-wide Administration", "Schema Modification",
            "Configuration Container Access", "Cross-Domain Access"])
    else if Contains(groupName, SCHEMA_ADMINS) then
      Some(["Schema Modification", "Directory Schema Access"])
    else if Contains(groupName, ACCOUNT_OPERATORS) then
      Some(["User Account Management", "Group Management", "OU Management"])
    else if Contains(groupName, SERVER_OPERATORS) then
      Some(["Server Management", "Service Management", "Backup/Restore Operations"])
    else if Contains(groupName, BACKUP_OPERATORS) then
      Some(["Backup Operations", "Restore Operations", "File System Access"])
    else if Contains(groupName, PRINT_OPERATORS) then
      Some(["Print Queue Management", "Printer Administration"])
    else if Contains(groupName, REMOTE_DESKTOP_USERS) then
      Some(["Remote Desktop Access", "Interactive Logon Rights"])
    else if Contains(groupName, POWER_USERS) then
      Some(["System Configuration", "Application Installation", "Performance Monitoring"])
    else
      None
  }

  /** The keyword rules, tried in order on the lower-cased name. */
  function KeywordRule(lower: string): (r: Option<seq<string>>)
    ensures r.Some? <==> MatchesSomeKeyword(lower)
    ensures r.Some? ==> |r.value| >= 2
  {
    if NamesAdmin(lower) then
      Some(["Administrative Access", "System Configuration", "User Management",
            if NamesDatabase(lower) then "Database Administration" else "General Administration"])
    else if NamesDatabase(lower) then
      Some(["Database Access", "Data Query Rights",
            if Contains(lower, "reporting") then "Database Reporting" else "Database Operations",
            if NamesWriteAccess(lower) then "Database Write Access" else "Database Read Access"])
    else if NamesDeveloper(lower) then
      Some(["Development Environment Access", "Code Repository Access", "Application Deployment",
            if NamesProduction(lower) then "Production Environment Access" else "Development Tools"])
    else if NamesItStaff(lower) then
      Some(["IT Administrative Tools", "System Monitoring", "Technical Support Access",
            "Infrastructure Management"])
    else if NamesReporting(lower) then
      Some(["Report Generation", "Data Analysis Access", "Business Intelligence"])
    else if NamesVpn(lower) then
      Some(["VPN Access", "Remote Network Access", "Secure Connectivity"])
    else if NamesCertificate(lower) then
      Some(["Certificate Management", "SSL/TLS Administration", "Security Infrastructure"])
    else if NamesPrint(lower) then
      Some(["Printer Access", "Print Queue Management", "Document Processing"])
    else if NamesBackup(lower) then
      Some(["Backup Operations", "Data Recovery", "Archive Management"])
    else if NamesBreakGlass(lower) then
      Some(["Emergency Access", "Break-Glass Privileges", "Critical System Access"])
    else if NamesTest(lower) then
      Some(["Test Environment Access", "Quality Assurance", "Pre-Production Access"])
    else if NamesLocation(lower) then
      Some(["Physical Location Access", "Office Resources", "Location-based Services"])
    else
      None
  }

  /** `get_group_permissions`: the permissions a group grants, by the first
      rule of the table that applies to its name: the built-in rules first,
      then the keyword rules, then the fallback. It is total and never
      returns an empty list, and a name no rule recognises gets exactly the
      fallback list, which embeds the name. */
  function GroupPermissions(groupName: string): (perms: seq<string>)
    ensures |perms| >= 2
    ensures !MatchesSomeBuiltIn(groupName) && !MatchesSomeKeyword(ToLower(groupName))
            ==> perms == FallbackPermissions(groupName)
  {
    match BuiltInRule(groupName)
    case Some(ps) => ps
    case None =>
      match KeywordRule(ToLower(groupName))
      case Some(ps) => ps
      case None => FallbackPermissions(groupName)
  }

  /** First match wins: a Domain Admins group gets its six labels and
      never the generic administrator list, whatever else its name holds. */
  lemma DomainAdminsRuleWins(groupName: string)
    requires Contains(groupName, DOMAIN_ADMINS)
    ensures |GroupPermissions(groupName)| == 6
    ensures GroupPermissions(groupName)[0] == "Full Domain Control"
    ensures "Administrative Access" !in GroupPermissions(groupName)
  {
  }

  /** A group that reaches the database rule gets write access exactly when
      its lower-cased name mentions "rw" or "write", else read access. */
  lemma DatabaseAccessMode(groupName: string)
    requires !MatchesSomeBuiltIn(groupName) && !NamesAdmin(ToLower(groupName))
    requires NamesDatabase(ToLower(groupName))
    ensures "Database Write Access" in GroupPermissions(groupName) <==> NamesWriteAccess(ToLower(groupName))
    ensures "Database Read Access" in GroupPermissions(groupName) <==> !NamesWriteAccess(ToLower(groupName))
  {
  }

  /** The seven labels with a hand-written description. */
  predicate IsDescribed(permission: string) {
    permission == "Full Domain Control" || permission == "Schema Modification"
    || permission == "User Account Management" || permission == "Group Management"
    || permission == "Server Management" || permission == "Backup Operations"
    || permission == "Remote Desktop Access"
  }

  /** `get_permission_description`: a fixed text for seven well-known
      labels, and the generic text embedding the label exactly for the
      others. */
  function PermissionDescription(permission: string): (d: string)
    ensures d == "Permission: " + permission <==> !IsDescribed(permission)
  {
    if permission == "Full Domain Control" then "Complete administrative control over the entire domain"
    else if permission == "Schema Modification" then "Ability to modify Active Directory schema"
    else if permission == "User Account Management" then "Create, modify, and delete user accounts"
    else if permission == "Group Management" then "Create, modify, and delete security groups"
    else if permission == "Server Management" then "Administrative access to domain servers"
    else if permission == "Backup Operations" then "Ability to backup files and directories"
    else if permission == "Remote Desktop Access" then "Can connect via Remote Desktop Services"
    else "Permission: " + permission
  }

  // -------------------------------------------------------- classification

  predicate IsCriticalPermission(permission: string) {
    permission in {"Full Domain Control", "Forest-wide Administration", "Schema Modification"}
  }

  predicate IsHighRiskPermission(permission: string) {
    permission in {"Directory Service Access", "Configuration Container Access",
                   "Cross-Domain Access", "User Management"}
  }

  predicate IsAdminPermission(permission: string) {
    Contains(permission, "Management") || Contains(permission, "Administration")
    || Contains(permission, "Operators")
  }

  predicate IsEscalationPermission(permission: string) {
    permission in {"User Account Management", "Group Management", "Schema Modification",
                   "Directory Service Access"}
  }

  predicate AnySourceContains(sources: seq<string>, needle: string) {
    exists s :: s in sources && Contains(s, needle)
  }

  predicate HasConflictingSources(sources: seq<string>) {
    AnySourceContains(sources, ACCOUNT_OPERATORS) && AnySourceContains(sources, DOMAIN_ADMINS)
  }

  predicate IsRedundantPermission(permission: string, sources: seq<string>) {
    (AnySourceContains(sources, DOMAIN_ADMINS) || AnySourceContains(sources, ENTERPRISE_ADMINS))
    && |sources| > 1
  }

  /** `determine_overlap_type`: Escalation, then Conflicting, then Redundant,
      else Duplicate. */
  function DetermineOverlapType(permission: string, sources: seq<string>): OverlapType {
    if IsEscalationPermission(permission) && |sources| > 2 then Escalation
    else if HasConflictingSources(sources) then Conflicting
    else if IsRedundantPermission(permission, sources) then Redundant
    else Duplicate
  }

  /** `assess_permission_risk`. */
  function AssessPermissionRisk(permission: string, sources: seq<string>, overlapType: OverlapType): RiskLevel {
    if IsCriticalPermission(permission) then Critical
    else if overlapType == Escalation || (overlapType == Conflicting && |sources| > 3) then High
    else if IsHighRiskPermission(permission) then High
    else if IsAdminPermission(permission) then Medium
    else Low
  }

  /** The overlap record built for one multi-source permission. */
  function MakeOverlap(permission: string, sources: seq<string>): PermissionOverlap {
    var t := DetermineOverlapType(permission, sources);
    PermissionOverlap(permission, PermissionDescription(permission), sources, t,
                      AssessPermissionRisk(permission, sources, t))
  }

  /** Overlap classification in priority order: escalation-prone labels with
      more than two sources are Escalation; otherwise the Account Operators /
      Domain Admins pair is Conflicting; otherwise a Domain or Enterprise
      Admins source makes it Redundant; otherwise it is a Duplicate. So a
      set of two or more sources naming Domain or Enterprise Admins is never
      a plain Duplicate. */
  lemma OverlapTypePriority(permission: string, sources: seq<string>)
    ensures var t := DetermineOverlapType(permission, sources);
      && (t == Escalation <==> IsEscalationPermission(permission) && |sources| > 2)
      && (t == Conflicting <==> !(IsEscalationPermission(permission) && |sources| > 2) && HasConflictingSources(sources))
      && (HasConflictingSources(sources) ==> t in {Escalation, Conflicting})
      && ((|sources| > 1 && (AnySourceContains(sources, DOMAIN_ADMINS) || AnySourceContains(sources, ENTERPRISE_ADMINS)))
          ==> t != Duplicate)
  {
  }

  /** Risk levels in priority order: Critical exactly for the critical
      labels, whatever the overlap type; an Escalation is at least High; a
      label in no list and without an administrative word is Low unless the
      overlap type raises it. */
  lemma RiskLevelPriority(permission: string, sources: seq<string>, t: OverlapType)
    ensures var l := AssessPermissionRisk(permission, sources, t);
      && (l == Critical <==> IsCriticalPermission(permission))
      && (t == Escalation ==> l in {Critical, High})
      && (!IsCriticalPermission(permission) && IsHighRiskPermission(permission) ==> l == High)
      && (l == Medium <==> !IsCriticalPermission(permission) && !IsHighRiskPermission(permission)
                           && !(t == Escalation || (t == Conflicting && |sources| > 3))
                           && IsAdminPermission(permission))
  {
  }

  // ------------------------------------------------------ permission map

  /** One entry that feeds the permission map: the name recorded as the
      source, and the permissions it grants, in order. */
  datatype Grant = Grant(source: string, permissions: seq<string>)

  /** The grants of the groups: each group grants what the rule table
      gives for its name, under its own name. */
  function GroupGrants(gs: seq<Group>): (r: seq<Grant>)
    ensures |r| == |gs|
  {
    if gs == [] then []
    else GroupGrants(gs[..|gs| - 1]) + [Grant(gs[|gs| - 1].name, GroupPermissions(gs[|gs| - 1].name))]
  }

  function RightSourceName(source: RightSource): string {
    match source
    case DirectAssignment => "Direct Assignment"
    case GroupMembership(group) => group
    case Default => "Default"
  }

  /** The grants of the user rights: each right grants its own name, under
      the name of its source. */
  function RightGrants(rights: seq<UserRight>): (r: seq<Grant>)
    ensures |r| == |rights|
  {
    if rights == [] then []
    else RightGrants(rights[..|rights| - 1])
         + [Grant(RightSourceName(rights[|rights| - 1].source), [rights[|rights| - 1].name])]
  }

  /** Everything that grants the user permissions: the groups of
      `all_groups` in order, then the user rights in order. */
  function UserGrants(u: User): seq<Grant> {
    GroupGrants(AllGroupsOf(u)) + RightGrants(u.userRights)
  }

  /** One copy of `source` per occurrence of `p` in `perms`. */
  function Hits(perms: seq<string>, p: string, source: string): seq<string> {
    if perms == [] then []
    else Hits(perms[..|perms| - 1], p, source) + (if perms[|perms| - 1] == p then [source] else [])
  }

  /** The sources granting `p`, once per granting occurrence, in order. */
  function SourcesIn(grants: seq<Grant>, p: string): seq<string> {
    if grants == [] then []
    else SourcesIn(grants[..|grants| - 1], p)
         + Hits(grants[|grants| - 1].permissions, p, grants[|grants| - 1].source)
  }

  /** Every source granting `p` to the user, without deduplication. */
  function Sources(u: User, p: string): seq<string> {
    SourcesIn(UserGrants(u), p)
  }

  /** Every permission some group or right of the user grants. */
  function GrantedPermissions(u: User): set<string> {
    set g, q | g in UserGrants(u) && q in g.permissions :: q
  }

  /** The map `build_permission_map` is meant to produce: every granted
      permission with all of its sources. */
  function PermissionMapOf(u: User): map<string, seq<string>> {
    map p | p in GrantedPermissions(u) :: Sources(u, p)
  }

  function Lookup(pm: map<string, seq<string>>, p: string): seq<string> {
    if p in pm then pm[p] else []
  }

  /** `pm.entry(q).or_insert_with(Vec::new).push(x)`. */
  function Push(pm: map<string, seq<string>>, q: string, x: string): map<string, seq<string>> {
    pm[q := Lookup(pm, q) + [x]]
  }

  lemma {:induction false} HitsNonEmpty(perms: seq<string>, p: string, source: string)
    ensures Hits(perms, p, source) != [] <==> p in perms
  {
    if perms != [] {
      HitsNonEmpty(perms[..|perms| - 1], p, source);
      assert perms == perms[..|perms| - 1] + [perms[|perms| - 1]];
    }
  }

  /** The sources of one grant for `p`: as many copies of its name as it
      lists `p`. */
  lemma {:induction false} HitsCount(perms: seq<string>, p: string, source: string)
    ensures |Hits(perms, p, source)| == multiset(perms)[p]
    ensures forall x :: x in Hits(perms, p, source) ==> x == source
  {
    if perms != [] {
      HitsCount(perms[..|perms| - 1], p, source);
      assert perms == perms[..|perms| - 1] + [perms[|perms| - 1]];
    }
  }

  /** A permission has a source exactly when some grant lists it. */
  lemma {:induction false} SourcesInNonEmpty(grants: seq<Grant>, p: string)
    ensures SourcesIn(grants, p) != [] <==> exists g :: g in grants && p in g.permissions
  {
    if grants != [] {
      var init, last := grants[..|grants| - 1], grants[|grants| - 1];
      SourcesInNonEmpty(init, p);
      HitsNonEmpty(last.permissions, p, last.source);
      assert grants == init + [last];
      if exists g :: g in grants && p in g.permissions {
        var g :| g in grants && p in g.permissions;
        if g != last {
          assert g in init;
        }
      }
    }
  }

  lemma SourcesInSnoc(grants: seq<Grant>, g: Grant, p: string)
    ensures SourcesIn(grants + [g], p) == SourcesIn(grants, p) + Hits(g.permissions, p, g.source)
  {
    assert (grants + [g])[..|grants|] == grants;
  }

  /** The sources of a concatenation of grant lists are the sources of the
      first list followed by those of the second. */
  lemma {:induction false} SourcesInConcat(a: seq<Grant>, b: seq<Grant>, p: string)
    ensures SourcesIn(a + b, p) == SourcesIn(a, p) + SourcesIn(b, p)
  {
    if b == [] {
      assert a + b == a;
    } else {
      var init, last := b[..|b| - 1], b[|b| - 1];
      SourcesInConcat(a, init, p);
      assert a + b == (a + init) + [last];
      SourcesInSnoc(a + init, last, p);
      SourcesInSnoc(init, last, p);
      ConcatAssoc(SourcesIn(a, p), SourcesIn(init, p), Hits(last.permissions, p, last.source));
    }
  }

  /** A permission is a key of the map exactly when something grants it. */
  lemma SourcesNonEmptyIffGranted(u: User, p: string)
    ensures Sources(u, p) != [] <==> p in GrantedPermissions(u)
  {
    SourcesInNonEmpty(UserGrants(u), p);
  }

  lemma ConcatAssoc(a: seq<string>, b: seq<string>, c: seq<string>)
    ensures a + b + c == a + (b + c)
  {
  }

  lemma PushLookup(pm: map<string, seq<string>>, q: string, x: string, p: string)
    ensures Lookup(Push(pm, q, x), p) == Lookup(pm, p) + (if p == q then [x] else [])
  {
  }

  /** No key of the map has an empty list. */
  ghost predicate NoEmptyList(pm: map<string, seq<string>>) {
    forall p :: p in pm ==> pm[p] != []
  }

  lemma PushKeepsNoEmptyList(pm: map<string, seq<string>>, q: string, x: string)
    requires NoEmptyList(pm)
    ensures NoEmptyList(Push(pm, q, x))
  {
  }

  /** `pm` is `pm0` with the sources of `grants` appended, key by key. */
  ghost predicate Extends(pm: map<string, seq<string>>, pm0: map<string, seq<string>>, grants: seq<Grant>) {
    forall p :: Lookup(pm, p) == Lookup(pm0, p) + SourcesIn(grants, p)
  }

  lemma HitsSnoc(perms: seq<string>, j: nat, p: string, source: string)
    requires j < |perms|
    ensures Hits(perms[..j + 1], p, source) == Hits(perms[..j], p, source) + (if perms[j] == p then [source] else [])
  {
    assert perms[..j + 1][..j] == perms[..j];
  }

  /** One step of the inner loop of `build_permission_map`, for one key. */
  lemma HitStepAt(l0: seq<string>, lBefore: seq<string>, l: seq<string>, perms: seq<string>, j: nat, p: string, source: string)
    requires j < |perms|
    requires lBefore == l0 + Hits(perms[..j], p, source)
    requires l == lBefore + (if p == perms[j] then [source] else [])
    ensures l == l0 + Hits(perms[..j + 1], p, source)
  {
    HitsSnoc(perms, j, p, source);
    ConcatAssoc(l0, Hits(perms[..j], p, source), if p == perms[j] then [source] else []);
  }

  /** One step of the inner loop of `build_permission_map`. */
  lemma HitStep(pm0: map<string, seq<string>>, pm: map<string, seq<string>>, perms: seq<string>, j: nat, source: string)
    requires j < |perms|
    requires forall p :: Lookup(pm, p) == Lookup(pm0, p) + Hits(perms[..j], p, source)
    ensures forall p :: Lookup(Push(pm, perms[j], source), p) == Lookup(pm0, p) + Hits(perms[..j + 1], p, source)
  {
    var next := Push(pm, perms[j], source);
    forall p ensures Lookup(next, p) == Lookup(pm0, p) + Hits(perms[..j + 1], p, source) {
      PushLookup(pm, perms[j], source, p);
      HitStepAt(Lookup(pm0, p), Lookup(pm, p), Lookup(next, p), perms, j, p, source);
    }
  }

  /** The per-key arithmetic of adding one grant. */
  lemma GrantStepAt(l0: seq<string>, lBefore: seq<string>, l: seq<string>, grants: seq<Grant>, g: Grant, p: string)
    requires lBefore == l0 + SourcesIn(grants, p)
    requires l == lBefore + Hits(g.permissions, p, g.source)
    ensures l == l0 + SourcesIn(grants + [g], p)
  {
    SourcesInSnoc(grants, g, p);
    ConcatAssoc(l0, SourcesIn(grants, p), Hits(g.permissions, p, g.source));
  }

  /** One step of the user-right loop of `build_permission_map`. */
  lemma RightStep(pm0: map<string, seq<string>>, pm: map<string, seq<string>>, rights: seq<UserRight>, k: nat)
    requires k < |rights|
    requires Extends(pm, pm0, RightGrants(rights[..k]))
    ensures Extends(Push(pm, rights[k].name, RightSourceName(rights[k].source)), pm0, RightGrants(rights[..k + 1]))
  {
    var g := Grant(RightSourceName(rights[k].source), [rights[k].name]);
    var front := RightGrants(rights[..k]);
    assert rights[..k + 1][..k] == rights[..k];
    assert RightGrants(rights[..k + 1]) == front + [g];
    var next := Push(pm, rights[k].name, g.source);
    forall p ensures Lookup(next, p) == Lookup(pm0, p) + SourcesIn(front + [g], p) {
      PushLookup(pm, rights[k].name, g.source, p);
      assert Hits(g.permissions, p, g.source) == (if p == rights[k].name then [g.source] else []);
      GrantStepAt(Lookup(pm0, p), Lookup(pm, p), Lookup(next, p), front, g, p);
    }
  }

  /** Appending the sources of one more grant after those of a list. */
  lemma ExtendsSnoc(pmStart: map<string, seq<string>>, pm0: map<string, seq<string>>, pm: map<string, seq<string>>,
                    grants: seq<Grant>, g: Grant)
    requires Extends(pm0, pmStart, grants)
    requires Extends(pm, pm0, [g])
    ensures Extends(pm, pmStart, grants + [g])
  {
    forall p ensures Lookup(pm, p) == Lookup(pmStart, p) + SourcesIn(grants + [g], p) {
      SourcesInSnoc([], g, p);
      GrantStepAt(Lookup(pmStart, p), Lookup(pm0, p), Lookup(pm, p), grants, g, p);
    }
  }

  lemma GroupGrantsSnoc(groups: seq<Group>, i: nat)
    requires i < |groups|
    ensures GroupGrants(groups[..i + 1]) == GroupGrants(groups[..i]) + [Grant(groups[i].name, GroupPermissions(groups[i].name))]
  {
    assert groups[..i + 1][..i] == groups[..i];
  }

  /** A map whose every list is what `Sources` gives, with no empty list,
      is the permission map of the user. */
  lemma PermissionMapByLookup(pm: map<string, seq<string>>, user: User)
    requires Extends(pm, map[], UserGrants(user))
    requires NoEmptyList(pm)
    ensures pm == PermissionMapOf(user)
  {
    forall p
      ensures p in pm <==> p in PermissionMapOf(user)
      ensures p in pm ==> pm[p] == PermissionMapOf(user)[p]
    {
      SourcesNonEmptyIffGranted(user, p);
      assert Lookup(pm, p) == [] + Sources(user, p);
    }
  }

  /** The inner loop of `build_permission_map`: the group's name is added to
      the list of every permission the group grants, once per occurrence. */
  method AddGroupPermissions(pm0: map<string, seq<string>>, group: Group) returns (pm: map<string, seq<string>>)
    requires NoEmptyList(pm0)
    ensures Extends(pm, pm0, [Grant(group.name, GroupPermissions(group.name))])
    ensures NoEmptyList(pm)
  {
    pm := pm0;
    var perms := GroupPermissions(group.name);
    for j := 0 to |perms|
      invariant forall p :: Lookup(pm, p) == Lookup(pm0, p) + Hits(perms[..j], p, group.name)
      invariant NoEmptyList(pm)
    {
      HitStep(pm0, pm, perms, j, group.name);
      PushKeepsNoEmptyList(pm, perms[j], group.name);
      pm := Push(pm, perms[j], group.name);
    }
    assert perms[..|perms|] == perms;
    forall p ensures Lookup(pm, p) == Lookup(pm0, p) + SourcesIn([Grant(group.name, perms)], p) {
      SourcesInSnoc([], Grant(group.name, perms), p);
    }
  }

  /** The second loop of `build_permission_map`: every user right adds its
      source name to the list of its own name. */
  method AddUserRights(pm0: map<string, seq<string>>, rights: seq<UserRight>) returns (pm: map<string, seq<string>>)
    requires NoEmptyList(pm0)
    ensures Extends(pm, pm0, RightGrants(rights))
    ensures NoEmptyList(pm)
  {
    pm := pm0;
    for k := 0 to |rights|
      invariant Extends(pm, pm0, RightGrants(rights[..k]))
      invariant NoEmptyList(pm)
    {
      RightStep(pm0, pm, rights, k);
      PushKeepsNoEmptyList(pm, rights[k].name, RightSourceName(rights[k].source));
      pm := Push(pm, rights[k].name, RightSourceName(rights[k].source));
    }
    assert rights[..|rights|] == rights;
  }

  /** `build_permission_map`: every group of `all_groups`, in order, adds
      its name to the list of each permission it grants; then every user
      right adds its source name to the list of its own name. */
  method BuildPermissionMap(user: User) returns (pm: map<string, seq<string>>)
    ensures pm == PermissionMapOf(user)
    ensures pm.Keys == GrantedPermissions(user)
  {
    pm := map[];
    var groups := AllGroups(user);
    for i := 0 to |groups|
      invariant Extends(pm, map[], GroupGrants(groups[..i]))
      invariant NoEmptyList(pm)
    {
      var next := AddGroupPermissions(pm, groups[i]);
      ExtendsSnoc(map[], pm, next, GroupGrants(groups[..i]), Grant(groups[i].name, GroupPermissions(groups[i].name)));
      GroupGrantsSnoc(groups, i);
      pm := next;
    }
    assert groups[..|groups|] == groups;
    pm := AddUserRights(pm, user.userRights);
    forall p ensures Lookup(pm, p) == Lookup(map[], p) + SourcesIn(UserGrants(user), p) {
      SourcesInConcat(GroupGrants(groups), RightGrants(user.userRights), p);
      ConcatAssoc([], SourcesIn(GroupGrants(groups), p), SourcesIn(RightGrants(user.userRights), p));
    }
    PermissionMapByLookup(pm, user);
    PermissionMapKeys(user);
  }

  // ------------------------------------------------------ overlaps, sorted

  /** The permissions of a list of overlap records, in order. */
  function PermissionsOf(overlaps: seq<PermissionOverlap>): (r: seq<string>)
    ensures |r| == |overlaps|
  {
    if overlaps == [] then []
    else PermissionsOf(overlaps[..|overlaps| - 1]) + [overlaps[|overlaps| - 1].permission]
  }

  lemma {:induction false} PermissionsOfAt(overlaps: seq<PermissionOverlap>, i: nat)
    requires i < |overlaps|
    ensures PermissionsOf(overlaps)[i] == overlaps[i].permission
  {
    if i < |overlaps| - 1 {
      PermissionsOfAt(overlaps[..|overlaps| - 1], i);
    }
  }

  /** The permissions held by more than one source. */
  function MultiSourcePermissions(pm: map<string, seq<string>>): set<string> {
    set p | p in pm && |pm[p]| > 1
  }

  /** `o` is the overlap record the map calls for. */
  predicate IsOverlapOf(pm: map<string, seq<string>>, o: PermissionOverlap) {
    o.permission in pm && |pm[o.permission]| > 1 && o == MakeOverlap(o.permission, pm[o.permission])
  }

  /** The elements of `s` at risk level `l`, in order. */
  function OfLevel(s: seq<PermissionOverlap>, l: RiskLevel): seq<PermissionOverlap> {
    if s == [] then []
    else OfLevel(s[..|s| - 1], l) + (if s[|s| - 1].riskLevel == l then [s[|s| - 1]] else [])
  }

  lemma OfLevelSnoc(s: seq<PermissionOverlap>, i: nat, l: RiskLevel)
    requires i < |s|
    ensures OfLevel(s[..i + 1], l) == OfLevel(s[..i], l) + (if s[i].riskLevel == l then [s[i]] else [])
  {
    assert s[..i + 1][..i] == s[..i];
  }

  /** A stable sort on the risk level: since there are four levels, it is
      the Critical elements, then the High, Medium and Low ones, each group
      in its original order. */
  function SortByLevel(s: seq<PermissionOverlap>): seq<PermissionOverlap> {
    OfLevel(s, Critical) + OfLevel(s, High) + OfLevel(s, Medium) + OfLevel(s, Low)
  }

  predicate SortedByLevel(s: seq<PermissionOverlap>) {
    forall i, j :: 0 <= i < j < |s| ==> Ordinal(s[i].riskLevel) <= Ordinal(s[j].riskLevel)
  }

  /** Every element of `s` has a level of ordinal between `lo` and `hi`. */
  predicate Within(s: seq<PermissionOverlap>, lo: nat, hi: nat) {
    forall o :: o in s ==> lo <= Ordinal(o.riskLevel) <= hi
  }

  lemma {:induction false} OfLevelShape(s: seq<PermissionOverlap>, l: RiskLevel)
    ensures Within(OfLevel(s, l), Ordinal(l), Ordinal(l))
    ensures forall o :: o in s && o.riskLevel == l ==> o in OfLevel(s, l)
  {
    if s != [] {
      OfLevelShape(s[..|s| - 1], l);
      assert s == s[..|s| - 1] + [s[|s| - 1]];
    }
  }

  /** A list whose levels are all one is sorted. */
  lemma OneLevelSorted(s: seq<PermissionOverlap>, k: nat)
    requires Within(s, k, k)
    ensures SortedByLevel(s)
  {
    forall i, j | 0 <= i < j < |s| ensures Ordinal(s[i].riskLevel) <= Ordinal(s[j].riskLevel) {
      assert s[i] in s && s[j] in s;
    }
  }

  /** Two sorted blocks, the first at levels up to `k` and the second from
      `k + 1` up to `hi`, make a sorted whole at levels up to `hi`. */
  lemma ConcatSorted(a: seq<PermissionOverlap>, b: seq<PermissionOverlap>, k: nat, hi: nat)
    requires SortedByLevel(a) && SortedByLevel(b)
    requires k < hi && Within(a, 0, k) && Within(b, k + 1, hi)
    ensures SortedByLevel(a + b) && Within(a + b, 0, hi)
  {
    var r := a + b;
    forall i, j | 0 <= i < j < |r| ensures Ordinal(r[i].riskLevel) <= Ordinal(r[j].riskLevel) {
      if j < |a| {
        assert r[i] == a[i] && r[j] == a[j];
      } else if i >= |a| {
        assert r[i] == b[i - |a|] && r[j] == b[j - |a|];
      } else {
        assert r[i] == a[i] && a[i] in a;
        assert r[j] == b[j - |a|] && b[j - |a|] in b;
      }
    }
    forall o | o in r ensures 0 <= Ordinal(o.riskLevel) <= hi {
      assert o in a || o in b;
    }
  }

  lemma WithinWiden(s: seq<PermissionOverlap>, lo: nat, hi: nat, lo': nat, hi': nat)
    requires Within(s, lo, hi) && lo' <= lo && hi <= hi'
    ensures Within(s, lo', hi')
  {
  }

  /** A level block holds every occurrence of the elements at its level
      and nothing else. */
  lemma {:induction false} OfLevelCount(s: seq<PermissionOverlap>, l: RiskLevel, x: PermissionOverlap)
    ensures multiset(OfLevel(s, l))[x] == if x.riskLevel == l then multiset(s)[x] else 0
  {
    if s != [] {
      var n := |s| - 1;
      OfLevelCount(s[..n], l, x);
      assert s == s[..n] + [s[n]];
      assert multiset(s)[x] == multiset(s[..n])[x] + (if s[n] == x then 1 else 0);
    }
  }

  /** Every element has exactly one of the four levels. */
  lemma {:induction false} LevelsCount(s: seq<PermissionOverlap>)
    ensures |OfLevel(s, Critical)| + |OfLevel(s, High)| + |OfLevel(s, Medium)| + |OfLevel(s, Low)| == |s|
  {
    if s != [] {
      LevelsCount(s[..|s| - 1]);
    }
  }

  /** The sort puts Critical first and never raises the ordinal, and it
      only reorders: the result is a permutation of the input. */
  lemma SortByLevelCorrect(s: seq<PermissionOverlap>)
    ensures SortedByLevel(SortByLevel(s))
    ensures multiset(SortByLevel(s)) == multiset(s)
  {
    var c, h, m, w := OfLevel(s, Critical), OfLevel(s, High), OfLevel(s, Medium), OfLevel(s, Low);
    OfLevelShape(s, Critical);
    OfLevelShape(s, High);
    OfLevelShape(s, Medium);
    OfLevelShape(s, Low);
    OneLevelSorted(c, 0);
    OneLevelSorted(h, 1);
    OneLevelSorted(m, 2);
    OneLevelSorted(w, 3);
    WithinWiden(c, 0, 0, 0, 0);
    ConcatSorted(c, h, 0, 1);
    ConcatSorted(c + h, m, 1, 2);
    ConcatSorted(c + h + m, w, 2, 3);
    forall x ensures multiset(c + h + m + w)[x] == multiset(s)[x] {
      OfLevelCount(s, Critical, x);
      OfLevelCount(s, High, x);
      OfLevelCount(s, Medium, x);
      OfLevelCount(s, Low, x);
    }
  }

  lemma {:induction false} NoDupMultiplicity<T>(s: seq<T>)
    ensures NoDup(s) <==> forall x :: multiset(s)[x] <= 1
  {
    if s != [] {
      var init, last := s[..|s| - 1], s[|s| - 1];
      NoDupMultiplicity(init);
      assert s == init + [last];
      if NoDup(s) {
        assert NoDup(init);
        forall k | 0 <= k < |init| ensures init[k] != last {
          assert init[k] == s[k];
        }
      }
      if forall x :: multiset(s)[x] <= 1 {
        forall x ensures multiset(init)[x] <= 1 {
          assert multiset(s)[x] == multiset(init)[x] + (if x == last then 1 else 0);
        }
        assert multiset(init)[last] == 0;
        forall i, j | 0 <= i < j < |s| ensures s[i] != s[j] {
          if j == |s| - 1 {
            assert s[i] in init;
          } else {
            assert s[i] == init[i] && s[j] == init[j];
          }
        }
      }
    }
  }

  /** The loop of `detect_overlaps`: visits the keys of the map in some
      order and keeps the overlap record of each permission with more than
      one source. */
  method CollectOverlaps(pm: map<string, seq<string>>) returns (found: seq<PermissionOverlap>)
    ensures forall o :: o in found ==> IsOverlapOf(pm, o)
    ensures forall p :: p in MultiSourcePermissions(pm) ==> p in PermissionsOf(found)
    ensures NoDup(PermissionsOf(found))
  {
    found := [];
    var remaining := pm.Keys;
    while remaining != {}
      invariant remaining <= pm.Keys
      invariant forall o :: o in found ==> IsOverlapOf(pm, o) && o.permission !in remaining
      invariant forall p :: p in pm && p !in remaining && |pm[p]| > 1 ==> p in PermissionsOf(found)
      invariant NoDup(PermissionsOf(found))
      decreases |remaining|
    {
      var p :| p in remaining;
      remaining := remaining - {p};
      if |pm[p]| > 1 {
        var o := MakeOverlap(p, pm[p]);
        PermissionsNotIn(found, p);
        assert PermissionsOf(found + [o]) == PermissionsOf(found) + [p];
        found := found + [o];
      }
    }
  }

  lemma PermissionsNotIn(found: seq<PermissionOverlap>, p: string)
    requires forall o :: o in found ==> o.permission != p
    ensures p !in PermissionsOf(found)
  {
    forall i | 0 <= i < |found| ensures PermissionsOf(found)[i] != p {
      PermissionsOfAt(found, i);
      assert found[i] in found;
    }
  }

  /** Records with distinct permissions are distinct, and records of the
      same map with the same permission are equal; so the collected records
      are exactly the overlaps of the map, without repetition. */
  lemma CollectedOverlaps(pm: map<string, seq<string>>, found: seq<PermissionOverlap>)
    requires forall o :: o in found ==> IsOverlapOf(pm, o)
    requires forall p :: p in MultiSourcePermissions(pm) ==> p in PermissionsOf(found)
    requires NoDup(PermissionsOf(found))
    ensures forall o :: o in found <==> IsOverlapOf(pm, o)
    ensures NoDup(found)
  {
    forall o | IsOverlapOf(pm, o) ensures o in found {
      assert o.permission in MultiSourcePermissions(pm);
      var k :| 0 <= k < |found| && PermissionsOf(found)[k] == o.permission;
      PermissionsOfAt(found, k);
      assert found[k] in found;
    }
    forall i, j | 0 <= i < j < |found| ensures found[i] != found[j] {
      PermissionsOfAt(found, i);
      PermissionsOfAt(found, j);
    }
  }

  /** Reordering a repetition-free list of overlap records keeps the records,
      keeps them free of repetition, and keeps their permissions distinct and
      equal to the multi-source ones. */
  lemma ReorderedOverlaps(pm: map<string, seq<string>>, found: seq<PermissionOverlap>, overlaps: seq<PermissionOverlap>)
    requires multiset(overlaps) == multiset(found)
    requires forall o :: o in found <==> IsOverlapOf(pm, o)
    requires NoDup(found)
    ensures forall o :: o in overlaps <==> IsOverlapOf(pm, o)
    ensures NoDup(overlaps)
    ensures NoDup(PermissionsOf(overlaps))
    ensures Elems(PermissionsOf(overlaps)) == MultiSourcePermissions(pm)
  {
    forall o ensures o in overlaps <==> o in found {
      assert o in overlaps <==> o in multiset(overlaps);
    }
    NoDupMultiplicity(found);
    NoDupMultiplicity(overlaps);
    var perms := PermissionsOf(overlaps);
    forall i, j | 0 <= i < j < |overlaps| ensures perms[i] != perms[j] {
      PermissionsOfAt(overlaps, i);
      PermissionsOfAt(overlaps, j);
      assert overlaps[i] in overlaps && overlaps[j] in overlaps;
    }
    forall p | p in MultiSourcePermissions(pm) ensures p in Elems(perms) {
      var o := MakeOverlap(p, pm[p]);
      assert IsOverlapOf(pm, o);
      var k :| 0 <= k < |overlaps| && overlaps[k] == o;
      PermissionsOfAt(overlaps, k);
    }
    forall p | p in Elems(perms) ensures p in MultiSourcePermissions(pm) {
      var k :| 0 <= k < |perms| && perms[k] == p;
      PermissionsOfAt(overlaps, k);
      assert overlaps[k] in overlaps;
    }
  }

  /** `detect_overlaps`: keeps each permission with more than one source,
      then sorts Critical first. The result holds exactly the overlaps the
      map calls for, one per permission. */
  method DetectOverlaps(pm: map<string, seq<string>>) returns (overlaps: seq<PermissionOverlap>)
    ensures SortedByLevel(overlaps)
    ensures forall o :: o in overlaps <==> IsOverlapOf(pm, o)
    ensures NoDup(overlaps) && NoDup(PermissionsOf(overlaps))
    ensures Elems(PermissionsOf(overlaps)) == MultiSourcePermissions(pm)
    ensures |overlaps| == |MultiSourcePermissions(pm)| <= |pm|
  {
    var found := CollectOverlaps(pm);
    CollectedOverlaps(pm, found);
    overlaps := SortByLevel(found);
    SortByLevelCorrect(found);
    ReorderedOverlaps(pm, found, overlaps);
    NoDupCard(PermissionsOf(overlaps));
    SubsetCard(MultiSourcePermissions(pm), pm.Keys);
  }

  // --------------------------------------------------------------- summary

  /** An overlap that the summary lists as a dangerous combination. */
  predicate IsDangerous(o: PermissionOverlap) {
    o.riskLevel == Critical || (o.riskLevel == High && |o.grantingGroups| > 2)
  }

  /** The text `<permission> (<source>, <source>, ...)`. */
  function Combination(o: PermissionOverlap): string {
    o.permission + " (" + Join(o.grantingGroups, ", ") + ")"
  }

  function DangerousCombinations(overlaps: seq<PermissionOverlap>): set<string> {
    set o | o in overlaps && IsDangerous(o) :: Combination(o)
  }

  lemma DangerousSnoc(s: seq<PermissionOverlap>, i: nat)
    requires i < |s|
    ensures DangerousCombinations(s[..i + 1])
            == DangerousCombinations(s[..i]) + (if IsDangerous(s[i]) then {Combination(s[i])} else {})
  {
    assert s[..i + 1] == s[..i] + [s[i]];
  }

  /** Up to `n` distinct elements of `s`, in no particular order (the order
      a hash set yields them in). */
  method TakeSome(s: set<string>, n: nat) returns (taken: seq<string>)
    ensures |taken| == Min(n, |s|)
    ensures NoDup(taken) && Elems(taken) <= s
  {
    taken := [];
    var rest := s;
    while |taken| < n && rest != {}
      invariant rest <= s && Elems(taken) <= s && Elems(taken) !! rest
      invariant NoDup(taken) && |taken| + |rest| == |s| && |taken| <= n
      decreases |rest|
    {
      var x :| x in rest;
      assert x !in Elems(taken);
      taken := taken + [x];
      rest := rest - {x};
    }
  }

  /** `calculate_risk_summary`: counts the overlaps of each level and keeps
      up to five distinct dangerous combinations. */
  method CalculateRiskSummary(overlaps: seq<PermissionOverlap>) returns (summary: RiskSummary)
    ensures summary.criticalOverlaps == |OfLevel(overlaps, Critical)|
    ensures summary.highOverlaps == |OfLevel(overlaps, High)|
    ensures summary.mediumOverlaps == |OfLevel(overlaps, Medium)|
    ensures summary.lowOverlaps == |OfLevel(overlaps, Low)|
    ensures summary.criticalOverlaps + summary.highOverlaps + summary.mediumOverlaps
            + summary.lowOverlaps == |overlaps|
    ensures |summary.mostDangerousCombinations| == Min(5, |DangerousCombinations(overlaps)|)
    ensures NoDup(summary.mostDangerousCombinations)
    ensures Elems(summary.mostDangerousCombinations) <= DangerousCombinations(overlaps)
  {
    var critical, high, medium, low := 0, 0, 0, 0;
    var dangerous: set<string> := {};
    for i := 0 to |overlaps|
      invariant critical == |OfLevel(overlaps[..i], Critical)|
      invariant high == |OfLevel(overlaps[..i], High)|
      invariant medium == |OfLevel(overlaps[..i], Medium)|
      invariant low == |OfLevel(overlaps[..i], Low)|
      invariant dangerous == DangerousCombinations(overlaps[..i])
    {
      var o := overlaps[i];
      OfLevelSnoc(overlaps, i, Critical);
      OfLevelSnoc(overlaps, i, High);
      OfLevelSnoc(overlaps, i, Medium);
      OfLevelSnoc(overlaps, i, Low);
      DangerousSnoc(overlaps, i);
      match o.riskLevel
      case Critical =>
        critical := critical + 1;
        dangerous := dangerous + {Combination(o)};
      case High =>
        high := high + 1;
        if |o.grantingGroups| > 2 {
          dangerous := dangerous + {Combination(o)};
        }
      case Medium =>
        medium := medium + 1;
      case Low =>
        low := low + 1;
    }
    assert overlaps[..|overlaps|] == overlaps;
    LevelsCount(overlaps);
    var top := TakeSome(dangerous, 5);
    summary := RiskSummary(critical, high, medium, low, top);
  }

  // ------------------------------------------------------- level counts

  /** The multi-source permissions of the map whose overlap record has
      level `l`. */
  function LevelPermissions(pm: map<string, seq<string>>, l: RiskLevel): set<string> {
    set p | p in pm && |pm[p]| > 1 && MakeOverlap(p, pm[p]).riskLevel == l
  }

  /** The overlap records of a set of permissions of the map. */
  function OverlapsFor(pm: map<string, seq<string>>, ps: set<string>): set<PermissionOverlap>
    requires ps <= pm.Keys
  {
    set p | p in ps :: MakeOverlap(p, pm[p])
  }

  /** Each permission has its own record, so there are as many records as
      permissions. */
  lemma OverlapsForCard(pm: map<string, seq<string>>, ps: set<string>)
    requires ps <= pm.Keys
    ensures |OverlapsFor(pm, ps)| == |ps|
    decreases ps
  {
    if ps != {} {
      var p :| p in ps;
      var rest := ps - {p};
      OverlapsForCard(pm, rest);
      var o := MakeOverlap(p, pm[p]);
      assert OverlapsFor(pm, ps) == OverlapsFor(pm, rest) + {o};
      assert o !in OverlapsFor(pm, rest);
    }
  }

  /** A level block holds exactly the elements of the list at that level,
      and holds them once each when the list does. */
  lemma LevelBlock(s: seq<PermissionOverlap>, l: RiskLevel)
    ensures forall o :: o in OfLevel(s, l) <==> o in s && o.riskLevel == l
    ensures NoDup(s) ==> NoDup(OfLevel(s, l))
  {
    forall o ensures o in OfLevel(s, l) <==> o in s && o.riskLevel == l {
      OfLevelCount(s, l, o);
      assert o in OfLevel(s, l) <==> o in multiset(OfLevel(s, l));
    }
    if NoDup(s) {
      NoDupMultiplicity(s);
      forall o ensures multiset(OfLevel(s, l))[o] <= 1 {
        OfLevelCount(s, l, o);
      }
      NoDupMultiplicity(OfLevel(s, l));
    }
  }

  /** The number of overlaps of level `l` in a list that holds exactly the
      overlaps of a map, once each, is fixed by the map alone. */
  lemma LevelCount(pm: map<string, seq<string>>, s: seq<PermissionOverlap>, l: RiskLevel)
    requires forall o :: o in s <==> IsOverlapOf(pm, o)
    requires NoDup(s)
    ensures |OfLevel(s, l)| == |LevelPermissions(pm, l)|
  {
    var block := OfLevel(s, l);
    LevelBlock(s, l);
    NoDupCard(block);
    assert Elems(block) == OverlapsFor(pm, LevelPermissions(pm, l)) by {
      forall o | o in OverlapsFor(pm, LevelPermissions(pm, l)) ensures o in Elems(block) {
        var p :| p in LevelPermissions(pm, l) && o == MakeOverlap(p, pm[p]);
        assert IsOverlapOf(pm, o);
      }
    }
    OverlapsForCard(pm, LevelPermissions(pm, l));
  }

  /** The number of overlaps of level `l` the user's permissions have. */
  function OverlapCount(u: User, l: RiskLevel): nat {
    |LevelPermissions(PermissionMapOf(u), l)|
  }

  /** The redundancy percentage of the user's permissions. */
  function RedundancyOf(u: User): real {
    RedundancyScore(|MultiSourcePermissions(PermissionMapOf(u))|, |GrantedPermissions(u)|)
  }

  // -------------------------------------------------------------- analysis

  lemma PermissionMapKeys(user: User)
    ensures PermissionMapOf(user).Keys == GrantedPermissions(user)
  {
  }

  /** `analyze_overlaps`: the permission map, its overlaps sorted Critical
      first, the summary, and the redundancy percentage: overlapped
      permissions over distinct permissions, 0 when there are none. */
  method AnalyzeOverlaps(user: User) returns (a: OverlapAnalysis)
    ensures SortedByLevel(a.overlaps)
    ensures forall o :: o in a.overlaps <==> IsOverlapOf(PermissionMapOf(user), o)
    ensures NoDup(PermissionsOf(a.overlaps))
    ensures a.totalPermissions == |GrantedPermissions(user)|
    ensures a.overlappedPermissions == |a.overlaps| <= a.totalPermissions
    ensures a.redundancyScore == RedundancyScore(a.overlappedPermissions, a.totalPermissions)
    ensures a.redundancyScore == RedundancyOf(user)
    ensures a.riskSummary.criticalOverlaps == OverlapCount(user, Critical)
    ensures a.riskSummary.highOverlaps == OverlapCount(user, High)
    ensures a.riskSummary.mediumOverlaps == OverlapCount(user, Medium)
    ensures a.riskSummary.lowOverlaps == OverlapCount(user, Low)
    ensures a.riskSummary.criticalOverlaps + a.riskSummary.highOverlaps
            + a.riskSummary.mediumOverlaps + a.riskSummary.lowOverlaps == |a.overlaps|
    ensures |a.riskSummary.mostDangerousCombinations| == Min(5, |DangerousCombinations(a.overlaps)|)
    ensures NoDup(a.riskSummary.mostDangerousCombinations)
    ensures Elems(a.riskSummary.mostDangerousCombinations) <= DangerousCombinations(a.overlaps)
  {
    var pm := BuildPermissionMap(user);
    var overlaps := DetectOverlaps(pm);
    var summary := CalculateRiskSummary(overlaps);
    var total := |pm|;
    var overlapped := |overlaps|;
    LevelCount(pm, overlaps, Critical);
    LevelCount(pm, overlaps, High);
    LevelCount(pm, overlaps, Medium);
    LevelCount(pm, overlaps, Low);
    a := OverlapAnalysis(overlaps, total, overlapped, RedundancyScore(overlapped, total), summary);
  }

  /** The percentage of permissions that are overlapped; 0 when there is
      no permission at all. */
  function RedundancyScore(overlapped: nat, total: nat): real {
    if total > 0 then (overlapped as real / total as real) * 100.0 else 0.0
  }

  /** The score is a percentage: `whole` times it is 100 times `part`. */
  lemma RatioBounds(part: nat, whole: nat)
    requires part <= whole
    ensures 0.0 <= RedundancyScore(part, whole) <= 100.0
    ensures whole == 0 ==> RedundancyScore(part, whole) == 0.0
    ensures whole > 0 ==> RedundancyScore(part, whole) * (whole as real) == 100.0 * (part as real)
  {
    if whole > 0 {
      var q := part as real / whole as real;
      assert q * (whole as real) == part as real;
      assert q <= 1.0;
    }
  }
}

=== FILE: risk.dfy ===
/** The risk calculator: four sub-scores accumulated as saturating bytes and
    capped at 100, each contributing risk factors to one shared list, a
    weighted and rounded combination, its four-level classification, and the
    recommendation list. */
module RiskCalculator {
  import opened Basics
  import opened Strings
  import opened GroupNames
  import opened Models
  import opened PermissionAnalyzer

  datatype RiskFactorType =
    | AdministrativeAccess
    | PrivilegedGroups
    | ServiceAccount
    | DormantAccount
    | OverlappingPermissions
    | ExcessivePrivileges
    | WeakAccountSecurity
    | CrossDomainAccess
    | DataAccess
    | PrivilegeEscalation

  datatype RiskFactor = RiskFactor(
    factorType: RiskFactorType,
    description: string,
    contribution: u8,
    severity: RiskLevel)

  datatype RiskBreakdown = RiskBreakdown(
    administrativeRisk: u8,
    permissionOverlapRisk: u8,
    accountSecurityRisk: u8,
    activityRisk: u8)

  datatype RiskAssessment = RiskAssessment(
    overallScore: u8,
    riskLevel: RiskLevel,
    contributingFactors: seq<RiskFactor>,
    recommendations: seq<string>,
    riskBreakdown: RiskBreakdown)

  /** `x.min(100)` on a byte. */
  function Cap100(x: u8): (r: u8)
    ensures r == Min(x, 100)
  {
    if x < 100 then x else 100
  }

  // ------------------------------------------------- administrative risk

  /** The arm of the administrative table a group name falls into. */
  datatype AdminArm =
    | DomainAdminsArm
    | EnterpriseAdminsArm
    | SchemaAdminsArm
    | AccountOperatorsArm
    | ServerOperatorsArm
    | BackupOperatorsArm
    | BreakGlassArm
    | AdminGroupArm(database: bool)
    | DeveloperArm(production: bool)
    | DatabaseArm(write: bool)
    | ItStaffArm
    | OtherArm

  /** The first arm that matches: the built-in names, case-sensitively, then
      the keywords on the lower-cased name. */
  function ArmOf(name: string): AdminArm {
    if Contains(name, DOMAIN_ADMINS) then DomainAdminsArm
    else if Contains(name, ENTERPRISE_ADMINS) then EnterpriseAdminsArm
    else if Contains(name, SCHEMA_ADMINS) then SchemaAdminsArm
    else if Contains(name, ACCOUNT_OPERATORS) then AccountOperatorsArm
    else if Contains(name, SERVER_OPERATORS) then ServerOperatorsArm
    else if Contains(name, BACKUP_OPERATORS) then BackupOperatorsArm
    else
      var lower := ToLower(name);
      if NamesBreakGlass(lower) then BreakGlassArm
      else if NamesAdmin(lower) then AdminGroupArm(NamesDatabase(lower))
      else if NamesDeveloper(lower) then DeveloperArm(NamesProduction(lower))
      else if NamesDatabase(lower) then DatabaseArm(NamesWriteAccess(lower))
      else if NamesItStaff(lower) then ItStaffArm
      else OtherArm
  }

  /** What a group of each arm adds to the administrative risk. */
  function ArmRisk(arm: AdminArm): u8 {
    match arm
    case DomainAdminsArm => 90
    case EnterpriseAdminsArm => 95
    case SchemaAdminsArm => 80
    case AccountOperatorsArm => 60
    case ServerOperatorsArm => 65
    case BackupOperatorsArm => 45
    case BreakGlassArm => 70
    case AdminGroupArm(database) => if database then 50 else 40
    case DeveloperArm(production) => if production then 45 else 25
    case DatabaseArm(write) => if write then 35 else 20
    case ItStaffArm => 30
    case OtherArm => 5
  }

  /** The factor a group of arm `arm` called `name` reports, if any. */
  function ArmFactor(arm: AdminArm, name: string): (f: Option<RiskFactor>)
    ensures f.Some? ==> f.value.contribution == ArmRisk(arm)
    ensures f.None? <==> ArmRisk(arm) <= 20
  {
    var risk := ArmRisk(arm);
    match arm
    case DomainAdminsArm =>
      Some(RiskFactor(AdministrativeAccess, "Member of Domain Admins group - full domain control", risk, Critical))
    case EnterpriseAdminsArm =>
      Some(RiskFactor(AdministrativeAccess, "Member of Enterprise Admins group - forest-wide control", risk, Critical))
    case SchemaAdminsArm =>
      Some(RiskFactor(AdministrativeAccess, "Member of Schema Admins group - can modify AD schema", risk, Critical))
    case AccountOperatorsArm =>
      Some(RiskFactor(PrivilegedGroups, "Member of Account Operators - can manage user accounts", risk, High))
    case ServerOperatorsArm =>
      Some(RiskFactor(PrivilegedGroups, "Member of Server Operators - can manage domain servers", risk, High))
    case BackupOperatorsArm =>
      Some(RiskFactor(PrivilegedGroups, "Member of Backup Operators - backup/restore privileges", risk, Medium))
    case BreakGlassArm =>
      Some(RiskFactor(AdministrativeAccess, "Emergency access group '" + name + "' - critical system access", risk, High))
    case AdminGroupArm(_) =>
      Some(RiskFactor(AdministrativeAccess, "Administrative group '" + name + "' - elevated privileges", risk,
                      if risk >= 50 then High else Medium))
    case DeveloperArm(_) =>
      Some(RiskFactor(DataAccess, "Developer group '" + name + "' - code/system access", risk,
                      if risk >= 40 then Medium else Low))
    case DatabaseArm(_) =>
      if risk >= 30 then
        Some(RiskFactor(DataAccess, "Database access group '" + name + "' - sensitive data access", risk, Medium))
      else None
    case ItStaffArm =>
      Some(RiskFactor(AdministrativeAccess, "IT administrative group '" + name + "' - technical privileges", risk, Medium))
    case OtherArm => None
  }

  /** What one group adds to the administrative risk, and the factor it
      reports, if any. */
  datatype Contribution = Contribution(risk: u8, factor: Option<RiskFactor>)

  /** The arm of the administrative table that matches the group name.
      Every group adds between 5 and 95; a reported factor states exactly
      what the group adds; and only the plain database group (20) and an
      unmatched group (5) report nothing. */
  function AdminContribution(name: string): (c: Contribution)
    ensures 5 <= c.risk <= 95
    ensures c.factor.Some? ==> c.factor.value.contribution == c.risk
    ensures c.factor.None? <==> c.risk <= 20
  {
    var arm := ArmOf(name);
    Contribution(ArmRisk(arm), ArmFactor(arm, name))
  }

  /** First match wins: a Domain Admins group adds 90 with a Critical
      administrative-access factor, whatever else its name holds. */
  lemma DomainAdminsContribution(name: string)
    requires Contains(name, DOMAIN_ADMINS)
    ensures AdminContribution(name).risk == 90
    ensures AdminContribution(name).factor.Some?
    ensures AdminContribution(name).factor.value.factorType == AdministrativeAccess
    ensures AdminContribution(name).factor.value.severity == Critical
  {
  }

  /** A group that no built-in name and no keyword matches adds the flat 5
      and reports nothing. */
  lemma UnmatchedContribution(name: string)
    requires !Contains(name, DOMAIN_ADMINS) && !Contains(name, ENTERPRISE_ADMINS)
    requires !Contains(name, SCHEMA_ADMINS) && !Contains(name, ACCOUNT_OPERATORS)
    requires !Contains(name, SERVER_OPERATORS) && !Contains(name, BACKUP_OPERATORS)
    requires var lower := ToLower(name);
      !NamesBreakGlass(lower) && !NamesAdmin(lower) && !NamesDeveloper(lower)
      && !NamesDatabase(lower) && !NamesItStaff(lower)
    ensures AdminContribution(name) == Contribution(5, None)
  {
    assert ArmOf(name) == OtherArm;
  }

  /** The saturating running total over the groups, in order. */
  function AdminSum(gs: seq<Group>): u8 {
    if gs == [] then 0 else SatAdd(AdminSum(gs[..|gs| - 1]), AdminContribution(gs[|gs| - 1].name).risk)
  }

  /** The plain total of the contributions. */
  function TotalContribution(gs: seq<Group>): nat {
    if gs == [] then 0 else TotalContribution(gs[..|gs| - 1]) + AdminContribution(gs[|gs| - 1].name).risk
  }

  /** The factors the groups report, in order. */
  function GroupFactors(gs: seq<Group>): seq<RiskFactor> {
    if gs == [] then []
    else GroupFactors(gs[..|gs| - 1]) + Reported(AdminContribution(gs[|gs| - 1].name).factor)
  }

  /** The factor a group reports, as a list of zero or one element. */
  function Reported(factor: Option<RiskFactor>): seq<RiskFactor> {
    match factor
    case Some(f) => [f]
    case None => []
  }

  /** Saturating accumulation is the plain total capped at 255. */
  lemma {:induction false} AdminSumCapped(gs: seq<Group>)
    ensures AdminSum(gs) == Min(TotalContribution(gs), 255)
  {
    if gs != [] {
      AdminSumCapped(gs[..|gs| - 1]);
    }
  }

  /** Every group adds at least 5 and at most 95. */
  lemma {:induction false} TotalContributionBounds(gs: seq<Group>)
    ensures 5 * |gs| <= TotalContribution(gs) <= 95 * |gs|
  {
    if gs != [] {
      TotalContributionBounds(gs[..|gs| - 1]);
    }
  }

  /** The groups counted for the escalation factor: the direct groups and
      the primary group, nested groups not included. */
  function DirectGroupCount(u: User): nat {
    |u.groups| + (if u.primaryGroup.Some? then 1 else 0)
  }

  /** The escalation contribution as written: the count above 15 is cast to
      a byte, which keeps it modulo 256, before the cap of 25. */
  function ExcessContributionAsWritten(total: nat): u8
    requires total > 15
  {
    Min((total - 15) % 256, 25)
  }

  /** The escalation contribution as intended: the count above 15, at most
      25. It is positive and never falls as the count grows. */
  function ExcessContribution(total: nat): (r: u8)
    requires total > 15
    ensures 0 < r <= 25
    ensures r == 25 <==> total >= 40
  {
    Min(total - 15, 25)
  }

  lemma ExcessMonotone(t1: nat, t2: nat)
    requires 15 < t1 <= t2
    ensures ExcessContribution(t1) <= ExcessContribution(t2)
  {
  }

  /** With 271 direct groups the byte cast wraps to 0: the factor reports a
      contribution of 0 where 270 groups report 25. */
  lemma ExcessTruncation()
    ensures ExcessContributionAsWritten(270) == 25
    ensures ExcessContributionAsWritten(271) == 0
    ensures ExcessContribution(271) == 25
  {
  }

  /** The written and the corrected contribution agree up to 270 groups;
      beyond, they differ exactly when the excess reduced modulo 256 falls
      below 25. */
  lemma ExcessAgreement(total: nat)
    requires total > 15
    ensures total <= 270 ==> ExcessContributionAsWritten(total) == ExcessContribution(total)
    ensures ExcessContributionAsWritten(total) != ExcessContribution(total)
            <==> total - 15 >= 256 && (total - 15) % 256 < 25
  {
  }

  function ExcessFactor(total: nat): RiskFactor
    requires total > 15
  {
    RiskFactor(PrivilegeEscalation,
      "Excessive group memberships (" + ToDecimal(total) + " groups) - access accumulation risk",
      ExcessContribution(total), if total > 25 then High else Medium)
  }

  /** The administrative risk of a user. */
  function AdministrativeScore(u: User): u8 {
    var base := AdminSum(AllGroupsOf(u));
    var total := DirectGroupCount(u);
    Cap100(if total > 15 then SatAdd(base, ExcessContribution(total)) else base)
  }

  /** The administrative risk as written, with the byte-cast escalation
      contribution. */
  function AdministrativeScoreAsWritten(u: User): u8 {
    var base := AdminSum(AllGroupsOf(u));
    var total := DirectGroupCount(u);
    Cap100(if total > 15 then SatAdd(base, ExcessContributionAsWritten(total)) else base)
  }

  /** The byte cast never changes the score: where the two contributions
      differ there are more than 270 direct groups, so `all_groups` holds at
      least as many, each adding at least 5, and the running total has
      already saturated at 255 whatever is added to it. */
  lemma AdministrativeScoreAgrees(u: User)
    ensures AdministrativeScoreAsWritten(u) == AdministrativeScore(u)
  {
    var gs := AllGroupsOf(u);
    var total := DirectGroupCount(u);
    if total > 15 {
      ExcessAgreement(total);
      if total > 270 {
        AllGroupsShape(u);
        FlattenAllSize(u.groups);
        assert |gs| >= total;
        TotalContributionBounds(gs);
        AdminSumCapped(gs);
        assert AdminSum(gs) == 255;
      }
    }
  }

  /** The factors the administrative risk reports. */
  function AdminFactors(u: User): seq<RiskFactor> {
    var total := DirectGroupCount(u);
    GroupFactors(AllGroupsOf(u)) + (if total > 15 then [ExcessFactor(total)] else [])
  }

  /** The administrative risk is the plain sum of what every group adds,
      plus the escalation contribution, capped at 100; so it is at least 5
      per group up to the cap. */
  lemma AdministrativeScoreIsCappedSum(u: User)
    ensures var total := DirectGroupCount(u);
      AdministrativeScore(u)
      == Min(TotalContribution(AllGroupsOf(u)) + (if total > 15 then Min(total - 15, 25) else 0), 100)
    ensures Min(5 * |AllGroupsOf(u)|, 100) <= AdministrativeScore(u) <= 100
  {
    var gs := AllGroupsOf(u);
    var total := DirectGroupCount(u);
    AdminSumCapped(gs);
    TotalContributionBounds(gs);
    var extra := if total > 15 then ExcessContribution(total) else 0;
    assert AdministrativeScore(u) == Min(Min(AdminSum(gs) + extra, 255), 100);
  }

  lemma GroupFactorsSnoc(f0: seq<RiskFactor>, gs: seq<Group>, i: nat)
    requires i < |gs|
    ensures AdminSum(gs[..i + 1]) == SatAdd(AdminSum(gs[..i]), AdminContribution(gs[i].name).risk)
    ensures f0 + GroupFactors(gs[..i + 1]) == f0 + GroupFactors(gs[..i]) + Reported(AdminContribution(gs[i].name).factor)
  {
    assert gs[..i + 1][..i] == gs[..i];
  }

  lemma AdminFactorsSplit(f0: seq<RiskFactor>, u: User)
    ensures var total := DirectGroupCount(u);
      f0 + AdminFactors(u)
      == f0 + GroupFactors(AllGroupsOf(u)) + (if total > 15 then [ExcessFactor(total)] else [])
  {
  }

  /** `calculate_administrative_risk`: adds up, saturating, what every group
      of `all_groups` contributes, reporting the factors of the matching arms,
      then the escalation factor for more than 15 direct groups, and caps the
      total at 100. */
  method AdministrativeRisk(user: User, factors0: seq<RiskFactor>) returns (risk: u8, factors: seq<RiskFactor>)
    ensures risk == AdministrativeScore(user)
    ensures risk == AdministrativeScoreAsWritten(user)
    ensures factors == factors0 + AdminFactors(user)
  {
    risk := 0;
    factors := factors0;
    var groups := AllGroups(user);
    for i := 0 to |groups|
      invariant risk == AdminSum(groups[..i])
      invariant factors == factors0 + GroupFactors(groups[..i])
    {
      GroupFactorsSnoc(factors0, groups, i);
      var c := AdminContribution(groups[i].name);
      match c.factor {
        case Some(f) => factors := factors + [f];
        case None =>
      }
      risk := SatAdd(risk, c.risk);
    }
    assert groups[..|groups|] == groups;
    AdminFactorsSplit(factors0, user);
    var total := |user.groups| + if user.primaryGroup.Some? then 1 else 0;
    if total > 15 {
      factors := factors + [ExcessFactor(total)];
      risk := SatAdd(risk, ExcessContribution(total));
    }
    risk := Cap100(risk);
    AdministrativeScoreAgrees(user);
  }

  // ------------------------------------------------------- overlap risk

  /** Rust's `as u8` on a float: truncation toward zero, saturating at 0 and
      255. */
  function SaturatingCastU8(x: real): (r: u8)
    ensures x < 1.0 ==> r == 0
    ensures 1.0 <= x < 255.0 ==> r as real <= x < r as real + 1.0
    ensures x >= 255.0 ==> r == 255
  {
    if x < 1.0 then 0 else if x >= 255.0 then 255 else x.Floor
  }

  /** Half the redundancy percentage, truncated. */
  function RedundancyRisk(redundancy: real): u8 {
    SaturatingCastU8(redundancy / 2.0)
  }

  function CriticalRisk(critical: nat): u8 {
    Min(critical * 25, 75)
  }

  function HighRisk(high: nat): u8 {
    Min(high * 15, 50)
  }

  /** The overlap risk: half the redundancy, 25 per Critical overlap up to
      75, 15 per High overlap up to 50, capped at 100. */
  function OverlapScore(redundancy: real, critical: nat, high: nat): u8 {
    Min(RedundancyRisk(redundancy) + CriticalRisk(critical) + HighRisk(high), 100)
  }

  /** `x` with one decimal, rounded half up. */
  function OneDecimal(x: real): string {
    var tenths: nat := if x <= 0.0 then 0 else (x * 10.0 + 0.5).Floor;
    ToDecimal(tenths / 10) + "." + ToDecimal(tenths % 10)
  }

  function OverlapFactors(redundancy: real, critical: nat, high: nat): seq<RiskFactor> {
    (if critical > 0 then
       [RiskFactor(OverlappingPermissions, ToDecimal(critical) + " critical permission overlaps detected",
                   CriticalRisk(critical), Critical)]
     else [])
    + (if high > 0 then
         [RiskFactor(OverlappingPermissions, ToDecimal(high) + " high-risk permission overlaps detected",
                     HighRisk(high), High)]
       else [])
    + (if redundancy > 50.0 then
         [RiskFactor(ExcessivePrivileges, "High permission redundancy: " + OneDecimal(redundancy) + "%",
                     RedundancyRisk(redundancy), Medium)]
       else [])
  }

  /** For a redundancy percentage, the redundancy part is at most 50; the
      overlap risk is at most 100, it is 0 exactly when there is no Critical
      or High overlap and the redundancy is under 2 per cent, and it grows
      with each count. */
  lemma OverlapScoreBounds(redundancy: real, critical: nat, high: nat)
    requires 0.0 <= redundancy <= 100.0
    ensures RedundancyRisk(redundancy) <= 50
    ensures OverlapScore(redundancy, critical, high) <= 100
    ensures OverlapScore(redundancy, critical, high) == 0 <==> critical == 0 && high == 0 && redundancy < 2.0
    ensures OverlapScore(redundancy, critical, high) <= OverlapScore(redundancy, critical + 1, high)
    ensures OverlapScore(redundancy, critical, high) <= OverlapScore(redundancy, critical, high + 1)
  {
  }

  /** `calculate_overlap_risk`: adds, saturating, the redundancy part and
      the Critical and High parts, reporting a factor for each nonzero count
      and one for a redundancy above 50 per cent, and caps at 100. */
  method OverlapRisk(analysis: OverlapAnalysis, factors0: seq<RiskFactor>) returns (risk: u8, factors: seq<RiskFactor>)
    ensures risk == OverlapScore(analysis.redundancyScore, analysis.riskSummary.criticalOverlaps,
                                 analysis.riskSummary.highOverlaps)
    ensures factors == factors0 + OverlapFactors(analysis.redundancyScore, analysis.riskSummary.criticalOverlaps,
                                                 analysis.riskSummary.highOverlaps)
  {
    var redundancy := analysis.redundancyScore;
    var critical := analysis.riskSummary.criticalOverlaps;
    var high := analysis.riskSummary.highOverlaps;
    risk := 0;
    factors := factors0;
    var redundancyRisk := RedundancyRisk(redundancy);
    risk := SatAdd(risk, redundancyRisk);
    if critical > 0 {
      var criticalRisk := CriticalRisk(critical);
      risk := SatAdd(risk, criticalRisk);
      factors := factors + [RiskFactor(OverlappingPermissions,
        ToDecimal(critical) + " critical permission overlaps detected", criticalRisk, Critical)];
    }
    if high > 0 {
      var highRisk := HighRisk(high);
      risk := SatAdd(risk, highRisk);
      factors := factors + [RiskFactor(OverlappingPermissions,
        ToDecimal(high) + " high-risk permission overlaps detected", highRisk, High)];
    }
    if redundancy > 50.0 {
      factors := factors + [RiskFactor(ExcessivePrivileges,
        "High permission redundancy: " + OneDecimal(redundancy) + "%", redundancyRisk, Medium)];
    }
    risk := Cap100(risk);
  }

  // ------------------------------------------------------ security risk

  /** `is_service_account`: the lower-cased account name holds one of the
      service patterns, or the password never expires and the account has
      never logged on. */
  predicate IsServiceAccount(u: User) {
    var name := ToLower(u.samAccountName);
    Contains(name, "svc") || Contains(name, "service") || Contains(name, "sql")
    || Contains(name, "iis") || Contains(name, "app") || Contains(name, "system")
    || (u.passwordNeverExpires && u.lastLogon.None?)
  }

  /** Some group of the user has "Admin", case-sensitively, in its name. */
  predicate HasAdminNamedGroup(u: User) {
    exists g :: g in AllGroupsOf(u) && Contains(g.name, "Admin")
  }

  /** What a disabled account that keeps group memberships adds. */
  function DisabledRisk(u: User): u8 {
    if !u.accountEnabled && AllGroupsOf(u) != [] then (if HasAdminNamedGroup(u) then 40 else 20) else 0
  }

  /** The account-security risk: 30 for a password that never expires, 40
      or 20 for a disabled account with groups, 15 for a locked account and
      25 for a service account, capped at 100. */
  function SecurityScore(u: User): u8 {
    Min((if u.passwordNeverExpires then 30 else 0) + DisabledRisk(u)
        + (if u.accountLocked then 15 else 0) + (if IsServiceAccount(u) then 25 else 0), 100)
  }

  /** The factors the account-security checks report. */
  const PASSWORD_FACTOR := RiskFactor(WeakAccountSecurity, "Password set to never expire", 30, Medium)
  const DISABLED_DESCRIPTION := "Disabled account with retained privileges"
  const LOCKED_FACTOR := RiskFactor(WeakAccountSecurity, "Account is currently locked", 15, Low)
  const SERVICE_FACTOR := RiskFactor(ServiceAccount, "Account appears to be a service account", 25, Medium)

  function PasswordFactors(u: User): seq<RiskFactor> {
    if u.passwordNeverExpires then [PASSWORD_FACTOR]
    else []
  }

  function DisabledFactors(u: User): seq<RiskFactor> {
    if DisabledRisk(u) > 0 then
      [RiskFactor(DormantAccount, DISABLED_DESCRIPTION, DisabledRisk(u),
                  if DisabledRisk(u) > 30 then High else Medium)]
    else []
  }

  function LockedFactors(u: User): seq<RiskFactor> {
    if u.accountLocked then [LOCKED_FACTOR] else []
  }

  function ServiceFactors(u: User): seq<RiskFactor> {
    if IsServiceAccount(u) then [SERVICE_FACTOR]
    else []
  }

  /** The factors the security risk reports, in the order of its checks. */
  function SecurityFactors(u: User): seq<RiskFactor> {
    PasswordFactors(u) + DisabledFactors(u) + LockedFactors(u) + ServiceFactors(u)
  }

  /** The security risk is at most 100, and 0 exactly when no condition
      holds; an enabled, unlocked account whose password expires and whose
      name is not a service name scores 0. */
  lemma SecurityScoreBounds(u: User)
    ensures SecurityScore(u) <= 100
    ensures SecurityScore(u) == 0 <==> SecurityFactors(u) == []
    ensures |SecurityFactors(u)| <= 4
  {
  }

  lemma AppendFour(f: seq<RiskFactor>, a: seq<RiskFactor>, b: seq<RiskFactor>, c: seq<RiskFactor>, d: seq<RiskFactor>)
    ensures f + a + b + c + d == f + (a + b + c + d)
  {
  }

  /** `calculate_account_security_risk`. */
  method SecurityRisk(user: User, factors0: seq<RiskFactor>) returns (risk: u8, factors: seq<RiskFactor>)
    ensures risk == SecurityScore(user)
    ensures factors == factors0 + SecurityFactors(user)
  {
    risk := 0;
    factors := factors0;
    if user.passwordNeverExpires {
      risk := SatAdd(risk, 30);
      factors := factors + [PASSWORD_FACTOR];
    }
    assert factors == factors0 + PasswordFactors(user);
    assert risk == if user.passwordNeverExpires then 30 else 0;
    var groups := AllGroups(user);
    if !user.accountEnabled && groups != [] {
      var disabledRisk: u8 := if HasAdminNamedGroup(user) then 40 else 20;
      risk := SatAdd(risk, disabledRisk);
      factors := factors + [RiskFactor(DormantAccount, DISABLED_DESCRIPTION,
                                       disabledRisk, if disabledRisk > 30 then High else Medium)];
    }
    assert factors == factors0 + PasswordFactors(user) + DisabledFactors(user);
    assert risk == (if user.passwordNeverExpires then 30 else 0) + DisabledRisk(user);
    if user.accountLocked {
      risk := SatAdd(risk, 15);
      factors := factors + [LOCKED_FACTOR];
    }
    assert factors == factors0 + PasswordFactors(user) + DisabledFactors(user) + LockedFactors(user);
    assert risk == (if user.passwordNeverExpires then 30 else 0) + DisabledRisk(user) + (if user.accountLocked then 15 else 0);
    if IsServiceAccount(user) {
      risk := SatAdd(risk, 25);
      factors := factors + [SERVICE_FACTOR];
    }
    AppendFour(factors0, PasswordFactors(user), DisabledFactors(user), LockedFactors(user), ServiceFactors(user));
    risk := Cap100(risk);
  }

  // ------------------------------------------------------ activity risk

  /** Whole days from `t` to `now`, truncated toward zero. */
  function DaysSince(now: Timestamp, t: Timestamp): int {
    TruncDiv(now - t, 86400)
  }

  /** The activity risk at time `now`: with a known last logon more than 90
      days ago and some group, 50 beyond 365 days and 30 otherwise; with no
      logon and some group, 40; else 0. */
  function ActivityScore(u: User, now: Timestamp): u8 {
    match u.lastLogon
    case Some(t) =>
      var days := DaysSince(now, t);
      if days > 90 && AllGroupsOf(u) != [] then (if days > 365 then 50 else 30) else 0
    case None =>
      if AllGroupsOf(u) != [] then 40 else 0
  }

  function ActivityFactors(u: User, now: Timestamp): seq<RiskFactor> {
    match u.lastLogon
    case Some(t) =>
      var days := DaysSince(now, t);
      if days > 90 && AllGroupsOf(u) != [] then
        var risk: u8 := if days > 365 then 50 else 30;
        [RiskFactor(DormantAccount,
           "Account inactive for " + ToDecimal(days) + " days with retained privileges", risk,
           if risk > 40 then High else Medium)]
      else []
    case None =>
      if AllGroupsOf(u) != [] then
        [RiskFactor(DormantAccount, "Account has never logged on but has privileges", 40, High)]
      else []
  }

  /** The activity risk is one of 0, 30, 40 and 50, it is 0 for a user
      without groups, and a factor is reported exactly when it is not 0. */
  lemma ActivityScoreValues(u: User, now: Timestamp)
    ensures ActivityScore(u, now) in {0, 30, 40, 50}
    ensures ActivityScore(u, now) <= 50
    ensures AllGroupsOf(u) == [] ==> ActivityScore(u, now) == 0
    ensures ActivityFactors(u, now) == [] <==> ActivityScore(u, now) == 0
    ensures |ActivityFactors(u, now)| <= 1
  {
  }

  /** `calculate_activity_risk`, with the clock reading `now` as a
      parameter. */
  method ActivityRisk(user: User, now: Timestamp, factors0: seq<RiskFactor>) returns (risk: u8, factors: seq<RiskFactor>)
    ensures risk == ActivityScore(user, now)
    ensures factors == factors0 + ActivityFactors(user, now)
  {
    risk := 0;
    factors := factors0;
    var groups := AllGroups(user);
    match user.lastLogon {
      case Some(lastLogon) =>
        var days := DaysSince(now, lastLogon);
        if days > 90 && groups != [] {
          var dormantRisk: u8 := if days > 365 then 50 else 30;
          risk := SatAdd(risk, dormantRisk);
          factors := factors + [RiskFactor(DormantAccount,
            "Account inactive for " + ToDecimal(days) + " days with retained privileges", dormantRisk,
            if dormantRisk > 40 then High else Medium)];
        }
      case None =>
        if groups != [] {
          risk := SatAdd(risk, 40);
          factors := factors + [RiskFactor(DormantAccount, "Account has never logged on but has privileges", 40, High)];
        }
    }
    risk := Cap100(risk);
  }

  // ------------------------------------------------------- combination

  /** The weighted sum, in hundredths: 40% administrative, 25% overlap, 20%
      security and 15% activity. */
  function Weighted(admin: u8, overlap: u8, security: u8, activity: u8): nat {
    40 * admin + 25 * overlap + 20 * security + 15 * activity
  }

  /** `combine_risk_scores`: the weighted sum rounded to the nearest
      integer, halves rounded up. */
  function CombineRiskScores(admin: u8, overlap: u8, security: u8, activity: u8): (r: u8)
    ensures 100 * r <= Weighted(admin, overlap, security, activity) + 50 < 100 * r + 100
  {
    (Weighted(admin, overlap, security, activity) + 50) / 100
  }

  /** Sub-scores of at most 100 combine to at most 100, and raising a
      sub-score never lowers the combination. */
  lemma CombineBounds(a: u8, o: u8, s: u8, v: u8, a': u8, o': u8, s': u8, v': u8)
    requires a <= 100 && o <= 100 && s <= 100 && v <= 100
    ensures CombineRiskScores(a, o, s, v) <= 100
    ensures a <= a' && o <= o' && s <= s' && v <= v' ==> CombineRiskScores(a, o, s, v) <= CombineRiskScores(a', o', s', v')
  {
  }

  /** `determine_risk_level`: 80 to 100 is Critical, 60 to 79 High, 30 to 59
      Medium, and everything else, including a byte above 100, Low. */
  function DetermineRiskLevel(score: u8): (l: RiskLevel)
    ensures l == Critical <==> 80 <= score <= 100
    ensures l == High <==> 60 <= score <= 79
    ensures l == Medium <==> 30 <= score <= 59
    ensures l == Low <==> score < 30 || score > 100
  {
    if 80 <= score <= 100 then Critical
    else if 60 <= score <= 79 then High
    else if 30 <= score <= 59 then Medium
    else Low
  }

  /** On the scores the combination produces, a higher score never gets a
      less severe level. */
  lemma RiskLevelMonotone(s1: u8, s2: u8)
    requires s1 <= s2 <= 100
    ensures Ordinal(DetermineRiskLevel(s2)) <= Ordinal(DetermineRiskLevel(s1))
  {
  }

  // --------------------------------------------------- recommendations

  predicate HasFactor(factors: seq<RiskFactor>, t: RiskFactorType) {
    exists f :: f in factors && f.factorType == t
  }

  const PAM_ADVICE := "Consider using Privileged Access Management (PAM) solutions"
  const ADMIN_BLOCK := ["Review necessity of administrative group memberships", PAM_ADVICE,
                        "Implement just-in-time access for administrative tasks"]
  const REDUNDANCY_ADVICE := "Remove redundant group memberships"
  const REDUNDANCY_BLOCK := [REDUNDANCY_ADVICE, "Implement principle of least privilege"]
  const PASSWORD_ADVICE := "Enable password expiration policy"
  const DORMANT_ADVICE := "Disable or remove unused accounts"
  const DORMANT_BLOCK := [DORMANT_ADVICE, "Implement regular account review processes"]
  const SERVICE_ADVICE := "Use Managed Service Accounts where possible"
  const SERVICE_BLOCK := [SERVICE_ADVICE, "Review service account permissions regularly"]
  const GENERAL_BLOCK := ["Implement regular access reviews", "Monitor account activity for anomalies"]

  /** The recommendations, block by block, in their fixed order. */
  function Recommendations(user: User, factors: seq<RiskFactor>, redundancy: real): seq<string> {
    (if HasFactor(factors, AdministrativeAccess) then ADMIN_BLOCK else [])
    + (if redundancy > 30.0 then REDUNDANCY_BLOCK else [])
    + (if user.passwordNeverExpires then [PASSWORD_ADVICE] else [])
    + (if HasFactor(factors, DormantAccount) then DORMANT_BLOCK else [])
    + (if HasFactor(factors, ServiceAccount) then SERVICE_BLOCK else [])
    + GENERAL_BLOCK
  }

  /** `generate_recommendations`. */
  method GenerateRecommendations(user: User, factors: seq<RiskFactor>, analysis: OverlapAnalysis)
    returns (recommendations: seq<string>)
    ensures recommendations == Recommendations(user, factors, analysis.redundancyScore)
  {
    recommendations := [];
    if exists f :: f in factors && f.factorType == AdministrativeAccess {
      recommendations := recommendations + ADMIN_BLOCK;
    }
    ghost var a := if HasFactor(factors, AdministrativeAccess) then ADMIN_BLOCK else [];
    assert recommendations == a;
    if analysis.redundancyScore > 30.0 {
      recommendations := recommendations + REDUNDANCY_BLOCK;
    }
    ghost var b := if analysis.redundancyScore > 30.0 then REDUNDANCY_BLOCK else [];
    assert recommendations == a + b;
    if user.passwordNeverExpires {
      recommendations := recommendations + [PASSWORD_ADVICE];
    }
    ghost var c := if user.passwordNeverExpires then [PASSWORD_ADVICE] else [];
    assert recommendations == a + b + c;
    if exists f :: f in factors && f.factorType == DormantAccount {
      recommendations := recommendations + DORMANT_BLOCK;
    }
    ghost var d := if HasFactor(factors, DormantAccount) then DORMANT_BLOCK else [];
    assert recommendations == a + b + c + d;
    if exists f :: f in factors && f.factorType == ServiceAccount {
      recommendations := recommendations + SERVICE_BLOCK;
    }
    ghost var e := if HasFactor(factors, ServiceAccount) then SERVICE_BLOCK else [];
    assert recommendations == a + b + c + d + e;
    recommendations := recommendations + GENERAL_BLOCK;
  }

  /** The list always ends with the two general recommendations. */
  lemma RecommendationsEnd(user: User, factors: seq<RiskFactor>, redundancy: real)
    ensures var r := Recommendations(user, factors, redundancy);
      |r| >= 2 && r[|r| - 2..] == GENERAL_BLOCK
  {
  }

  /** Privileged access management is advised exactly when some factor is
      about administrative access. */
  lemma PamAdvice(user: User, factors: seq<RiskFactor>, redundancy: real)
    ensures PAM_ADVICE in Recommendations(user, factors, redundancy) <==> HasFactor(factors, AdministrativeAccess)
  {
  }

  /** Removing redundant memberships is advised exactly above 30 per cent
      redundancy. */
  lemma RedundancyAdvice(user: User, factors: seq<RiskFactor>, redundancy: real)
    ensures REDUNDANCY_ADVICE in Recommendations(user, factors, redundancy) <==> redundancy > 30.0
  {
  }

  /** Password expiry is advised exactly when the password never expires. */
  lemma PasswordAdvice(user: User, factors: seq<RiskFactor>, redundancy: real)
    ensures PASSWORD_ADVICE in Recommendations(user, factors, redundancy) <==> user.passwordNeverExpires
  {
  }

  /** Removing unused accounts is advised exactly when some factor is about
      a dormant account. */
  lemma DormantAdvice(user: User, factors: seq<RiskFactor>, redundancy: real)
    ensures DORMANT_ADVICE in Recommendations(user, factors, redundancy) <==> HasFactor(factors, DormantAccount)
  {
  }

  /** Managed service accounts are advised exactly when some factor is about
      a service account. */
  lemma ServiceAdvice(user: User, factors: seq<RiskFactor>, redundancy: real)
    ensures SERVICE_ADVICE in Recommendations(user, factors, redundancy) <==> HasFactor(factors, ServiceAccount)
  {
  }

  // ----------------------------------------------------------- overall

  /** The four sub-scores of a user at time `now`. */
  function BreakdownOf(user: User, now: Timestamp): RiskBreakdown {
    RiskBreakdown(
      AdministrativeScore(user),
      OverlapScore(RedundancyOf(user), OverlapCount(user, Critical), OverlapCount(user, High)),
      SecurityScore(user),
      ActivityScore(user, now))
  }

  /** The overall score of a user at time `now`. */
  function OverallScore(user: User, now: Timestamp): u8 {
    var b := BreakdownOf(user, now);
    CombineRiskScores(b.administrativeRisk, b.permissionOverlapRisk, b.accountSecurityRisk, b.activityRisk)
  }

  /** Every factor the assessment reports, in the order the four stages
      report them. */
  function FactorsOf(user: User, now: Timestamp): seq<RiskFactor> {
    AdminFactors(user)
    + OverlapFactors(RedundancyOf(user), OverlapCount(user, Critical), OverlapCount(user, High))
    + SecurityFactors(user)
    + ActivityFactors(user, now)
  }

  /** Every sub-score is at most 100, hence so is the overall score. */
  lemma OverallScoreAtMost100(user: User, now: Timestamp)
    ensures var b := BreakdownOf(user, now);
      b.administrativeRisk <= 100 && b.permissionOverlapRisk <= 100
      && b.accountSecurityRisk <= 100 && b.activityRisk <= 50
    ensures OverallScore(user, now) <= 100
  {
    var b := BreakdownOf(user, now);
    AdministrativeScoreIsCappedSum(user);
    ActivityScoreValues(user, now);
    CombineBounds(b.administrativeRisk, b.permissionOverlapRisk, b.accountSecurityRisk, b.activityRisk,
                  b.administrativeRisk, b.permissionOverlapRisk, b.accountSecurityRisk, b.activityRisk);
  }

  /** `calculate_risk`, with the clock reading `now` as a parameter. */
  method CalculateRisk(user: User, now: Timestamp) returns (r: RiskAssessment)
    ensures r.riskBreakdown == BreakdownOf(user, now)
    ensures r.riskBreakdown.administrativeRisk == AdministrativeScoreAsWritten(user)
    ensures r.overallScore == OverallScore(user, now) <= 100
    ensures r.riskLevel == DetermineRiskLevel(r.overallScore)
    ensures r.contributingFactors == FactorsOf(user, now)
    ensures r.recommendations == Recommendations(user, r.contributingFactors, RedundancyOf(user))
  {
    var analysis := AnalyzeOverlaps(user);
    var factors: seq<RiskFactor> := [];
    var adminRisk, overlapRisk, securityRisk, activityRisk;
    adminRisk, factors := AdministrativeRisk(user, factors);
    assert factors == AdminFactors(user);
    overlapRisk, factors := OverlapRisk(analysis, factors);
    securityRisk, factors := SecurityRisk(user, factors);
    activityRisk, factors := ActivityRisk(user, now, factors);
    assert factors == FactorsOf(user, now);
    var total := CombineRiskScores(adminRisk, overlapRisk, securityRisk, activityRisk);
    var level := DetermineRiskLevel(total);
    var recommendations := GenerateRecommendations(user, factors, analysis);
    OverallScoreAtMost100(user, now);
    r := RiskAssessment(total, level, factors, recommendations,
                        RiskBreakdown(adminRisk, overlapRisk, securityRisk, activityRisk));
  }
}

=== FILE: scenarios.dfy ===
/** Whole-pipeline consequences for users in a single built-in group, as the
    directory side builds them (rights derived from the group names): the
    duplicated source of a Schema Admins member, and the score of a Domain
    Admins member. */
module Scenarios {
  import opened Basics
  import opened Strings
  import opened GroupNames
  import opened Models
  import opened PermissionAnalyzer
  import LdapClient
  import RiskCalculator

  // ---------------------------------------------------- name containment

  /** A needle longer than the text never occurs in it. */
  lemma NotContainedLonger(s: string, sub: string)
    requires |s| < |sub|
    ensures !Contains(s, sub)
  {
    ContainsIffOccurs(s, sub);
  }

  /** A needle as long as the text occurs in it only if it is the text. */
  lemma NotContainedSameLength(s: string, sub: string)
    requires |s| == |sub| && s != sub
    ensures !Contains(s, sub)
  {
    ContainsIffOccurs(s, sub);
  }

  // ------------------------------------------------------- rights grants

  /** The name contains none of the built-in names the seven right tests
      look for, other than `own`. */
  predicate NoOtherRightPattern(name: string, own: string) {
    (own == DOMAIN_ADMINS || !Contains(name, DOMAIN_ADMINS))
    && (own == ENTERPRISE_ADMINS || !Contains(name, ENTERPRISE_ADMINS))
    && (own == SCHEMA_ADMINS || !Contains(name, SCHEMA_ADMINS))
    && !Contains(name, ACCOUNT_OPERATORS) && !Contains(name, SERVER_OPERATORS)
    && !Contains(name, BACKUP_OPERATORS) && !Contains(name, REMOTE_DESKTOP_USERS)
  }

  /** The literal names themselves qualify. */
  lemma BuiltInNamesQualify()
    ensures Contains(SCHEMA_ADMINS, SCHEMA_ADMINS) && NoOtherRightPattern(SCHEMA_ADMINS, SCHEMA_ADMINS)
    ensures Contains(DOMAIN_ADMINS, DOMAIN_ADMINS) && NoOtherRightPattern(DOMAIN_ADMINS, DOMAIN_ADMINS)
  {
    ContainsItself(SCHEMA_ADMINS);
    ContainsItself(DOMAIN_ADMINS);
    NotContainedSameLength(SCHEMA_ADMINS, DOMAIN_ADMINS);
    NotContainedSameLength(DOMAIN_ADMINS, SCHEMA_ADMINS);
    NotContainedLonger(SCHEMA_ADMINS, ENTERPRISE_ADMINS);
    NotContainedLonger(DOMAIN_ADMINS, ENTERPRISE_ADMINS);
    NotContainedLonger(SCHEMA_ADMINS, ACCOUNT_OPERATORS);
    NotContainedLonger(DOMAIN_ADMINS, ACCOUNT_OPERATORS);
    NotContainedLonger(SCHEMA_ADMINS, SERVER_OPERATORS);
    NotContainedLonger(DOMAIN_ADMINS, SERVER_OPERATORS);
    NotContainedLonger(SCHEMA_ADMINS, BACKUP_OPERATORS);
    NotContainedLonger(DOMAIN_ADMINS, BACKUP_OPERATORS);
    NotContainedLonger(SCHEMA_ADMINS, REMOTE_DESKTOP_USERS);
    NotContainedLonger(DOMAIN_ADMINS, REMOTE_DESKTOP_USERS);
  }

  /** The rights of a single group, for the user whose only group it is. */
  lemma OnlyGroupRights(u: User, g: Group)
    requires AllGroupsOf(u) == [g]
    ensures LdapClient.RightsOf(AllGroupsOf(u)) == LdapClient.GroupRights(g.name)
  {
    assert LdapClient.RightsOf([g]) == LdapClient.RightsOf([]) + LdapClient.GroupRights(g.name);
  }

  /** The seven tests spelt out one by one. */
  lemma RightsSteps(name: string)
    ensures LdapClient.GroupRights(name)
            == LdapClient.RuleRight(name, LdapClient.RightRule(DOMAIN_ADMINS, "Full Domain Administration", "Complete control over the domain"))
            + LdapClient.RuleRight(name, LdapClient.RightRule(ENTERPRISE_ADMINS, "Enterprise Administration", "Administrative access across the forest"))
            + LdapClient.RuleRight(name, LdapClient.RightRule(SCHEMA_ADMINS, "Schema Modification", "Can modify Active Directory schema"))
            + LdapClient.RuleRight(name, LdapClient.RightRule(ACCOUNT_OPERATORS, "Account Management", "Can create and manage user accounts"))
            + LdapClient.RuleRight(name, LdapClient.RightRule(SERVER_OPERATORS, "Server Management", "Can manage domain servers"))
            + LdapClient.RuleRight(name, LdapClient.RightRule(BACKUP_OPERATORS, "Backup Rights", "Can backup and restore files"))
            + LdapClient.RuleRight(name, LdapClient.RightRule(REMOTE_DESKTOP_USERS, "Remote Desktop Access", "Can log on through Remote Desktop Services"))
  {
    var rules := LdapClient.RIGHT_RULES;
    assert LdapClient.RightsUpTo(name, 1) == LdapClient.RuleRight(name, rules[0]);
    assert LdapClient.RightsUpTo(name, 2) == LdapClient.RightsUpTo(name, 1) + LdapClient.RuleRight(name, rules[1]);
    assert LdapClient.RightsUpTo(name, 3) == LdapClient.RightsUpTo(name, 2) + LdapClient.RuleRight(name, rules[2]);
    assert LdapClient.RightsUpTo(name, 4) == LdapClient.RightsUpTo(name, 3) + LdapClient.RuleRight(name, rules[3]);
    assert LdapClient.RightsUpTo(name, 5) == LdapClient.RightsUpTo(name, 4) + LdapClient.RuleRight(name, rules[4]);
    assert LdapClient.RightsUpTo(name, 6) == LdapClient.RightsUpTo(name, 5) + LdapClient.RuleRight(name, rules[5]);
    assert LdapClient.RightsUpTo(name, 7) == LdapClient.RightsUpTo(name, 6) + LdapClient.RuleRight(name, rules[6]);
  }

  /** A Schema Admins group whose name holds no other built-in name derives
      the one right "Schema Modification". */
  lemma SchemaAdminsRights(name: string)
    requires Contains(name, SCHEMA_ADMINS) && NoOtherRightPattern(name, SCHEMA_ADMINS)
    ensures LdapClient.GroupRights(name)
            == [UserRight("Schema Modification", "Can modify Active Directory schema", GroupMembership(name))]
  {
    RightsSteps(name);
  }

  /** A Domain Admins group whose name holds no other built-in name derives
      the one right "Full Domain Administration". */
  lemma DomainAdminsRights(name: string)
    requires Contains(name, DOMAIN_ADMINS) && NoOtherRightPattern(name, DOMAIN_ADMINS)
    ensures LdapClient.GroupRights(name)
            == [UserRight("Full Domain Administration", "Complete control over the domain", GroupMembership(name))]
  {
    RightsSteps(name);
  }

  // ------------------------------------------------------------ sources

  lemma HitsPair(q1: string, q2: string, p: string, source: string)
    ensures Hits([q1, q2], p, source)
            == (if q1 == p then [source] else []) + (if q2 == p then [source] else [])
  {
    assert [q1, q2][..1] == [q1];
    assert [q1][..0] == [];
    assert Hits([q1], p, source) == Hits([], p, source) + (if q1 == p then [source] else []);
    assert Hits([q1, q2], p, source) == Hits([q1], p, source) + (if q2 == p then [source] else []);
  }

  lemma SourcesInPair(a: Grant, b: Grant, p: string)
    ensures SourcesIn([a, b], p) == Hits(a.permissions, p, a.source) + Hits(b.permissions, p, b.source)
  {
    assert [a, b][..1] == [a];
    assert [a][..0] == [];
    assert SourcesIn([a], p) == SourcesIn([], p) + Hits(a.permissions, p, a.source);
    assert SourcesIn([a, b], p) == SourcesIn([a], p) + Hits(b.permissions, p, b.source);
  }

  // ------------------------------------------------- a Schema Admin

  /** Two copies of a Schema Admins name make a Critical duplicate. */
  lemma SchemaOverlapRecord(name: string)
    requires Contains(name, SCHEMA_ADMINS) && NoOtherRightPattern(name, SCHEMA_ADMINS)
    ensures var o := MakeOverlap("Schema Modification", [name, name]);
      o.overlapType == Duplicate && o.riskLevel == Critical
  {
    var sources := [name, name];
    assert !AnySourceContains(sources, ACCOUNT_OPERATORS);
    assert !AnySourceContains(sources, DOMAIN_ADMINS);
    assert !AnySourceContains(sources, ENTERPRISE_ADMINS);
  }

  /** A user whose only group is a Schema Admins group, with the rights the
      directory side derives for it, receives "Schema Modification" twice
      under the same source name: once from the permission table and once
      from the derived right. The permission is therefore reported as a
      Critical duplicate overlap although only one group grants it. */
  lemma SchemaAdminsDuplicateSource(u: User, g: Group)
    requires AllGroupsOf(u) == [g]
    requires Contains(g.name, SCHEMA_ADMINS) && NoOtherRightPattern(g.name, SCHEMA_ADMINS)
    requires u.userRights == LdapClient.RightsOf(AllGroupsOf(u))
    ensures Sources(u, "Schema Modification") == [g.name, g.name]
    ensures "Schema Modification" in PermissionMapOf(u)
            && PermissionMapOf(u)["Schema Modification"] == [g.name, g.name]
    ensures var o := MakeOverlap("Schema Modification", [g.name, g.name]);
      o.overlapType == Duplicate && o.riskLevel == Critical
    ensures OverlapCount(u, Critical) >= 1
  {
    var sm := "Schema Modification";
    var name := g.name;
    SchemaAdminsSources(u, g);
    SourcesNonEmptyIffGranted(u, sm);
    SchemaOverlapRecord(name);
    var pm := PermissionMapOf(u);
    assert sm in LevelPermissions(pm, Critical);
    SubsetCard({sm}, LevelPermissions(pm, Critical));
  }

  /** The two grants of a lone Schema Admins group both name Schema
      Modification, under the group's name. */
  lemma SchemaAdminsSources(u: User, g: Group)
    requires AllGroupsOf(u) == [g]
    requires Contains(g.name, SCHEMA_ADMINS) && NoOtherRightPattern(g.name, SCHEMA_ADMINS)
    requires u.userRights == LdapClient.RightsOf(AllGroupsOf(u))
    ensures Sources(u, "Schema Modification") == [g.name, g.name]
  {
    var sm := "Schema Modification";
    var name := g.name;
    assert GroupPermissions(name) == ["Schema Modification", "Directory Schema Access"];
    OnlyGroupRights(u, g);
    SchemaAdminsRights(name);
    var grants := [Grant(name, GroupPermissions(name)), Grant(name, [sm])];
    assert UserGrants(u) == grants;
    SourcesInPair(grants[0], grants[1], sm);
    HitsPair("Schema Modification", "Directory Schema Access", sm, name);
    assert Hits([sm], sm, name) == [name] by {
      assert [sm][..0] == [];
    }
  }

  // ---------------------------------------------------- a Domain Admin

  /** One grant that lists no permission twice gives each permission at
      most one source. */
  lemma HitsAtMostOne(perms: seq<string>, p: string, source: string)
    requires NoDup(perms)
    ensures |Hits(perms, p, source)| <= 1
  {
    HitsCount(perms, p, source);
    NoDupMultiplicity(perms);
  }

  /** A user whose only group is a Domain Admins group, with the rights the
      directory side derives for it, holds seven permissions with one source
      each. */
  lemma DomainAdminsNoOverlap(u: User, g: Group)
    requires AllGroupsOf(u) == [g]
    requires Contains(g.name, DOMAIN_ADMINS) && NoOtherRightPattern(g.name, DOMAIN_ADMINS)
    requires u.userRights == LdapClient.RightsOf(AllGroupsOf(u))
    ensures forall p :: |Sources(u, p)| <= 1
  {
    var name := g.name;
    var perms := GroupPermissions(name);
    var all := perms + ["Full Domain Administration"];
    assert perms == ["Full Domain Control", "User Management", "Computer Management",
                     "Group Policy Management", "Schema Modification", "Directory Service Access"];
    OnlyGroupRights(u, g);
    DomainAdminsRights(name);
    var grants := [Grant(name, perms), Grant(name, ["Full Domain Administration"])];
    assert UserGrants(u) == grants;
    assert NoDup(all);
    forall p ensures |Sources(u, p)| <= 1 {
      SourcesInPair(grants[0], grants[1], p);
      assert Hits(all, p, name) == Hits(perms, p, name) + Hits(["Full Domain Administration"], p, name) by {
        assert all[..|all| - 1] == perms;
      }
      HitsAtMostOne(all, p, name);
    }
  }

  /** Hence nothing overlaps, and the overlap sub-score is 0. */
  lemma DomainAdminsOverlapScore(u: User, g: Group)
    requires AllGroupsOf(u) == [g]
    requires Contains(g.name, DOMAIN_ADMINS) && NoOtherRightPattern(g.name, DOMAIN_ADMINS)
    requires u.userRights == LdapClient.RightsOf(AllGroupsOf(u))
    ensures OverlapCount(u, Critical) == 0 && OverlapCount(u, High) == 0
    ensures RedundancyOf(u) == 0.0
    ensures RiskCalculator.OverlapScore(RedundancyOf(u), OverlapCount(u, Critical), OverlapCount(u, High)) == 0
  {
    DomainAdminsNoOverlap(u, g);
    var pm := PermissionMapOf(u);
    assert MultiSourcePermissions(pm) == {};
    assert LevelPermissions(pm, Critical) == {};
    assert LevelPermissions(pm, High) == {};
  }

  /** Such a user's only group adds 90 and the single direct group does not
      trigger the escalation contribution. */
  lemma DomainAdminsAdministrativeScore(u: User, g: Group)
    requires AllGroupsOf(u) == [g] && Contains(g.name, DOMAIN_ADMINS)
    ensures RiskCalculator.AdministrativeScore(u) == 90
  {
    RiskCalculator.DomainAdminsContribution(g.name);
    RiskCalculator.AdministrativeScoreIsCappedSum(u);
    FlattenAllSize(u.groups);
    assert RiskCalculator.TotalContribution(AllGroupsOf(u)) == 90 by {
      assert AllGroupsOf(u)[..0] == [];
    }
  }

  /** Such a user scores 90 on administrative risk and 0 on overlaps. */
  lemma DomainAdminsBreakdown(u: User, g: Group, now: Timestamp)
    requires AllGroupsOf(u) == [g]
    requires Contains(g.name, DOMAIN_ADMINS) && NoOtherRightPattern(g.name, DOMAIN_ADMINS)
    requires u.userRights == LdapClient.RightsOf(AllGroupsOf(u))
    ensures RiskCalculator.BreakdownOf(u, now).administrativeRisk == 90
    ensures RiskCalculator.BreakdownOf(u, now).permissionOverlapRisk == 0
  {
    DomainAdminsOverlapScore(u, g);
    DomainAdminsAdministrativeScore(u, g);
  }

  /** So even the worst security and activity scores leave the overall
      score at 64 or below: a Domain Admins membership alone never makes a
      user Critical. */
  lemma DomainAdminsNeverCritical(u: User, g: Group, now: Timestamp)
    requires AllGroupsOf(u) == [g]
    requires Contains(g.name, DOMAIN_ADMINS) && NoOtherRightPattern(g.name, DOMAIN_ADMINS)
    requires u.userRights == LdapClient.RightsOf(AllGroupsOf(u))
    ensures RiskCalculator.OverallScore(u, now) <= 64
    ensures RiskCalculator.DetermineRiskLevel(RiskCalculator.OverallScore(u, now)) != Critical
  {
    DomainAdminsBreakdown(u, g, now);
    var b := RiskCalculator.BreakdownOf(u, now);
    RiskCalculator.SecurityScoreBounds(u);
    RiskCalculator.ActivityScoreValues(u, now);
    CombinedBelowCritical(b.administrativeRisk, b.permissionOverlapRisk, b.accountSecurityRisk, b.activityRisk);
  }

  /** Administrative risk 90, no overlap risk, and any security and activity
      risk the stages can produce combine to at most 64, which is High at
      most. */
  lemma CombinedBelowCritical(admin: u8, overlap: u8, security: u8, activity: u8)
    requires admin == 90 && overlap == 0 && security <= 100 && activity <= 50
    ensures RiskCalculator.CombineRiskScores(admin, overlap, security, activity) <= 64
    ensures RiskCalculator.DetermineRiskLevel(RiskCalculator.CombineRiskScores(admin, overlap, security, activity)) != Critical
  {
  }
}

=== FILE: strings.dfy ===
/** The string operations of Rust's `str` that the analysis relies on:
    substring search, lower-casing, trimming, splitting on a character,
    joining, and decimal integer parsing (`str::parse`). */
module Strings {
  import opened Basics

  // ---------------------------------------------------------------- search

  predicate IsPrefix(p: string, s: string) {
    |p| <= |s| && s[..|p|] == p
  }

  /** `str::contains` with a string needle. */
  predicate Contains(s: string, sub: string)
    decreases |s|
  {
    IsPrefix(sub, s) || (|s| > 0 && Contains(s[1..], sub))
  }

  /** `sub` occurs in `s` starting at offset `i`. */
  predicate OccursAt(s: string, sub: string, i: int) {
    0 <= i && i + |sub| <= |s| && s[i..i + |sub|] == sub
  }

  /** An occurrence past the first character is an occurrence in the rest. */
  lemma OccursInRest(s: string, sub: string, i: int)
    requires OccursAt(s, sub, i) && i > 0
    ensures OccursAt(s[1..], sub, i - 1)
  {
    assert s[1..][i - 1..i - 1 + |sub|] == s[i..i + |sub|];
  }

  /** An occurrence in the rest is an occurrence one place further on. */
  lemma OccursFromRest(s: string, sub: string, i: int)
    requires |s| > 0 && OccursAt(s[1..], sub, i)
    ensures OccursAt(s, sub, i + 1)
  {
    assert s[i + 1..i + 1 + |sub|] == s[1..][i..i + |sub|];
  }

  /** `Contains` finds exactly the needles that occur at some offset. */
  lemma {:induction false} ContainsIffOccurs(s: string, sub: string)
    ensures Contains(s, sub) <==> exists i :: OccursAt(s, sub, i)
    decreases |s|
  {
    if Contains(s, sub) {
      if IsPrefix(sub, s) {
        assert OccursAt(s, sub, 0);
      } else {
        ContainsIffOccurs(s[1..], sub);
        var i :| OccursAt(s[1..], sub, i);
        OccursFromRest(s, sub, i);
      }
    } else {
      forall i | OccursAt(s, sub, i)
        ensures false
      {
        if i > 0 {
          OccursInRest(s, sub, i);
          ContainsIffOccurs(s[1..], sub);
        }
      }
    }
  }

  /** Every character of a needle that occurs in `s` also occurs in `s`;
      used to show that a literal does NOT contain another one. */
  lemma {:induction false} ContainedCharsOccur(s: string, sub: string, c: char)
    requires Contains(s, sub) && c in sub
    ensures c in s
  {
    if !IsPrefix(sub, s) {
      ContainedCharsOccur(s[1..], sub, c);
    }
  }

  lemma ContainsItself(s: string)
    ensures Contains(s, s)
  {
    assert IsPrefix(s, s);
  }

  // -------------------------------------------------------------- lowering

  /** `char::to_lowercase` on ASCII letters; every other character is kept. */
  function LowerChar(c: char): char {
    if 'A' <= c <= 'Z' then (c as int + 32) as char else c
  }

  /** `str::to_lowercase`, restricted to the ASCII letters. */
  function ToLower(s: string): (r: string)
    ensures |r| == |s|
    ensures forall i :: 0 <= i < |s| ==> r[i] == LowerChar(s[i])
  {
    if s == [] then [] else [LowerChar(s[0])] + ToLower(s[1..])
  }

  // -------------------------------------------------------------- trimming

  /** `char::is_whitespace`: the Unicode White_Space property. */
  predicate IsWhiteSpace(c: char) {
    ('\t' <= c <= '\r') || c == ' ' || c == '\U{85}' || c == '\U{A0}' || c == '\U{1680}'
    || ('\U{2000}' <= c <= '\U{200A}') || c == '\U{2028}' || c == '\U{2029}'
    || c == '\U{202F}' || c == '\U{205F}' || c == '\U{3000}'
  }

  function TrimStart(s: string): (r: string)
    decreases |s|
  {
    if |s| > 0 && IsWhiteSpace(s[0]) then TrimStart(s[1..]) else s
  }

  function TrimEnd(s: string): (r: string)
    decreases |s|
  {
    if |s| > 0 && IsWhiteSpace(s[|s| - 1]) then TrimEnd(s[..|s| - 1]) else s
  }

  /** `str::trim`: white space removed from both ends. */
  function Trim(s: string): string {
    TrimEnd(TrimStart(s))
  }

  /** The number of white-space characters `TrimStart` drops. */
  function Leading(s: string): (n: nat)
    ensures n <= |s|
    decreases |s|
  {
    if |s| > 0 && IsWhiteSpace(s[0]) then 1 + Leading(s[1..]) else 0
  }

  /** The number of white-space characters `TrimEnd` drops. */
  function Trailing(s: string): (n: nat)
    ensures n <= |s|
    decreases |s|
  {
    if |s| > 0 && IsWhiteSpace(s[|s| - 1]) then 1 + Trailing(s[..|s| - 1]) else 0
  }

  /** `TrimStart` drops exactly the leading white space. */
  lemma {:induction false} TrimStartIs(s: string)
    ensures TrimStart(s) == s[Leading(s)..]
    decreases |s|
  {
    if |s| > 0 && IsWhiteSpace(s[0]) {
      TrimStartIs(s[1..]);
      assert s[1..][Leading(s[1..])..] == s[Leading(s)..];
    }
  }

  /** `TrimEnd` drops exactly the trailing white space. */
  lemma {:induction false} TrimEndIs(s: string)
    ensures TrimEnd(s) == s[..|s| - Trailing(s)]
    decreases |s|
  {
    if |s| > 0 && IsWhiteSpace(s[|s| - 1]) {
      var p := s[..|s| - 1];
      TrimEndIs(p);
      assert p[..|p| - Trailing(p)] == s[..|s| - Trailing(s)];
    }
  }

  lemma {:induction false} TrimStartShape(s: string)
    ensures TrimStart(s) == s[Leading(s)..]
    ensures forall k :: 0 <= k < Leading(s) ==> IsWhiteSpace(s[k])
    ensures TrimStart(s) == [] || !IsWhiteSpace(TrimStart(s)[0])
    decreases |s|
  {
    if |s| > 0 && IsWhiteSpace(s[0]) {
      TrimStartShape(s[1..]);
      assert s[1..][Leading(s[1..])..] == s[Leading(s)..];
      forall k | 0 <= k < Leading(s)
        ensures IsWhiteSpace(s[k])
      {
        if k > 0 {
          assert s[k] == s[1..][k - 1];
        }
      }
    }
  }

  lemma {:induction false} TrimEndShape(s: string)
    ensures TrimEnd(s) == s[..|s| - Trailing(s)]
    ensures TrimEnd(s) == [] || !IsWhiteSpace(TrimEnd(s)[|TrimEnd(s)| - 1])
    ensures TrimEnd(s) == [] ==> forall k :: 0 <= k < |s| ==> IsWhiteSpace(s[k])
    decreases |s|
  {
    if |s| > 0 && IsWhiteSpace(s[|s| - 1]) {
      var p := s[..|s| - 1];
      TrimEndShape(p);
      assert p[..|p| - Trailing(p)] == s[..|s| - Trailing(s)];
      if TrimEnd(s) == [] {
        forall k | 0 <= k < |s|
          ensures IsWhiteSpace(s[k])
        {
          if k < |p| {
            assert s[k] == p[k];
          }
        }
      }
    }
  }

  lemma TrimFixed(r: string)
    requires r == [] || (!IsWhiteSpace(r[0]) && !IsWhiteSpace(r[|r| - 1]))
    ensures Trim(r) == r
  {
    assert TrimStart(r) == r;
  }

  /** Trimming the end keeps the first character, if anything is left. */
  lemma TrimEndFirst(t: string)
    ensures TrimEnd(t) == [] || TrimEnd(t)[0] == t[0]
  {
    TrimEndShape(t);
  }

  /** A prefix of a suffix is a slice. */
  lemma PieceOfPiece(s: string, t: string, u: string, l: nat, r: nat)
    requires l <= |s| && t == s[l..] && r <= |t| && u == t[..|t| - r]
    ensures exists i, j :: 0 <= i <= j <= |s| && u == s[i..j]
  {
    assert u == s[l..|s| - r];
  }

  /** The trimmed string starts and ends with a character that is not white
      space. */
  lemma TrimmedEnds(s: string)
    ensures Trim(s) == [] || (!IsWhiteSpace(Trim(s)[0]) && !IsWhiteSpace(Trim(s)[|Trim(s)| - 1]))
  {
    var t := TrimStart(s);
    TrimStartShape(s);
    TrimEndShape(t);
    TrimEndFirst(t);
  }

  /** A trimmed string neither starts nor ends with white space, it is a
      contiguous piece of the input, and trimming it again changes nothing. */
  lemma TrimmedShape(s: string)
    ensures exists i, j :: 0 <= i <= j <= |s| && Trim(s) == s[i..j]
    ensures Trim(s) == [] || (!IsWhiteSpace(Trim(s)[0]) && !IsWhiteSpace(Trim(s)[|Trim(s)| - 1]))
    ensures Trim(Trim(s)) == Trim(s)
  {
    var t := TrimStart(s);
    TrimStartIs(s);
    TrimEndIs(t);
    PieceOfPiece(s, t, Trim(s), Leading(s), Trailing(t));
    TrimmedEnds(s);
    TrimFixed(Trim(s));
  }

  // ------------------------------------------------------- split and join

  function IndexOf(s: string, c: char): (i: nat)
    requires c in s
    ensures i < |s| && s[i] == c && c !in s[..i]
  {
    if s[0] == c then 0 else 1 + IndexOf(s[1..], c)
  }

  /** `str::split` on a character: the pieces between the separators, always
      at least one (the empty string gives one empty piece). */
  function Split(s: string, c: char): (parts: seq<string>)
    ensures |parts| >= 1
    decreases |s|
  {
    if c in s then
      var i := IndexOf(s, c);
      [s[..i]] + Split(s[i + 1..], c)
    else [s]
  }

  /** `[T]::join`: the parts with `sep` between consecutive ones. */
  function Join(parts: seq<string>, sep: string): string {
    if |parts| == 0 then ""
    else if |parts| == 1 then parts[0]
    else parts[0] + sep + Join(parts[1..], sep)
  }

  /** Joining the pieces of a split with the separator gives the input back. */
  lemma {:induction false} JoinSplit(s: string, c: char)
    ensures Join(Split(s, c), [c]) == s
    decreases |s|
  {
    if c in s {
      var i := IndexOf(s, c);
      JoinSplit(s[i + 1..], c);
      assert Split(s, c)[1..] == Split(s[i + 1..], c);
      assert s == s[..i] + [c] + s[i + 1..];
    }
  }

  /** Splitting a join of separator-free parts gives the parts back. */
  lemma {:induction false} SplitJoin(parts: seq<string>, c: char)
    requires |parts| >= 1
    requires forall k :: 0 <= k < |parts| ==> c !in parts[k]
    ensures Split(Join(parts, [c]), c) == parts
  {
    if |parts| > 1 {
      var s := Join(parts, [c]);
      var rest := Join(parts[1..], [c]);
      assert s == parts[0] + [c] + rest;
      assert s[|parts[0]|] == c;
      assert s[..|parts[0]|] == parts[0];
      assert IndexOf(s, c) == |parts[0]|;
      assert s[|parts[0]| + 1..] == rest;
      SplitJoin(parts[1..], c);
    }
  }

  /** The first piece of a split is the text before the first separator. */
  lemma SplitFirst(s: string, c: char)
    ensures c in s ==> Split(s, c)[0] == s[..IndexOf(s, c)]
    ensures c !in s ==> Split(s, c)[0] == s
  {
  }

  function LastPiece(s: string, c: char): string {
    var parts := Split(s, c);
    parts[|parts| - 1]
  }

  /** Past a separator, the last piece is the last piece of what follows
      the first separator. */
  lemma LastPieceAfterFirst(s: string, c: char)
    requires c in s
    ensures LastPiece(s, c) == LastPiece(s[IndexOf(s, c) + 1..], c)
  {
    var i := IndexOf(s, c);
    SplitAtFirst(s, c);
    LastPieceOfParts(s, c, s[..i], s[i + 1..]);
  }

  lemma LastPieceOfParts(s: string, c: char, head: string, tail: string)
    requires Split(s, c) == [head] + Split(tail, c)
    ensures LastPiece(s, c) == LastPiece(tail, c)
  {
    LastOfCons(Split(s, c), head, Split(tail, c));
  }

  /** With a separator present, the split is the first piece followed by the
      split of the rest. */
  lemma SplitAtFirst(s: string, c: char)
    requires c in s
    ensures Split(s, c) == [s[..IndexOf(s, c)]] + Split(s[IndexOf(s, c) + 1..], c)
  {
  }

  lemma LastOfCons<T>(xs: seq<T>, x: T, rest: seq<T>)
    requires |rest| >= 1 && xs == [x] + rest
    ensures xs[|xs| - 1] == rest[|rest| - 1]
  {
  }

  /** A piece that ends the text after a separator at `i`, and is itself
      preceded by a separator whenever that text holds one, ends the whole
      text and is preceded by a separator there. */
  lemma SuffixAfterSeparator(s: string, c: char, i: nat, tail: string, l: string)
    requires i < |s| && s[i] == c && tail == s[i + 1..]
    requires |l| <= |tail| && tail[|tail| - |l|..] == l
    requires c in tail ==> |l| < |tail| && tail[|tail| - |l| - 1] == c
    requires c !in tail ==> l == tail
    ensures |l| < |s| && s[|s| - |l|..] == l && s[|s| - |l| - 1] == c
  {
    assert s[|s| - |l|..] == tail[|tail| - |l|..];
    if c in tail {
      assert s[|s| - |l| - 1] == tail[|tail| - |l| - 1];
    } else {
      assert |s| - |l| - 1 == i;
    }
  }

  /** The last piece of a split holds no separator and is a suffix of the
      input; when a separator occurs it stands just before that piece. */
  lemma {:induction false} SplitLast(s: string, c: char)
    ensures c !in LastPiece(s, c)
    ensures |LastPiece(s, c)| <= |s| && s[|s| - |LastPiece(s, c)|..] == LastPiece(s, c)
    ensures c in s ==> |LastPiece(s, c)| < |s| && s[|s| - |LastPiece(s, c)| - 1] == c
    ensures c !in s ==> LastPiece(s, c) == s
    decreases |s|
  {
    if c in s {
      var i := IndexOf(s, c);
      var tail := s[i + 1..];
      SplitLast(tail, c);
      LastPieceAfterFirst(s, c);
      SuffixAfterSeparator(s, c, i, tail, LastPiece(tail, c));
    } else {
      assert Split(s, c) == [s];
    }
  }

  // --------------------------------------------------- decimal integers

  predicate IsDigit(c: char) {
    '0' <= c <= '9'
  }

  predicate AllDigits(s: string) {
    forall k :: 0 <= k < |s| ==> IsDigit(s[k])
  }

  function DigitsValue(s: string): nat
    requires AllDigits(s)
  {
    if s == [] then 0
    else DigitsValue(s[..|s| - 1]) * 10 + (s[|s| - 1] as int - '0' as int)
  }

  /** The value of an unsigned digit string with a sign applied, if it is in
      [lo, hi] and the string is non-empty and all digits. */
  function SignedDigits(ds: string, negative: bool, lo: int, hi: int): Option<int> {
    if ds != [] && AllDigits(ds) then
      var m: int := DigitsValue(ds);
      var v := if negative then -m else m;
      if lo <= v <= hi then Some(v) else None
    else None
  }

  /** `str::parse` for an integer type whose range is [lo, hi]: an optional
      `+` (or `-` when the type is signed) followed by decimal digits; a
      lone sign, the empty string, any other character and a value out of
      range are errors (`None`). */
  function ParseInteger(s: string, signed: bool, lo: int, hi: int): (r: Option<int>)
    ensures r.Some? ==> lo <= r.value <= hi
  {
    if |s| == 0 then None
    else if (s[0] == '+' || s[0] == '-') && |s| == 1 then None
    else if s[0] == '+' then SignedDigits(s[1..], false, lo, hi)
    else if s[0] == '-' && signed then SignedDigits(s[1..], true, lo, hi)
    else SignedDigits(s, false, lo, hi)
  }

  /** The decimal spelling of a natural number, without sign or leading zeros. */
  function ToDecimal(n: nat): (s: string)
    ensures |s| >= 1 && AllDigits(s)
  {
    var d := ['0' + (n % 10) as char];
    if n < 10 then d else ToDecimal(n / 10) + d
  }

  lemma {:induction false} ToDecimalValue(n: nat)
    ensures DigitsValue(ToDecimal(n)) == n
  {
    var s := ToDecimal(n);
    if n >= 10 {
      ToDecimalValue(n / 10);
      assert s[..|s| - 1] == ToDecimal(n / 10);
    }
  }

  /** Parsing the decimal spelling of an in-range number gives it back,
      with or without a leading `-`. */
  lemma ParseDecimalRoundTrip(n: nat, signed: bool, lo: int, hi: int)
    ensures lo <= n <= hi ==> ParseInteger(ToDecimal(n), signed, lo, hi) == Some(n)
    ensures signed && lo <= -(n as int) <= hi ==> ParseInteger("-" + ToDecimal(n), signed, lo, hi) == Some(-(n as int))
  {
    ToDecimalValue(n);
    var s := ToDecimal(n);
    assert IsDigit(s[0]);
    assert ("-" + s)[1..] == s;
  }
}
